=== FILE: README.md ===
# business-framework core, modelled in Dafny

This project models the query-building and utility core of the
`com.easyway.business.framework` library:

- the string helpers of `StringUtil`: blank tests, the three-mode trim
  engine and its wrappers, join, ASCII case mapping, the base-62/base-36
  `longToString`, and the SQL literal escapes;
- the list and collection helpers of `ListUtil`, `CollectionUtil`,
  `ObjectUtil` and `PageUtil`: average partitioning, moving an element by
  neighbour swaps, the `IN (...)` builders, search, filtering, min/max and
  paging;
- the MyBatis condition model: the four `Condition` kinds and their SQL,
  `ConditionFactory`, the annotation-driven factories and
  `ConditionQuery`, which routes each condition to the list of its kind;
- the query objects `QueryPojo`, `Page` and `Grid`, which turn their
  fields, appended conditions and parameters into a `ConditionQuery`,
  together with paging arithmetic and sort-column sanitising;
- the `BaseStatusEnum` and `BaseResultCodeEnum` tables and their lookups.

The model follows Java's conventions throughout:

- A Java `null` is `None` of an `Option`; a nullable string is `JString`.
- An exception is `Err` of a `Result`, naming the exception thrown.
- The `int` computations that can overflow (the paging offsets and page
  count, join's buffer capacity) wrap explicitly (`Wrap32`), and integer
  division and remainder truncate toward zero (`JavaDiv`, `JavaRem`).
- Inheritance (`Grid` extends `Page` extends `QueryPojo`) is composition:
  each subclass holds its superclass part as a field.
- Reflection is replaced by data: a class's declared fields, level by
  level, with their current values.
- Code that mutates objects becomes classes and methods with `modifies`
  clauses, each proved against a specification function on values.
- Loops are `while` loops with invariants.

Module layout: `Base` (Java helpers), `Values` (runtime values and their
`toString`), `Lists` (a mutable `java.util.List` and filtering),
`StringUtil`, `ListUtil`, `CollectionUtil`, `ObjectUtil`, `PageUtil`,
`Conditions`, `ConditionFactory`, `AnnotationFactory`, `Query`
(`ConditionQuery`), `Pojo` (`QueryPojo`, `Page`, `Grid`) and `Enums`.

## Model

Source paths are relative to the repository root.

| member | source | states |
|---|---|---|
| StringUtil.IsBlank | src/main/java/com/easyway/business/framework/util/StringUtil.java:151-165 | true exactly when the string is null, empty or made only of Character.isWhitespace characters |
| StringUtil.IsNotBlank | src/main/java/com/easyway/business/framework/util/StringUtil.java:183-197 | exactly the negation of isBlank, although the source computes it with its own loop |
| StringUtil.ContainsChar | src/main/java/com/easyway/business/framework/util/StringUtil.java:216-222 | false for null or ""; otherwise true exactly when the character occurs somewhere in the string |
| StringUtil.ContainsStr | src/main/java/com/easyway/business/framework/util/StringUtil.java:243-249 | false when either argument is null; otherwise true exactly when the search string occurs at some position |
| StringUtil.ScanFront | src/main/java/com/easyway/business/framework/util/StringUtil.java:536-547 | the front loop stops after the longest prefix of strippable characters |
| StringUtil.ScanBack | src/main/java/com/easyway/business/framework/util/StringUtil.java:551-562 | the back loop stops before the longest strippable suffix of what the front scan left, and never passes the start index |
| StringUtil.Trim | src/main/java/com/easyway/business/framework/util/StringUtil.java:526-570 | the private trim(str, stripChars, mode) returns null for null and `str` itself for an empty stripChars; otherwise it returns the substring between the two scans (whitespace when stripChars is null, members of stripChars otherwise) |
| StringUtil.TrimSpecialCases | src/main/java/com/easyway/business/framework/util/StringUtil.java:527-557 | a null string stays null in every mode, and an empty stripChars returns the string unchanged in every mode |
| StringUtil.TrimRemovesLongestRuns | src/main/java/com/easyway/business/framework/util/StringUtil.java:531-569 | the result is s[start..end): mode <= 0 removes the longest strippable prefix and mode >= 0 the longest strippable suffix of the rest; a side that is not scanned is kept, and the characters between are unchanged |
| StringUtil.TrimmedFrontClean | src/main/java/com/easyway/business/framework/util/StringUtil.java:536-548 | after a front-scanning trim the result has no strippable character left at its front |
| StringUtil.TrimmedBackClean | src/main/java/com/easyway/business/framework/util/StringUtil.java:551-563 | after a back-scanning trim the result has no strippable character left at its back |
| StringUtil.TrimCoreIdempotent | src/main/java/com/easyway/business/framework/util/StringUtil.java:526-570 | trimming the characters between the scans a second time changes nothing |
| StringUtil.TrimSpecIdempotent | src/main/java/com/easyway/business/framework/util/StringUtil.java:526-570 | trim applied twice with the same stripChars and mode equals trim applied once, including the null and empty-stripChars cases |
| StringUtil.TrimWith | src/main/java/com/easyway/business/framework/util/StringUtil.java:344-346 | trim(str, stripChars) is the engine with mode 0 (both ends) |
| StringUtil.TrimStart | src/main/java/com/easyway/business/framework/util/StringUtil.java:369-371 | trimStart(str) strips leading Character.isWhitespace characters only (mode -1, null stripChars) |
| StringUtil.TrimStartWith | src/main/java/com/easyway/business/framework/util/StringUtil.java:391-393 | trimStart(str, stripChars) strips leading members of stripChars only (mode -1) |
| StringUtil.TrimEnd | src/main/java/com/easyway/business/framework/util/StringUtil.java:416-418 | trimEnd(str) strips trailing Character.isWhitespace characters only (mode 1, null stripChars) |
| StringUtil.TrimEndWith | src/main/java/com/easyway/business/framework/util/StringUtil.java:438-440 | trimEnd(str, stripChars) strips trailing members of stripChars only (mode 1) |
| StringUtil.TrimToNullWith | src/main/java/com/easyway/business/framework/util/StringUtil.java:465-473 | null exactly when trim(str, stripChars) is null or empty; otherwise that trimmed string |
| StringUtil.TrimToEmptyWith | src/main/java/com/easyway/business/framework/util/StringUtil.java:497-505 | never null: "" where trim(str, stripChars) is null, otherwise the trimmed string |
| StringUtil.TrimString | src/main/java/com/easyway/business/framework/util/StringUtil.java:271-273 | trim(str) is null exactly for null; otherwise String.trim, which strips characters up to U+0020 at both ends |
| StringUtil.TrimToNullVersusEmpty | src/main/java/com/easyway/business/framework/util/StringUtil.java:290-325 | trimToNull is null exactly when trimToEmpty is "", and otherwise they agree; trimToEmpty(null) is "" and on a non-null string both agree with trim |
| StringUtil.TrimToNull | src/main/java/com/easyway/business/framework/util/StringUtil.java:290-302 | null for null and for a string that String.trim empties; otherwise the trimmed string, which is non-empty and has a character above U+0020 at both ends |
| StringUtil.TrimToEmpty | src/main/java/com/easyway/business/framework/util/StringUtil.java:319-325 | "" for null, otherwise String.trim of the string; a non-empty result has a character above U+0020 at both ends |
| StringUtil.Join | src/main/java/com/easyway/business/framework/util/StringUtil.java:713-743 | null for a null array; a null separator counts as ""; a buffer capacity that wraps to a negative int throws NegativeArraySizeException; otherwise null elements print as "" and the separator stands between neighbours only (the Joined form) |
| StringUtil.JoinChar | src/main/java/com/easyway/business/framework/util/StringUtil.java:670-691 | the same for a one-character separator, with the capacity (first length + 1) * size deciding whether it throws |
| StringUtil.AppendAll | src/main/java/com/easyway/business/framework/util/StringUtil.java:732-740 | the append loop builds exactly the Joined form of the printed elements |
| StringUtil.JoinCapacityFits | src/main/java/com/easyway/business/framework/util/StringUtil.java:725-728 | while size * (first length + separator length) fits in an int, the capacity is that product and join does not throw |
| StringUtil.JoinCharCapacityFits | src/main/java/com/easyway/business/framework/util/StringUtil.java:676-678 | while (first length + 1) * size fits in an int, the capacity is that product and join(Object[], char) does not throw |
| StringUtil.JoinCapacityOverflow | src/main/java/com/easyway/business/framework/util/StringUtil.java:725-728 | 65536 elements whose first prints 32768 characters, with an empty separator: the capacity wraps to Integer.MIN_VALUE |
| StringUtil.JoinCharCapacityOverflow | src/main/java/com/easyway/business/framework/util/StringUtil.java:676-678 | the char form with a first element of 32767 characters and 65536 elements: the capacity wraps to Integer.MIN_VALUE |
| StringUtil.JoinExample | src/main/java/com/easyway/business/framework/util/StringUtil.java:656-660 | the documented examples: [null, "", "a"] joined with ';' is ";;a", and with no separator it is "a" |
| Base.JoinedLength | src/main/java/com/easyway/business/framework/util/StringUtil.java:732-740 | a join of n parts holds all the parts plus exactly n - 1 separators |
| Base.JoinedAppend | src/main/java/com/easyway/business/framework/util/StringUtil.java:732-740 | joining two non-empty lists is joining their joins with one separator between |
| StringUtil.ToUpperAscii | src/main/java/com/easyway/business/framework/util/StringUtil.java:1052-1057 | a lower-case ASCII letter becomes the upper-case letter 0x20 below it; every other character is unchanged |
| StringUtil.ToLowerAscii | src/main/java/com/easyway/business/framework/util/StringUtil.java:1059-1064 | an upper-case ASCII letter becomes the lower-case letter 0x20 above it; every other character is unchanged |
| StringUtil.ToLowerCase | src/main/java/com/easyway/business/framework/util/StringUtil.java:927-933 | null for null; otherwise every character lower-cased (ASCII letters) |
| StringUtil.ToUpperCaseUpTo | src/main/java/com/easyway/business/framework/util/StringUtil.java:886-896 | toUpperCase(str, index): null for null; the same length; characters 0..index upper-cased and the rest kept, or the whole string upper-cased when index < 0 or index >= length |
| StringUtil.Alphabet | src/main/java/com/easyway/business/framework/util/StringUtil.java:1111-1112 | DIGITS has 62 symbols and DIGITS_NOCASE 36 |
| StringUtil.AlphabetDigitValue | src/main/java/com/easyway/business/framework/util/StringUtil.java:1111-1112 | reading the d-th symbol of either alphabet back gives d, so the symbols are distinct |
| StringUtil.DecodeEncode | src/main/java/com/easyway/business/framework/util/StringUtil.java:1134-1139 | the digits the loop emits, read least significant first in the alphabet's base, give back the number |
| StringUtil.EncodeInAlphabet | src/main/java/com/easyway/business/framework/util/StringUtil.java:1134-1139 | every emitted digit is a symbol of the alphabet in use, and a positive number emits at least one |
| StringUtil.LongToStringSpecProperties | src/main/java/com/easyway/business/framework/util/StringUtil.java:1120-1142 | the intended result is never empty, uses only alphabet symbols, reads back (least significant first) as the absolute value, and is the same for v and -v; 0 gives "0" |
| StringUtil.MinValueRemainder | src/main/java/com/easyway/business/framework/util/StringUtil.java:1128-1135 | for Long.MIN_VALUE, whose negation is itself, the first remainder is -8 in either base |
| StringUtil.DigitRound | src/main/java/com/easyway/business/framework/util/StringUtil.java:1134-1139 | one round of the digit loop: a positive value emits its least significant digit and continues with the quotient; the negative value left by Long.MIN_VALUE gives a negative digit |
| StringUtil.LongToString | src/main/java/com/easyway/business/framework/util/StringUtil.java:1120-1142 | for every long other than Long.MIN_VALUE the result is the intended base-62 (or base-36) string; for Long.MIN_VALUE the digit table is indexed with a negative value and the call throws |
| StringUtil.ReplaceChar | src/main/java/com/easyway/business/framework/util/StringUtil.java:1187-1189 | String.replace of one character: the target is gone when the replacement does not hold it |
| StringUtil.ReplaceCharAppend | src/main/java/com/easyway/business/framework/util/StringUtil.java:1187-1189 | replacing a character in a concatenation replaces it in each part |
| StringUtil.FormatLikeIsPerCharEscape | src/main/java/com/easyway/business/framework/util/StringUtil.java:1197-1200 | the five chained replacements act character by character: ' becomes '', [ becomes [[], % becomes [%], _ becomes [_] and ^ becomes [^], and no later replacement touches what an earlier one inserted |
| StringUtil.FormatBaseRoundTrip | src/main/java/com/easyway/business/framework/util/StringUtil.java:1187-1189 | formatBaseQueryParam doubles every single quote and loses nothing: reading a doubled quote as one quote gives back the input |
| StringUtil.FormatLikeRoundTrip | src/main/java/com/easyway/business/framework/util/StringUtil.java:1197-1200 | formatLikeQueryParam succeeds on every non-null string and its escaping can be undone to give back the input |
| StringUtil.LikeEscapeRoundTrip | src/main/java/com/easyway/business/framework/util/StringUtil.java:1197-1200 | the per-character escape has an inverse |
| ListUtil.PartStartClosed | src/main/java/com/easyway/business/framework/util/ListUtil.java:26-37 | part i starts at i * (size / n) plus one for each of the first size % n parts before it |
| ListUtil.PartStartBound | src/main/java/com/easyway/business/framework/util/ListUtil.java:29-37 | every part lies inside the source, and the n parts end exactly at its end |
| ListUtil.AverageAssignStep | src/main/java/com/easyway/business/framework/util/ListUtil.java:31-36 | the subList bounds i * number + offset (+ 1) of round i are where part i starts and ends |
| ListUtil.AverageAssignRound | src/main/java/com/easyway/business/framework/util/ListUtil.java:31-37 | one round takes source[begin..end) of the part's size, one longer while a remainder is left, and uses up one unit of the remainder |
| ListUtil.AssignParts | src/main/java/com/easyway/business/framework/util/ListUtil.java:29-39 | the loop builds exactly n parts whose concatenation is the source, part k having its part size |
| ListUtil.AverageAssign | src/main/java/com/easyway/business/framework/util/ListUtil.java:24-41 | a null source throws NullPointerException; n == 0 divides by zero; n < 0 gives an empty list; otherwise exactly n sublists, concatenating to the source in order, the first size % n one element longer than the rest |
| ListUtil.MovedElements | src/main/java/com/easyway/business/framework/util/ListUtil.java:62-80 | the element at oldPosition lands at newPosition, the elements between shift one step toward oldPosition, and nothing outside that range moves |
| ListUtil.MovedPermutes | src/main/java/com/easyway/business/framework/util/ListUtil.java:62-80 | the move is a permutation of the list |
| ListUtil.MovedInverse | src/main/java/com/easyway/business/framework/util/ListUtil.java:62-80 | moving back from newPosition to oldPosition restores the list |
| ListUtil.MovedSelf | src/main/java/com/easyway/business/framework/util/ListUtil.java:62-80 | oldPosition == newPosition leaves the list unchanged |
| ListUtil.BubbledUpIsMoved | src/main/java/com/easyway/business/framework/util/ListUtil.java:68-72 | the chain of right-neighbour Collections.swap calls moves the element from oldPosition up to newPosition |
| ListUtil.BubbledDownIsMoved | src/main/java/com/easyway/business/framework/util/ListUtil.java:75-79 | the chain of left-neighbour Collections.swap calls moves the element from oldPosition down to newPosition |
| ListUtil.CollectionsSwap | src/main/java/com/easyway/business/framework/util/ListUtil.java:70-70 | Collections.swap(list, i, j) exchanges two elements when both indices are in range and otherwise throws without changing the list |
| ListUtil.MoveRight | src/main/java/com/easyway/business/framework/util/ListUtil.java:68-72 | the first loop of swap: the element travels right one swap at a time; when newPosition is past the end it stops at the last position and the next swap throws |
| ListUtil.MoveLeft | src/main/java/com/easyway/business/framework/util/ListUtil.java:75-79 | the second loop of swap: the element travels left one swap at a time; when newPosition is negative it stops at position 0 and the next swap throws |
| ListUtil.Swap | src/main/java/com/easyway/business/framework/util/ListUtil.java:62-80 | a null list throws IllegalStateException; the length never changes; with both positions in range (or equal) the list becomes the move of oldPosition to newPosition; otherwise IndexOutOfBounds: an oldPosition out of range leaves the list unchanged, and a newPosition out of range leaves the element moved as far as the list allows |
| ListUtil.ListToString | src/main/java/com/easyway/business/framework/util/ListUtil.java:125-137 | the printed elements joined by ",", no trailing comma; "" for a null or empty list |
| ListUtil.ConvertArrayToSplitStr | src/main/java/com/easyway/business/framework/util/ListUtil.java:173-182 | "" for a null or empty list; otherwise every element (null printing as "null") followed by the separator, minus the last character, and a throwing deleteCharAt when that text is empty |
| ListUtil.ConvertSplitIsJoinPlusSepPrefix | src/main/java/com/easyway/business/framework/util/ListUtil.java:176-179 | deleting one character leaves the join plus all but the last character of the separator, a proper join exactly for one-character separators |
| Base.TerminatedIsJoinedPlusSep | src/main/java/com/easyway/business/framework/util/ListUtil.java:176-179 | appending every part followed by the separator builds the join plus one trailing separator |
| ListUtil.NonNullEmpty | src/main/java/com/easyway/business/framework/util/ListUtil.java:212-216 | no value is kept exactly when every value is null |
| ListUtil.InCondStep | src/main/java/com/easyway/business/framework/util/ListUtil.java:212-216 | each value adds its quoted text and a comma, a null adds nothing |
| ListUtil.InCondFinish | src/main/java/com/easyway/business/framework/util/ListUtil.java:217-217 | the buffer is empty exactly when every value is null, and otherwise deleting its last comma gives the comma-join of the quoted values |
| ListUtil.QuoteEach | src/main/java/com/easyway/business/framework/util/ListUtil.java:212-216 | the loop writes every non-null value in single quotes followed by a comma, in order |
| ListUtil.GetInCond | src/main/java/com/easyway/business/framework/util/ListUtil.java:209-239 | getInCond(List) and getInCond(String[]): "" for a null or empty input; the non-null values quoted and comma-joined; a non-empty input of nulls only throws at the final delete |
| ListUtil.ArrayToString | src/main/java/com/easyway/business/framework/util/ListUtil.java:111-120 | the elements comma-joined (null printing as "null"); a null or empty array throws at substring(0, -1) |
| ListUtil.MovedStepUp | src/main/java/com/easyway/business/framework/util/ListUtil.java:68-72 | one more right-neighbour swap extends a move up by one position |
| ListUtil.MovedStepDown | src/main/java/com/easyway/business/framework/util/ListUtil.java:75-79 | one more left-neighbour swap extends a move down by one position |
| CollectionUtil.IsNotEmptyMeansElement | src/main/java/com/easyway/business/framework/util/CollectionUtil.java:29-51 | each isNotEmpty is the negation of its isEmpty, which holds exactly for null or size 0, so isNotEmpty means present with an element |
| CollectionUtil.AddNotEmptyStr | src/main/java/com/easyway/business/framework/util/CollectionUtil.java:53-58 | appends str exactly when it is non-null and non-empty, otherwise leaves the list alone; a null list throws only when there is something to append |
| CollectionUtil.Search | src/main/java/com/easyway/business/framework/util/CollectionUtil.java:81-86 | the loop finds str exactly when some element equals it (a null element never matches) |
| CollectionUtil.StrInList | src/main/java/com/easyway/business/framework/util/CollectionUtil.java:74-87 | false for a null or empty list or a null str; otherwise true exactly when some element equals str |
| CollectionUtil.RemoveEmptyString | src/main/java/com/easyway/business/framework/util/CollectionUtil.java:94-102 | a null collection throws; otherwise the collection becomes its non-null, non-empty elements in their original order |
| CollectionUtil.RemoveEmptyStringKeeps | src/main/java/com/easyway/business/framework/util/CollectionUtil.java:94-102 | no null or "" remains, every other element remains, and the kept and removed elements together are the original multiset |
| CollectionUtil.Equal | src/main/java/com/easyway/business/framework/util/CollectionUtil.java:147-155 | the elements whose compareTo with the object is 0, in iteration order |
| CollectionUtil.MinKeyIsLeast | src/main/java/com/easyway/business/framework/util/CollectionUtil.java:109-120 | the running minimum ends at the least rank, which some element has |
| CollectionUtil.MaxKeyIsGreatest | src/main/java/com/easyway/business/framework/util/CollectionUtil.java:127-138 | the running maximum ends at the greatest rank, which some element has |
| CollectionUtil.Min | src/main/java/com/easyway/business/framework/util/CollectionUtil.java:109-120 | an empty collection gives an empty list; otherwise every element of least rank, in order |
| CollectionUtil.Max | src/main/java/com/easyway/business/framework/util/CollectionUtil.java:127-138 | an empty collection gives an empty list; otherwise every element of greatest rank, in order |
| CollectionUtil.MinSelection | src/main/java/com/easyway/business/framework/util/CollectionUtil.java:109-120 | for a non-empty collection the result of min is non-empty, holds only minimal elements and holds all of them |
| CollectionUtil.MaxSelection | src/main/java/com/easyway/business/framework/util/CollectionUtil.java:127-138 | for a non-empty collection the result of max is non-empty, holds only maximal elements and holds all of them |
| CollectionUtil.AllIn | src/main/java/com/easyway/business/framework/util/CollectionUtil.java:168-173 | the loop succeeds exactly when every remaining element of coll2 is in coll1 |
| CollectionUtil.ContainsAll | src/main/java/com/easyway/business/framework/util/CollectionUtil.java:163-175 | false when either collection is empty; otherwise true exactly when coll1 contains every element of coll2 |
| ObjectUtil.IsEmptyObject | src/main/java/com/easyway/business/framework/util/ObjectUtil.java:20-39 | true for null; for an array of any element type (Object[] or primitive), a CharSequence (String or another, such as a StringBuilder), a Collection or a Map, true exactly when it has no elements; false for any other object |
| ObjectUtil.NotEmptyIsPresent | src/main/java/com/easyway/business/framework/util/ObjectUtil.java:41-43 | an object isNotEmpty accepts is not null, and a string it accepts is not empty |
| ObjectUtil.AddObjectToArray | src/main/java/com/easyway/business/framework/util/ObjectUtil.java:62-77 | a new array of length n + 1 (1 for a null array) holding the old elements in order and then obj |
| PageUtil.PageCountIsCeiling | src/main/java/com/easyway/business/framework/util/PageUtil.java:22-28 | the page count is the ceiling of count / pageSize: at least 1, the last page starts before the end and the pages reach it |
| PageUtil.Pagging | src/main/java/com/easyway/business/framework/util/PageUtil.java:14-48 | null for a null or empty list; a zero pageSize divides by zero; the last-page test compares boxed Integers by identity; any page it returns is a contiguous slice of the list |
| PageUtil.InRangeNoOverflow | src/main/java/com/easyway/business/framework/util/PageUtil.java:33-39 | for a page in range the int bounds do not wrap: the page starts inside the list, and every page but the last ends inside it |
| PageUtil.PaggingInRange | src/main/java/com/easyway/business/framework/util/PageUtil.java:33-43 | a page before the last is list[(pageNum-1)*pageSize .. pageNum*pageSize); with at most 127 pages the last page runs from (pageNum-1)*pageSize to the end; with more, the last page comes back only when it is full and is null otherwise |
| PageUtil.LastPageUnboxed | src/main/java/com/easyway/business/framework/util/PageUtil.java:22-47 | past 127 pages the last-page test fails, so the end index is pageNum*pageSize: the last page is returned when it is full, and otherwise subList rejects the bounds (past the end, or wrapped negative) and the result is null |
| PageUtil.PaggingOutOfRange | src/main/java/com/easyway/business/framework/util/PageUtil.java:41-47 | a page number below 1 or above the page count gives null, as long as the start index does not wrap |
| PageUtil.PaggingWrapsAround | src/main/java/com/easyway/business/framework/util/PageUtil.java:34-35 | as written, page 65537 of a 65536-element list with pageSize 65536 returns the first page instead of null |
| PageUtil.PaggingExact | src/main/java/com/easyway/business/framework/util/PageUtil.java:14-48 | corrected pagging: the bounds computed without wrap-around and the last-page test on values; same null and error cases |
| PageUtil.PaggingExactInRange | src/main/java/com/easyway/business/framework/util/PageUtil.java:33-43 | the corrected pagging returns pageSize elements from (pageNum-1)*pageSize for a page before the last, and the rest of the list for the last page, whatever the page count |
| PageUtil.PaggingExactOutOfRange | src/main/java/com/easyway/business/framework/util/PageUtil.java:41-47 | with exact arithmetic every page number out of range gives null |
| PageUtil.PaggingExactAgrees | src/main/java/com/easyway/business/framework/util/PageUtil.java:33-43 | on pages in range the corrected and the as-written pagging agree, except for a last page that is not full when there are more than 127 pages |
| PageUtil.PaggingLastPageLost | src/main/java/com/easyway/business/framework/util/PageUtil.java:33-33 | as written, the last page of 1000 elements in pages of 7 (page 143 of 143) is null, while the corrected pagging returns the last 6 elements |
| Conditions.SingleValueOf | src/main/java/com/easyway/business/framework/mybatis/query/condition/SingleValueCondition.java:15-17 | operator "=", alias "t", and the given column and value |
| Conditions.SingleValueWith | src/main/java/com/easyway/business/framework/mybatis/query/condition/SingleValueCondition.java:19-23 | alias "t", and the given column, operator and value |
| Conditions.ListValueOf | src/main/java/com/easyway/business/framework/mybatis/query/condition/ListValueCondition.java:19-21 | operator "in", alias "t", and the given column and values |
| Conditions.ListValueWith | src/main/java/com/easyway/business/framework/mybatis/query/condition/ListValueCondition.java:27-31 | alias "t", and the given column, operator and values |
| Conditions.ListValueOfArray | src/main/java/com/easyway/business/framework/mybatis/query/condition/ListValueCondition.java:33-41 | the array constructors copy the elements in order; a null array throws |
| Conditions.BetweenOf | src/main/java/com/easyway/business/framework/mybatis/query/condition/BetweenValueCondition.java:14-18 | alias "t", and the given column, begin and end |
| Conditions.WithoutValueOf | src/main/java/com/easyway/business/framework/mybatis/query/condition/WithoutValueCondition.java:12-14 | alias "t" and the given sql |
| Conditions.GetColumn | src/main/java/com/easyway/business/framework/mybatis/query/condition/WithoutValueCondition.java:16-18 | null for a condition without value; the column for the other three kinds |
| Conditions.ColumnWithTableAliasParts | src/main/java/com/easyway/business/framework/mybatis/query/condition/Condition.java:20-25 | the bare column when the alias is null or ""; otherwise the alias, a dot and the column (a null column printing as "null") |
| Conditions.DefaultAliasQualifies | src/main/java/com/easyway/business/framework/mybatis/query/condition/Condition.java:6-25 | under the default alias "t" a column is written "t.column" |
| Conditions.SetTableAlias | src/main/java/com/easyway/business/framework/mybatis/query/condition/Condition.java:14-16 | only the alias changes; the kind, the column and every other field are kept |
| Conditions.SetTableAliasRestores | src/main/java/com/easyway/business/framework/mybatis/query/condition/Condition.java:14-16 | setting the alias back to its old value gives back the same condition |
| Conditions.SetColumn | src/main/java/com/easyway/business/framework/mybatis/query/condition/SingleValueCondition.java:35-37 | setColumn of the single, list and between kinds changes only the column |
| Conditions.SetBeginValue | src/main/java/com/easyway/business/framework/mybatis/query/condition/BetweenValueCondition.java:37-39 | only the begin value changes |
| Conditions.SetEndValue | src/main/java/com/easyway/business/framework/mybatis/query/condition/BetweenValueCondition.java:45-47 | only the end value changes |
| Conditions.AddValue | src/main/java/com/easyway/business/framework/mybatis/query/condition/ListValueCondition.java:77-79 | exactly one element more, at the end; nothing else changes |
| Conditions.ToSql | src/main/java/com/easyway/business/framework/mybatis/query/condition/WithoutValueCondition.java:20-22 | toSql of each kind: a condition without value returns its stored sql (null only there); the single-value, list and range kinds always render a string (their text is stated by the three shape lemmas below and the factory rows) |
| Conditions.SingleValueSqlShape | src/main/java/com/easyway/business/framework/mybatis/query/condition/SingleValueCondition.java:55-64 | a single-value condition renders the qualified column and a space first, and its value in single quotes last |
| Conditions.BetweenValueSqlShape | src/main/java/com/easyway/business/framework/mybatis/query/condition/BetweenValueCondition.java:49-59 | a range condition renders the qualified column and a space first, and its end value in single quotes last |
| Conditions.ListValueSqlShape | src/main/java/com/easyway/business/framework/mybatis/query/condition/ListValueCondition.java:81-102 | a list condition renders the qualified column, a space, the operator and "(" first, and ")" last |
| Conditions.ListValueToSql | src/main/java/com/easyway/business/framework/mybatis/query/condition/ListValueCondition.java:81-102 | the first-flag loop renders column, operator and "(" + the values each in single quotes, joined by "," + ")" |
| Conditions.ToSqlAddValue | src/main/java/com/easyway/business/framework/mybatis/query/condition/ListValueCondition.java:77-102 | adding a value to a non-empty list condition inserts ",'v'" before the closing parenthesis; adding to an empty one gives "('v')" |
| Conditions.EmptyListToSql | src/main/java/com/easyway/business/framework/mybatis/query/condition/ListValueCondition.java:81-102 | an empty list condition renders "()" after the operator |
| Conditions.LiteralListLength | src/main/java/com/easyway/business/framework/mybatis/query/condition/ListValueCondition.java:81-102 | the rendered list holds every quoted value and exactly one comma between each two |
| ConditionFactory.BuildSqlCondition | src/main/java/com/easyway/business/framework/mybatis/query/condition/ConditionFactory.java:6-8 | a condition without value, alias "t", whose SQL is the given sql and whose column is null |
| ConditionFactory.BuildSingleValueCondition | src/main/java/com/easyway/business/framework/mybatis/query/condition/ConditionFactory.java:10-12 | a single-value condition with the given fields, rendering `alias.column equal 'value'` (just `column equal 'value'` without an alias) |
| ConditionFactory.BuildSingleValueConditionDefault | src/main/java/com/easyway/business/framework/mybatis/query/condition/ConditionFactory.java:14-16 | alias "t"; renders `t.column equal 'value'` |
| ConditionFactory.BuildBetweenCondition | src/main/java/com/easyway/business/framework/mybatis/query/condition/ConditionFactory.java:18-21 | a between condition with the given begin and end, rendering `alias.column between 'begin' and 'end'` |
| ConditionFactory.BuildBetweenConditionDefault | src/main/java/com/easyway/business/framework/mybatis/query/condition/ConditionFactory.java:23-25 | alias "t"; renders `t.column between 'begin' and 'end'` |
| ConditionFactory.BuildListCondition | src/main/java/com/easyway/business/framework/mybatis/query/condition/ConditionFactory.java:27-29 | a list condition with the given fields, rendering the qualified column, the operator and the quoted values in parentheses |
| ConditionFactory.BuildListConditionFromArray | src/main/java/com/easyway/business/framework/mybatis/query/condition/ConditionFactory.java:31-33 | the Object[] form: the same condition as from a list of the elements in order; a null array throws |
| ConditionFactory.BuildListConditionDefault | src/main/java/com/easyway/business/framework/mybatis/query/condition/ConditionFactory.java:35-37 | alias "t"; renders `t.column equal ('v1',...)` |
| ConditionFactory.BuildListConditionFromArrayDefault | src/main/java/com/easyway/business/framework/mybatis/query/condition/ConditionFactory.java:39-41 | the Object[] form with alias "t", elements in order; a null array throws |
| ConditionFactory.BuildInCondition | src/main/java/com/easyway/business/framework/mybatis/query/condition/ConditionFactory.java:43-45 | alias "t" and operator "in"; renders `t.column in ('v1',...)` |
| ConditionFactory.BuildInConditionFromArray | src/main/java/com/easyway/business/framework/mybatis/query/condition/ConditionFactory.java:47-49 | the Object[] form with alias "t" and operator "in"; a null array throws |
| AnnotationFactory.SingleValueDefaults | src/main/java/com/easyway/business/framework/mybatis/annotion/SingleValue.java:16-20 | an @SingleValue annotation without equal or tableAlias carries "=" and "t" |
| AnnotationFactory.FactoryFor | src/main/java/com/easyway/business/framework/mybatis/annotion/factory/AnnotationConditionFactory.java:11-18 | the registry has a factory exactly for ConditionValue, SingleValue and ListValue |
| AnnotationFactory.CouldBuild | src/main/java/com/easyway/business/framework/mybatis/annotion/factory/AnnotationConditionFactory.java:20-33 | false for a null or empty array; otherwise true exactly when some annotation's simple name has a factory |
| AnnotationFactory.BuildCondition | src/main/java/com/easyway/business/framework/mybatis/annotion/factory/AnnotationConditionFactory.java:36-45 | null when no factory matches or the value is null, the String "", an empty array of any element type or an empty collection (an empty StringBuilder is not turned away); otherwise that factory's result: the value cast to a Condition, a single-value condition, a list condition for a List or Object[] (null for any other type), or a ClassCastException when an annotation type only shares a registered simple name |
| AnnotationFactory.SingleValueDefaultsSql | src/main/java/com/easyway/business/framework/mybatis/annotion/factory/SingleValueFactory.java:10-17 | @SingleValue(column = c) on a getter returning a non-blank value builds the condition rendering `t.c = 'value'` |
| AnnotationFactory.ListValueArrayAsList | src/main/java/com/easyway/business/framework/mybatis/annotion/factory/ListValueFactory.java:12-29 | for @ListValue an Object[] and a List holding the same elements build the same condition |
| AnnotationFactory.PrimitiveArrayCondition | src/main/java/com/easyway/business/framework/mybatis/annotion/factory/AnnotationConditionFactory.java:39-40 | an empty primitive array gives null for every annotation; a primitive array is not an Object[], so @ListValue gives null for it (ListValueFactory.java:25-28); @SingleValue keeps a non-empty one as its value |
| AnnotationFactory.EmptyCharSequenceNotBlank | src/main/java/com/easyway/business/framework/mybatis/annotion/factory/AnnotationConditionFactory.java:39-41 | only the String "" is blank: an empty StringBuilder reaches the factory, and @SingleValue builds a condition from it |
| AnnotationFactory.BuiltImpliesCouldBuild | src/main/java/com/easyway/business/framework/mybatis/annotion/factory/AnnotationConditionFactory.java:20-45 | whenever buildCondition yields a condition, couldBuild accepts the annotation |
| Query.BucketOf | src/main/java/com/easyway/business/framework/mybatis/query/ConditionQuery.java:50-64 | each kind's addConditionToQuery picks its own list: single, list, between or without |
| Query.Routed | src/main/java/com/easyway/business/framework/mybatis/query/ConditionQuery.java:66-70 | add(c) puts c at the end of exactly the list of its kind; the other lists and the parameters stay as they were |
| Query.RoutedAllBuckets | src/main/java/com/easyway/business/framework/mybatis/query/ConditionQuery.java:72-78 | after addAll each list holds what it held, then the non-null conditions of its kind in their order in the argument; the parameters are untouched |
| Query.AllConditions | src/main/java/com/easyway/business/framework/mybatis/query/ConditionQuery.java:88-95 | getAllCondition's length is the sum of the four list sizes |
| Query.RoutedAllKeepsWellRouted | src/main/java/com/easyway/business/framework/mybatis/query/ConditionQuery.java:66-78 | add and addAll keep every list to non-null conditions of its own kind |
| Query.RerouteBucket | src/main/java/com/easyway/business/framework/mybatis/query/ConditionQuery.java:101-106 | re-adding all conditions of a well-routed query rebuilds each list |
| Query.CloneOfWellRouted | src/main/java/com/easyway/business/framework/mybatis/query/ConditionQuery.java:101-106 | cloning a query built by add and addAll gives the same lists in the same order and the same parameters |
| Query.CloneDropsNull | src/main/java/com/easyway/business/framework/mybatis/query/ConditionQuery.java:101-106 | a list holding a null (put there through a bucket method) is not reproduced by cloning, since addAll skips nulls |
| Query.ConditionQuery.constructor | src/main/java/com/easyway/business/framework/mybatis/query/ConditionQuery.java:12-16 | a new query has four empty lists and an empty parameter map |
| Query.ConditionQuery.AddBetweenValueCondition | src/main/java/com/easyway/business/framework/mybatis/query/ConditionQuery.java:50-52 | appends to the between list only |
| Query.ConditionQuery.AddWithoutValueCondition | src/main/java/com/easyway/business/framework/mybatis/query/ConditionQuery.java:54-56 | appends to the without-value list only |
| Query.ConditionQuery.AddSingleValueCondition | src/main/java/com/easyway/business/framework/mybatis/query/ConditionQuery.java:58-60 | appends to the single-value list only |
| Query.ConditionQuery.AddListValueCondition | src/main/java/com/easyway/business/framework/mybatis/query/ConditionQuery.java:62-64 | appends to the list-value list only |
| Query.ConditionQuery.Add | src/main/java/com/easyway/business/framework/mybatis/query/ConditionQuery.java:66-70 | nothing for null; otherwise the routed state |
| Query.ConditionQuery.AddAll | src/main/java/com/easyway/business/framework/mybatis/query/ConditionQuery.java:72-78 | nothing for null; otherwise each element added in order |
| Query.ConditionQuery.AddParam | src/main/java/com/easyway/business/framework/mybatis/query/ConditionQuery.java:80-82 | that key maps to the value; nothing else changes |
| Query.ConditionQuery.AddAllParam | src/main/java/com/easyway/business/framework/mybatis/query/ConditionQuery.java:84-86 | every entry of the map is put over the old ones; a null map throws and changes nothing |
| Query.AddAllParamUnion | src/main/java/com/easyway/business/framework/mybatis/query/ConditionQuery.java:84-86 | addAllParam is a right-biased union: the added map's keys take its values, other keys keep theirs, and the keys are the union |
| Query.ConditionQuery.GetAllCondition | src/main/java/com/easyway/business/framework/mybatis/query/ConditionQuery.java:88-95 | the without, single, list and between lists concatenated in that order |
| Query.ConditionQuery.CloneConditionQuery | src/main/java/com/easyway/business/framework/mybatis/query/ConditionQuery.java:101-106 | a fresh query given this one's conditions through addAll and its parameters through addAllParam |
| Query.CloneBucket | src/main/java/com/easyway/business/framework/mybatis/query/ConditionQuery.java:101-106 | for a well-routed query the clone's list of each kind equals the original's |
| Pojo.LevelMapSnoc | src/main/java/com/easyway/business/framework/pojo/QueryPojo.java:81-83 | the fields of one class are put into the map one at a time, in declaration order |
| Pojo.SuperclassWins | src/main/java/com/easyway/business/framework/pojo/QueryPojo.java:78-100 | a name resolves to the field of the most distant superclass declaring it |
| Pojo.PutFields | src/main/java/com/easyway/business/framework/pojo/QueryPojo.java:91-94 | the loop over one class's fields puts each of them into the map |
| Pojo.GetClassFields | src/main/java/com/easyway/business/framework/pojo/QueryPojo.java:78-100 | the class's own fields, then each superclass's, put into one map |
| Pojo.Recorded | src/main/java/com/easyway/business/framework/pojo/QueryPojo.java:32-46 | the field scan records exactly the resolved fields whose name is not filtered and whose value is not null, with their values |
| Pojo.FilteredNeverRecorded | src/main/java/com/easyway/business/framework/pojo/QueryPojo.java:32-45 | the nine filtered names and null-valued fields never become parameters |
| Pojo.PutAllLazilyPut | src/main/java/com/easyway/business/framework/pojo/QueryPojo.java:64-69 | one more appendQueryParam after a lazy put of a map is the lazy put of the map with that entry |
| Pojo.RoutedTwice | src/main/java/com/easyway/business/framework/pojo/QueryPojo.java:22-26 | adding the annotation-derived and then the appended conditions gives each list its kind from the first, then from the second |
| Pojo.BuiltQueryOrder | src/main/java/com/easyway/business/framework/pojo/QueryPojo.java:21-29 | each list of the built query holds the annotation-derived conditions of its kind, then the appended ones, in order; its parameters are the map as it was before the field scan |
| Pojo.QueryPojo.constructor | src/main/java/com/easyway/business/framework/pojo/QueryPojo.java:18-19 | both the appended conditions and the parameter map start null |
| Pojo.QueryPojo.AppendQueryParam | src/main/java/com/easyway/business/framework/pojo/QueryPojo.java:64-69 | creates the map when it is null, then inserts or overwrites the key; nothing else changes |
| Pojo.QueryPojo.AppendCondition | src/main/java/com/easyway/business/framework/pojo/QueryPojo.java:71-76 | creates the set when it is null; a condition already present is not added again; otherwise it is added |
| Pojo.QueryPojo.BuildConditionQuery | src/main/java/com/easyway/business/framework/pojo/QueryPojo.java:21-54 | a fresh query with the conditions and a copy of the parameters; after that copy every recorded field is put into the parameter map |
| Pojo.QueryPojo.ScanFields | src/main/java/com/easyway/business/framework/pojo/QueryPojo.java:35-49 | the scan over the field map, in any order, leaves the parameter map extended by exactly the recorded fields |
| Pojo.QueryPojo.ScanField | src/main/java/com/easyway/business/framework/pojo/QueryPojo.java:36-46 | one entry: an unfiltered, non-null field is put, anything else is skipped |
| Pojo.PagesNumerator | src/main/java/com/easyway/business/framework/pojo/Page.java:55-55 | total + pageSize - 1 in int arithmetic is exact whenever the true value fits, even if total + pageSize alone wraps |
| Pojo.CeilingDivision | src/main/java/com/easyway/business/framework/pojo/Page.java:54-55 | (total + pageSize - 1) / pageSize is the ceiling of total / pageSize |
| Pojo.PagesOfIsCeiling | src/main/java/com/easyway/business/framework/pojo/Page.java:49-57 | without overflow the page count is the ceiling: enough pages for every row and no empty last page |
| Pojo.ClampPageNum | src/main/java/com/easyway/business/framework/pojo/Page.java:80-80 | a page number below 1 becomes 1, any other is kept |
| Pojo.PageOffsetIdempotent | src/main/java/com/easyway/business/framework/pojo/Page.java:78-82 | a second getPageOffset finds the page number already clamped and returns the same offset |
| Pojo.OffsetCountsEarlierRows | src/main/java/com/easyway/business/framework/pojo/Page.java:78-82 | without overflow the offset is the number of rows on the pages before the current one |
| Pojo.Page.constructor | src/main/java/com/easyway/business/framework/pojo/Page.java:12-24 | pageSize 10, pageNum 1, no list, no appended conditions or parameters |
| Pojo.Page.Copy | src/main/java/com/easyway/business/framework/pojo/Page.java:26-31 | copies pageSize, pageNum, total and list; pages and the QueryPojo part start afresh |
| Pojo.Page.GetPages | src/main/java/com/easyway/business/framework/pojo/Page.java:49-57 | 1 when pageSize <= 0, with pages unchanged; otherwise the int page count, also stored in pages |
| Pojo.Page.GetPageOffset | src/main/java/com/easyway/business/framework/pojo/Page.java:78-82 | clamps the stored pageNum to at least 1, then returns (pageNum - 1) * pageSize in int arithmetic |
| Pojo.Page.BuildConditionQuery | src/main/java/com/easyway/business/framework/pojo/Page.java:93-98 | QueryPojo's query plus "pageOffset" and "pageSize"; the page number is left clamped and Page's own fields join the scan |
| Pojo.PagedQuery | src/main/java/com/easyway/business/framework/pojo/Page.java:95-96 | the parameters gain exactly "pageOffset" and "pageSize" with the offset and page size; everything else is kept |
| Pojo.PageFieldsRecorded | src/main/java/com/easyway/business/framework/pojo/Page.java:12-20 | of Page's own fields only `list` is recorded, and only when it is not null |
| Pojo.RemoveChar | src/main/java/com/easyway/business/framework/pojo/Grid.java:43-48 | replaceAll of a one-character pattern: the character is gone, nothing is added |
| Pojo.RemoveDoubleDashClean | src/main/java/com/easyway/business/framework/pojo/Grid.java:45-45 | one pass of replaceAll("--", "") leaves no "--" behind |
| Pojo.Truncate | src/main/java/com/easyway/business/framework/pojo/Grid.java:49-51 | at most n characters, and a prefix of the string |
| Pojo.SanitizeSortname | src/main/java/com/easyway/business/framework/pojo/Grid.java:38-53 | null exactly for null; otherwise at most 20 characters, with no quote, star, space or parenthesis |
| Pojo.SortnameKeepsDoubleDash | src/main/java/com/easyway/business/framework/pojo/Grid.java:43-48 | as written, "a- -b" sanitises to "a--b": removing the space after the "--" pass joins two dashes |
| Pojo.SanitizeSortnameStrict | src/main/java/com/easyway/business/framework/pojo/Grid.java:38-53 | corrected sanitiser with the "--" pass last: the same null case, length bound and stripped characters |
| Pojo.SanitizeSortnameStrictClean | src/main/java/com/easyway/business/framework/pojo/Grid.java:38-53 | the corrected sanitiser never leaves "--" in the name |
| Pojo.ValidOrder | src/main/java/com/easyway/business/framework/pojo/Grid.java:60-63 | the lower-cased order is kept exactly when it is "asc" or "desc" |
| Pojo.OrderCol | src/main/java/com/easyway/business/framework/pojo/Grid.java:66-79 | null for a null or empty name; the name alone when there is no order; otherwise exactly the name, a space and the order |
| Pojo.SanitizeSortnameKeepsClean | src/main/java/com/easyway/business/framework/pojo/Grid.java:38-53 | a sort column of at most 20 characters without quotes, stars, spaces, parentheses or "--" passes through buildSortname unchanged |
| Pojo.OrderColOfCleanName | src/main/java/com/easyway/business/framework/pojo/Grid.java:55-79 | a clean sort column with an order that lower-cases to "asc" or "desc" (such as "ASC") gives exactly the column, a space and the lower-cased order |
| Pojo.Grid.constructor | src/main/java/com/easyway/business/framework/pojo/Grid.java:12-14 | Page's defaults and no sort fields |
| Pojo.Grid.FromPage | src/main/java/com/easyway/business/framework/pojo/Grid.java:16-18 | Page's copy constructor and no sort fields |
| Pojo.Grid.BuildSortname | src/main/java/com/easyway/business/framework/pojo/Grid.java:38-53 | the sanitised sort column of the current sortname |
| Pojo.Grid.BuildSortorder | src/main/java/com/easyway/business/framework/pojo/Grid.java:55-64 | lower-cases the stored sortorder in place, then returns it only when it is "asc" or "desc" |
| Pojo.Grid.BuildOrderCol | src/main/java/com/easyway/business/framework/pojo/Grid.java:66-79 | the order column of the sanitised name and the valid order; the sortorder field is lower-cased only when the name is usable |
| Pojo.Grid.BuildConditionQuery | src/main/java/com/easyway/business/framework/pojo/Grid.java:81-88 | in terms of the state before the call: Page's query, with the offset of the clamped page number and the old page size, plus "orderCol" set to the order column of the old sortname and the lower-cased old sortorder when that is not null; the pojo's map gains the recorded fields of Grid, Page and the classes below; pageNum is clamped, sortorder lower-cased exactly when the sanitised name is usable, and every other field is kept |
| Pojo.GridFieldsNeverRecorded | src/main/java/com/easyway/business/framework/pojo/Grid.java:9-10 | a Grid's sortname and sortorder are never recorded as parameters |
| Enums.StatusOf | src/main/java/com/easyway/business/framework/common/enums/BaseStatusEnum.java:6-60 | the constant a code names, read off the table |
| Enums.StatusOfCode | src/main/java/com/easyway/business/framework/common/enums/BaseStatusEnum.java:6-60 | every constant's code leads back to it |
| Enums.StatusCodesDistinct | src/main/java/com/easyway/business/framework/common/enums/BaseStatusEnum.java:6-60 | no two constants share a code |
| Enums.StatusValuesComplete | src/main/java/com/easyway/business/framework/common/enums/BaseStatusEnum.java:6-60 | values() lists every constant |
| Enums.FirstStatus | src/main/java/com/easyway/business/framework/common/enums/BaseStatusEnum.java:87-94 | the first constant in values() with the code, or null when none has it |
| Enums.ScanStatuses | src/main/java/com/easyway/business/framework/common/enums/BaseStatusEnum.java:88-92 | the loop returns the first constant with the code |
| Enums.GetExceptionEnum | src/main/java/com/easyway/business/framework/common/enums/BaseStatusEnum.java:87-94 | the scan over values() in declaration order |
| Enums.FirstStatusIsTable | src/main/java/com/easyway/business/framework/common/enums/BaseStatusEnum.java:87-94 | the linear lookup agrees with the table for every int code |
| Enums.StatusLookupRoundTrip | src/main/java/com/easyway/business/framework/common/enums/BaseStatusEnum.java:87-94 | getExceptionEnum(e.code()) is e for every constant |
| Enums.StatusLookupUnknown | src/main/java/com/easyway/business/framework/common/enums/BaseStatusEnum.java:93-93 | a code no constant carries gives null |
| Enums.ResultCodeNamed | src/main/java/com/easyway/business/framework/common/enums/BaseResultCodeEnum.java:6-39 | the constant a name denotes, read off the table |
| Enums.ResultCodeNamedName | src/main/java/com/easyway/business/framework/common/enums/BaseResultCodeEnum.java:6-39 | every constant's declared code is its own name and leads back to it |
| Enums.ResultNamesDistinct | src/main/java/com/easyway/business/framework/common/enums/BaseResultCodeEnum.java:6-39 | no two constants share a declared code |
| Enums.ResultValuesComplete | src/main/java/com/easyway/business/framework/common/enums/BaseResultCodeEnum.java:6-39 | values() lists every constant |
| Enums.FirstResult | src/main/java/com/easyway/business/framework/common/enums/BaseResultCodeEnum.java:66-73 | the scan with the current codes: the first constant whose code equals the argument; null for a null or unknown code; a NullPointerException when it meets a constant whose code was set to null |
| Enums.FirstResultAt | src/main/java/com/easyway/business/framework/common/enums/BaseResultCodeEnum.java:67-72 | the constant at each step decides the lookup or passes it on |
| Enums.ScanResults | src/main/java/com/easyway/business/framework/common/enums/BaseResultCodeEnum.java:67-72 | the loop returns what the scan over values() returns |
| Enums.ResultCodes.constructor | src/main/java/com/easyway/business/framework/common/enums/BaseResultCodeEnum.java:6-39 | each constant starts with its name as code and its declared message |
| Enums.ResultCodes.SetCode | src/main/java/com/easyway/business/framework/common/enums/BaseResultCodeEnum.java:79-81 | only that constant's code changes |
| Enums.ResultCodes.SetMessage | src/main/java/com/easyway/business/framework/common/enums/BaseResultCodeEnum.java:87-89 | only that constant's message changes |
| Enums.ResultCodes.GetResultCodeEnumByCode | src/main/java/com/easyway/business/framework/common/enums/BaseResultCodeEnum.java:66-73 | the scan over values() with the current codes |
| Enums.NumericValue | src/main/java/com/easyway/business/framework/common/enums/BaseResultCodeEnum.java:102-104 | value() is always null |
| Enums.DeclaredCodes | src/main/java/com/easyway/business/framework/common/enums/BaseResultCodeEnum.java:6-39 | the declared code of each constant is its name |
| Enums.FirstResultIsTable | src/main/java/com/easyway/business/framework/common/enums/BaseResultCodeEnum.java:66-73 | with the declared codes a constant's name finds it, and any other string or null finds null |
| Enums.ResultLookupRoundTrip | src/main/java/com/easyway/business/framework/common/enums/BaseResultCodeEnum.java:66-73 | getResultCodeEnumByCode(e.code()) is e for every constant of the declared table |
| Enums.NullFirstCodeBreaksLookup | src/main/java/com/easyway/business/framework/common/enums/BaseResultCodeEnum.java:66-73 | once SUCCESS's code is set to null, every lookup throws |

## Left out

- Date formatting and parsing, `encode`/`decode`, `isNumeric`, `bytesToString` and the multi-argument blank tests (`isAnyBlank` and similar) of `StringUtil` are not part of this model; they are outside the query core.
- Unicode case mapping: `toLowerCase`, `toUpperCase(str, index)` and their helpers map ASCII letters only, as `toUpperAscii`/`toLowerAscii` do. `capitalize`, `uncapitalize`, `swapCase`, `greatString` and `smallString` are not modelled.
- `ltrim`, `rtrim` and `trim(String[])` are not modelled: they are not used by the query code.
- The `join(Iterator, ...)` and `array2String` variants are not modelled; `join(Object[], ...)` is.
- `ListUtil.deepCopy` (serialisation), `listToArray` (prints to standard error), and `strToList`/`strToArray`/`arrayToList`/`getInCond(String)` are not modelled. The last four rely on regular-expression splitting and streams.
- `CollectionUtil.addNotEmptyVal` and `reverse` are not modelled.
- `ObjectUtil.getRandomString` is not modelled, because it depends on randomness. `AddObjectToArray` does not model the array's runtime component type or `ArrayStoreException`.
- CollectionUtil.Min: `Comparable` is modelled by an integer rank per element, so `compareTo` is a total preorder. A null collection or element, which throws `NullPointerException` in `min`, `max`, `equal` and `containsAll`, is not modelled: these members take a non-null sequence.
- CollectionUtil.Max: same as `Min`.
- PageUtil.Pagging: the boxed comparison `pageNum != pageCount` is modelled as identity of `Integer` objects boxed by `Integer.valueOf`, which shares objects only for -128..127. A `pageNum` built with `new Integer(...)`, never identical to the cached object, is not modelled. Null `pageNum`/`pageSize` (an unboxing `NullPointerException`) is not modelled.
- Pojo.QueryPojo.BuildConditionQuery: reflection is replaced by the class's fields given as data, level by level. `toConditions()` (`ConditionUtil.getConditions`) is given as a parameter, since the annotation scan over getters is not part of this model. Exceptions thrown by `field.get` and swallowed by the source are not modelled.
- Pojo.QueryPojo.AppendCondition: the `HashSet` is a duplicate-free sequence in insertion order, and duplicates are found by value equality. The source uses identity, because `Condition` does not override `equals`, and its order is the hash order. Both fix only which conditions are present and the order they are added to the query.
- Pojo.QueryPojo.ScanFields: the `HashMap` field iteration order is left arbitrary. The proved result does not depend on it.
- Conditions.ListValueWith: the `List` constructors of `ListValueCondition` keep the caller's list object, so a later `addValue` also changes the caller's list, and a null list is stored and makes `toSql` and `addValue` throw `NullPointerException`. The model holds the values as an immutable sequence, so it captures neither the aliasing nor the null list; the same holds for ConditionFactory.BuildListCondition, ConditionFactory.BuildListConditionDefault, ConditionFactory.BuildInCondition and Conditions.AddValue.
- Pojo.Truncate: strings are sequences of Unicode scalar values, while Java's `substring(0, 20)` counts UTF-16 code units. A name holding characters outside the Basic Multilingual Plane is cut at a different place, and Java may split a surrogate pair. The same holds for Pojo.SanitizeSortname, StringUtil.ToUpperCaseUpTo (the index counts code units) and ListUtil.ConvertArrayToSplitStr (`deleteCharAt` removes one code unit).
- ListUtil.AverageAssign: each part is a fresh sequence, while `subList` returns a view backed by the source list, so a later change to a part or to the source shows in the other. The same holds for the page returned by PageUtil.Pagging. The model captures the contents and the order, not this sharing.
- Query.ConditionQuery.CloneConditionQuery: the clone receives the same `Condition` objects through `addAll`. Conditions are values in the model, so a later Conditions.SetTableAlias or Conditions.SetColumn on one query's condition is not seen in the other query, as it is in the source.
- Pojo.Page.Copy: the copy holds the same `list` object as the original, so adding to one page's list changes the other's. The model copies the list's contents as a sequence and does not capture this aliasing. A null argument, for which `new Page(null)` throws `NullPointerException` at its first read, is not modelled: Pojo.Page.Copy and Pojo.Grid.FromPage take a non-null `Page`.
- Query.ConditionQuery.AddParam: parameter keys are strings, so the null key a Java `HashMap` accepts is not modelled; the same holds for Query.ConditionQuery.AddAllParam and Pojo.QueryPojo.AppendQueryParam.
- The getters and setters of `ConditionQuery`, `Page` and `Grid` that only return or assign a field are not modelled separately.
- `Condition.getTableAlias` is the `tableAlias` field itself, and `WithoutValueCondition.toString` returns the same text as its `toSql` (Conditions.ToSql); neither has a row of its own.
- Enums: `getCode`/`code()` and `getMessage`/`message()` are the same accessors and are modelled once. The enum's Chinese messages are kept only as opaque strings.
- Concurrency, the DAO and service layers, Spring wiring, logging and I/O are not part of this model.

## Findings

| source | as written | input that shows it | evidently intended | confidence | as-written member | corrected member |
|---|---|---|---|---|---|---|
| src/main/java/com/easyway/business/framework/util/StringUtil.java:1128-1139 | `longToString` negates a negative value and then indexes the digit table with `value % radix` | `Long.MIN_VALUE`: its negation is itself, so the first index is -8 and the call throws `ArrayIndexOutOfBoundsException` | `Long.MIN_VALUE` prints as the digits of its absolute value, as every other negative long does (no sign is written) | not executed | StringUtil.LongToString | StringUtil.LongToStringSpecProperties |
| src/main/java/com/easyway/business/framework/util/PageUtil.java:33-43 | the start index `(pageNum - 1) * pageSize` is computed in `int` and may wrap | a list of 65536 elements, pageSize 65536, pageNum 65537: the start wraps to 0 and the whole list is returned instead of null | a page number beyond the page count gives null | not executed | PageUtil.PaggingWrapsAround | PageUtil.PaggingExactOutOfRange |
| src/main/java/com/easyway/business/framework/util/PageUtil.java:33-33 | `pageNum != pageCount` compares two `Integer` objects by identity | 1000 elements, pageSize 7, pageNum 143: the page count 143 is boxed to a fresh object, so the last-page test fails, the end index 1001 lies past the list, and subList throws into the catch, returning null | the last page runs to the end of the list whatever the page count | not executed | PageUtil.PaggingLastPageLost | PageUtil.PaggingExactInRange |
| src/main/java/com/easyway/business/framework/pojo/Grid.java:43-48 | `buildSortname` removes "--" before removing spaces and parentheses | sortname "a- -b" becomes "a--b", which still holds the SQL comment marker | the sanitised name never holds "--" | not executed | Pojo.SortnameKeepsDoubleDash | Pojo.SanitizeSortnameStrictClean |
| src/main/java/com/easyway/business/framework/util/StringUtil.java:725-728 | the initial capacity `arraySize * (len(array[0]) + len(separator))` is computed in `int` and passed to `new StringBuffer` | 65536 elements whose first is a 32768-character string and whose others are null, separator "": the product 2^31 wraps to -2^31 and `join` throws `NegativeArraySizeException` | join returns the joined text whatever the estimate (the capacity is only a hint) | not executed | StringUtil.JoinCapacityOverflow | StringUtil.AppendAll |

=== FILE: annotation_factory.dfy ===
/** The annotation-driven condition builders: a registry from an
    annotation's simple name to its factory, the test whether any annotation
    of a getter has a factory, and the dispatch that turns an annotated
    value into a Condition. Annotations are plain data here. */
module AnnotationFactory {
  import opened Base
  import opened Values
  import opened Conditions
  import opened ConditionFactory

  /** An annotation on a getter, by type. The framework's own three carry
      their attributes; any other annotation type is known only by its
      simple name (which may coincide with one of the framework's). */
  datatype Annotation =
    | ConditionValueAnnotation
    | SingleValueAnnotation(column: JString, equal: JString, tableAlias: JString)
    | ListValueAnnotation(column: JString, equal: JString, tableAlias: JString)
    | OtherAnnotation(name: string)

  /** annotation.annotationType().getSimpleName() */
  function SimpleName(a: Annotation): string
  {
    match a
    case ConditionValueAnnotation => "ConditionValue"
    case SingleValueAnnotation(_, _, _) => "SingleValue"
    case ListValueAnnotation(_, _, _) => "ListValue"
    case OtherAnnotation(name) => name
  }

  /** @SingleValue(column = ...) with the other attributes left at their
      defaults: operator "=" and alias "t". */
  function SingleValueDefaults(column: JString): (a: Annotation)
    ensures a.SingleValueAnnotation? && a.column == column
    ensures a.equal == Some(EQUAL) && a.tableAlias == Some(DEFAULT_ALIAS)
  {
    SingleValueAnnotation(column, Some("="), Some("t"))
  }

  /** The three concrete factories. */
  datatype Factory = ConditionValueFactory | SingleValueFactory | ListValueFactory

  /** The registry the static initialiser fills. */
  const FACTORIES: map<string, Factory> :=
    map["ConditionValue" := ConditionValueFactory, "SingleValue" := SingleValueFactory, "ListValue" := ListValueFactory]

  /** factorys.get(name): a factory exactly for the three registered names. */
  function FactoryFor(name: string): (r: Option<Factory>)
    ensures r.Some? <==> name == "ConditionValue" || name == "SingleValue" || name == "ListValue"
    ensures name == "ConditionValue" ==> r == Some(ConditionValueFactory)
    ensures name == "SingleValue" ==> r == Some(SingleValueFactory)
    ensures name == "ListValue" ==> r == Some(ListValueFactory)
  {
    if name in FACTORIES then Some(FACTORIES[name]) else None
  }

  /** Whether some annotation's simple name has a factory. */
  predicate HasFactory(annotations: seq<Annotation>)
  {
    exists i :: 0 <= i < |annotations| && FactoryFor(SimpleName(annotations[i])).Some?
  }

  /** couldBuild(annotations): false for a null or empty array; otherwise a
      scan that stops at the first annotation with a factory. */
  method CouldBuild(annotations: Option<seq<Annotation>>) returns (r: bool)
    ensures r <==> annotations.Some? && HasFactory(annotations.value)
    ensures annotations.None? || |annotations.value| == 0 ==> !r
  {
    if annotations.None? || |annotations.value| == 0 {
      return false;
    }
    var arr := annotations.value;
    var i := 0;
    while i < |arr|
      invariant 0 <= i <= |arr|
      invariant forall k :: 0 <= k < i ==> FactoryFor(SimpleName(arr[k])).None?
    {
      if FactoryFor(SimpleName(arr[i])).Some? {
        return true;
      }
      i := i + 1;
    }
    return false;
  }

  /** The values buildCondition turns away before asking the factory: null,
      the String "" (an empty StringBuilder is not turned away), an array of
      length 0 of any element type, and an empty Collection. */
  predicate Blank(value: Value)
  {
    || value.Null?
    || value == Str("")
    || (value.Arr? && |value.elems| == 0)
    || (value.PrimArr? && value.length == 0)
    || ((value.ListObj? || value.SetObj?) && |value.elems| == 0)
  }

  /** Each factory's build(annotation, value). A factory casts the
      annotation to its own type, and ConditionValue's factory casts the
      value to a Condition; a wrong cast throws. */
  function Build(factory: Factory, a: Annotation, value: Value): Result<Option<Condition>>
  {
    if value.Null? then Ok(None)
    else match factory
      case ConditionValueFactory =>
        if value.CondObj? then Ok(Some(value.cond)) else Err(ClassCastException)
      case SingleValueFactory =>
        if !a.SingleValueAnnotation? then Err(ClassCastException)
        else Ok(Some(BuildSingleValueCondition(a.tableAlias, a.column, a.equal, value)))
      case ListValueFactory =>
        if !a.ListValueAnnotation? then Err(ClassCastException)
        else if value.ListObj? then Ok(Some(BuildListCondition(a.tableAlias, a.column, a.equal, value.elems)))
        // the Object[] form copies the elements in order (ListValueOfArray)
        else if value.Arr? then Ok(Some(BuildListCondition(a.tableAlias, a.column, a.equal, value.elems)))
        else Ok(None)
  }

  /** buildCondition(annotation, value): null when the annotation has no
      factory or the value is blank; otherwise what the factory builds. */
  function BuildCondition(a: Annotation, value: Value): (r: Result<Option<Condition>>)
    ensures FactoryFor(SimpleName(a)).None? || Blank(value) ==> r == Ok(None)
    ensures r != Ok(None) ==> FactoryFor(SimpleName(a)).Some? && !Blank(value)
    ensures !Blank(value) && a.ConditionValueAnnotation? ==>
      r == if value.CondObj? then Ok(Some(value.cond)) else Err(ClassCastException)
    ensures !Blank(value) && a.SingleValueAnnotation? ==>
      r == Ok(Some(SingleValue(a.tableAlias, a.column, a.equal, value)))
    ensures !Blank(value) && a.ListValueAnnotation? ==>
      r == if value.ListObj? || value.Arr? then Ok(Some(ListValue(a.tableAlias, a.column, a.equal, value.elems))) else Ok(None)
    ensures !Blank(value) && a.OtherAnnotation? && (a.name == "SingleValue" || a.name == "ListValue") ==>
      r == Err(ClassCastException)
  {
    var factory := FactoryFor(SimpleName(a));
    if factory.None? || Blank(value) then Ok(None)
    else Build(factory.value, a, value)
  }

  /** A getter annotated with @SingleValue(column = c) and returning a
      non-blank value renders "t.c = 'value'". */
  lemma SingleValueDefaultsSql(column: string, value: Value)
    requires !Blank(value)
    ensures var r := BuildCondition(SingleValueDefaults(Some(column)), value);
      && r.Ok? && r.value.Some? && r.value.value.SingleValue?
      && ToSql(r.value.value) == Some("t." + column + " = '" + Render(value) + "'")
  {
    var c := SingleValue(Some(DEFAULT_ALIAS), Some(column), Some(EQUAL), value);
    assert BuildCondition(SingleValueDefaults(Some(column)), value) == Ok(Some(c));
    SingleValueText(DEFAULT_ALIAS, column, EQUAL, Render(value));
    assert ToSql(c) == Some(DEFAULT_ALIAS + "." + column + " " + EQUAL + " '" + Render(value) + "'");
    assert DEFAULT_ALIAS + "." == "t." && " " + EQUAL + " '" == " = '";
  }

  /** Regrouping the pieces of a single-value condition's SQL. */
  lemma SingleValueText(alias: string, column: string, op: string, v: string)
    ensures alias + "." + column + " " + op + " '" + v + "'" == (alias + ".") + column + (" " + op + " '") + v + "'"
  {
  }

  /** For @ListValue an Object[] and a List holding the same elements build
      the same condition. */
  lemma ListValueArrayAsList(a: Annotation, elems: seq<Value>, arrText: string, listText: string)
    requires a.ListValueAnnotation? && |elems| > 0
    ensures BuildCondition(a, Arr(elems, arrText)) == BuildCondition(a, ListObj(elems, listText))
    ensures BuildCondition(a, Arr(elems, arrText)).Ok?
  {
  }

  /** A primitive array is never built into a list condition: an empty one
      is blank for every factory, and a non-empty one is not an Object[], so
      ListValue's factory gives null; SingleValue's factory keeps it as its
      value. */
  lemma PrimitiveArrayCondition(a: Annotation, length: nat, text: string)
    ensures length == 0 ==> BuildCondition(a, PrimArr(length, text)) == Ok(None)
    ensures a.ListValueAnnotation? ==> BuildCondition(a, PrimArr(length, text)) == Ok(None)
    ensures a.SingleValueAnnotation? && length > 0 ==>
      BuildCondition(a, PrimArr(length, text)) == Ok(Some(SingleValue(a.tableAlias, a.column, a.equal, PrimArr(length, text))))
  {
  }

  /** Only the String "" is turned away: an empty StringBuilder, which
      ObjectUtil.isEmpty calls empty, still reaches the factory, and
      @SingleValue builds a condition comparing with ''. */
  lemma EmptyCharSequenceNotBlank(a: Annotation)
    requires a.SingleValueAnnotation?
    ensures !Blank(CharSeq(""))
    ensures BuildCondition(a, CharSeq("")) == Ok(Some(SingleValue(a.tableAlias, a.column, a.equal, CharSeq(""))))
    ensures ToSql(BuildCondition(a, CharSeq("")).value.value).Some?
  {
  }

  /** Whenever buildCondition yields a condition, couldBuild accepts the
      annotation. */
  lemma BuiltImpliesCouldBuild(a: Annotation, value: Value)
    requires BuildCondition(a, value).Ok? && BuildCondition(a, value).value.Some?
    ensures HasFactory([a])
  {
    assert FactoryFor(SimpleName([a][0])).Some?;
  }
}

=== FILE: base.dfy ===
/** Java-level vocabulary shared by the whole model: a null reference as an
    Option, an unchecked exception as the error side of a Result, 32-bit int
    arithmetic, and the separator join that every string builder in the
    framework produces. */
module Base {

  datatype Option<+T> = None | Some(value: T)

  /** The unchecked exceptions the modelled code can raise. */
  datatype Error =
    | ArithmeticException         // integer division or remainder by zero
    | IndexOutOfBounds            // List.get, List.set or List.subList out of range
    | StringIndexOutOfBounds      // String.substring or StringBuffer.delete out of range
    | ClassCastException          // a cast of an Object to the wrong class
    | NullPointerException        // a method called on a null reference
    | IllegalStateException       // thrown explicitly by the framework
    | NegativeArraySizeException  // a buffer created with a negative capacity

  datatype Result<+T> = Ok(value: T) | Err(error: Error)

  /** A java.lang.String reference: null or a string. */
  type JString = Option<string>

  /** String.valueOf(String) and StringBuilder.append(String): null prints as "null". */
  function Show(s: JString): (r: string)
    ensures s.Some? ==> r == s.value
    ensures s.None? ==> r == "null"
  {
    if s.Some? then s.value else "null"
  }

  /** `s == null || s.length() == 0` */
  predicate IsNullOrEmpty(s: JString) {
    s.None? || |s.value| == 0
  }

  const INT_MIN: int := -0x8000_0000
  const INT_MAX: int := 0x7fff_ffff

  /** The values of a Java `int`. */
  type Int32 = x: int | INT_MIN <= x <= INT_MAX

  /** Two's-complement wrap-around of an exact result to a Java `int`. */
  function Wrap32(x: int): (r: Int32)
    ensures (r - x) % 0x1_0000_0000 == 0
    ensures INT_MIN <= x <= INT_MAX ==> r == x
  {
    var m := x % 0x1_0000_0000;
    if m > INT_MAX then m - 0x1_0000_0000 else m
  }

  function Abs(x: int): nat {
    if x < 0 then -x else x
  }

  /** Java's integer `/`: truncates toward zero (Dafny's `/` is Euclidean). */
  function JavaDiv(a: int, b: int): (q: int)
    requires b != 0
    ensures a >= 0 && b > 0 ==> q == a / b
  {
    var q := Abs(a) / Abs(b);
    if (a < 0) != (b < 0) then -q else q
  }

  /** Java's integer `%`: the remainder takes the sign of the dividend. */
  function JavaRem(a: int, b: int): (r: int)
    requires b != 0
    ensures a >= 0 && b > 0 ==> r == a % b
  {
    a - b * JavaDiv(a, b)
  }

  /** The strings of `parts` with `sep` between neighbours: exactly
      |parts| - 1 separators and none at either end. */
  function Joined(parts: seq<string>, sep: string): string
  {
    if |parts| == 0 then ""
    else if |parts| == 1 then parts[0]
    else Joined(parts[..|parts| - 1], sep) + sep + parts[|parts| - 1]
  }

  /** Every part followed by `sep`: what a loop of `append(p).append(sep)` builds. */
  function Terminated(parts: seq<string>, sep: string): string
  {
    if |parts| == 0 then "" else Terminated(parts[..|parts| - 1], sep) + parts[|parts| - 1] + sep
  }

  function TotalLength(parts: seq<string>): nat
  {
    if |parts| == 0 then 0 else TotalLength(parts[..|parts| - 1]) + |parts[|parts| - 1]|
  }

  /** Joining two non-empty lists is joining their joins. */
  lemma {:induction false} JoinedAppend(xs: seq<string>, ys: seq<string>, sep: string)
    requires |xs| > 0 && |ys| > 0
    ensures Joined(xs + ys, sep) == Joined(xs, sep) + sep + Joined(ys, sep)
    decreases |ys|
  {
    if |ys| == 1 {
      assert (xs + ys)[..|xs + ys| - 1] == xs;
    } else {
      var ys' := ys[..|ys| - 1];
      assert (xs + ys)[..|xs + ys| - 1] == xs + ys';
      JoinedAppend(xs, ys', sep);
    }
  }

  /** The length of a join: the parts plus |parts| - 1 separators. */
  lemma {:induction false} JoinedLength(parts: seq<string>, sep: string)
    requires |parts| > 0
    ensures |Joined(parts, sep)| == TotalLength(parts) + (|parts| - 1) * |sep|
  {
    if |parts| > 1 {
      var n := |parts|;
      JoinedLength(parts[..n - 1], sep);
      assert (n - 1) * |sep| == (n - 2) * |sep| + |sep|;
    }
  }

  /** The terminated form is the joined form plus one trailing separator. */
  lemma {:induction false} TerminatedIsJoinedPlusSep(parts: seq<string>, sep: string)
    requires |parts| > 0
    ensures Terminated(parts, sep) == Joined(parts, sep) + sep
  {
    if |parts| > 1 {
      TerminatedIsJoinedPlusSep(parts[..|parts| - 1], sep);
    } else {
      assert parts[..0] == [];
    }
  }

  /** Appending one part to a terminated string. */
  lemma TerminatedSnoc(parts: seq<string>, p: string, sep: string)
    ensures Terminated(parts + [p], sep) == Terminated(parts, sep) + p + sep
  {
    assert (parts + [p])[..|parts|] == parts;
  }

  /** Appending one part to a joined string. */
  lemma JoinedSnoc(parts: seq<string>, p: string, sep: string)
    ensures Joined(parts + [p], sep) == if |parts| == 0 then p else Joined(parts, sep) + sep + p
  {
    assert (parts + [p])[..|parts|] == parts;
  }

  /** Each string wrapped in single quotes, as SQL literals are written. */
  function Quoted(s: seq<string>): (r: seq<string>)
    ensures |r| == |s| && forall i :: 0 <= i < |s| ==> r[i] == "'" + s[i] + "'"
  {
    seq(|s|, i requires 0 <= i < |s| => "'" + s[i] + "'")
  }
}

=== FILE: collection_util.dfy ===
/** CollectionUtil: emptiness tests, search, in-place removal and the
    minimum/maximum/equal selections. A Comparable element type is modelled
    by a ranking `key`: a.compareTo(b) has the sign of key(a) - key(b). */
module CollectionUtil {
  import opened Base
  import opened Lists

  // ---------------------------------------------------------------------
  // isEmpty / isNotEmpty
  // ---------------------------------------------------------------------

  /** isEmpty(Collection) and isEmpty(Object[]): null or no elements. */
  predicate IsEmpty<T>(c: Option<seq<T>>) {
    c.None? || |c.value| == 0
  }

  /** isEmpty(Map): null or no entries. */
  predicate IsEmptyMap<K, V>(m: Option<map<K, V>>) {
    m.None? || |m.value| == 0
  }

  predicate IsNotEmpty<T>(c: Option<seq<T>>) {
    !IsEmpty(c)
  }

  predicate IsNotEmptyMap<K, V>(m: Option<map<K, V>>) {
    !IsEmptyMap(m)
  }

  /** Each isNotEmpty holds exactly when the argument is present and has an element. */
  lemma IsNotEmptyMeansElement<T, K, V>(c: Option<seq<T>>, m: Option<map<K, V>>)
    ensures IsNotEmpty(c) <==> c.Some? && exists x :: x in c.value
    ensures IsNotEmptyMap(m) <==> m.Some? && exists k :: k in m.value
  {
    if c.Some? && |c.value| > 0 {
      assert c.value[0] in c.value;
    }
    if m.Some? && |m.value| > 0 {
      var k :| k in m.value;
    }
    if m.Some? && |m.value| == 0 {
      assert m.value == map[];
    }
  }

  // ---------------------------------------------------------------------
  // addNotEmptyStr / strInList / removeEmptyString
  // ---------------------------------------------------------------------

  /** addNotEmptyStr(str, list): appends a non-null, non-empty str; a null
      list throws only when there is something to append. */
  method AddNotEmptyStr(str: JString, list: JList?<JString>) returns (r: Result<()>)
    modifies list
    ensures IsNullOrEmpty(str) ==> r.Ok? && (list != null ==> list.elems == old(list.elems))
    ensures !IsNullOrEmpty(str) && list == null ==> r == Err(NullPointerException)
    ensures !IsNullOrEmpty(str) && list != null ==> r.Ok? && list.elems == old(list.elems) + [str]
  {
    if IsNullOrEmpty(str) {
      return Ok(());
    }
    if list == null {
      return Err(NullPointerException);
    }
    list.elems := list.elems + [str];
    return Ok(());
  }

  /** Whether some element of `list` from position `from` on equals `str`
      (String.equals: a null element never matches). */
  function Search(str: string, list: seq<JString>, from: nat): (r: bool)
    requires from <= |list|
    ensures r <==> exists i :: from <= i < |list| && list[i] == Some(str)
    decreases |list| - from
  {
    if from == |list| then false
    else if list[from] == Some(str) then true
    else Search(str, list, from + 1)
  }

  /** strInList(str, list): false for a null or empty list or a null str,
      otherwise whether some element equals str. */
  function StrInList(str: JString, list: Option<seq<JString>>): (r: bool)
    ensures r <==> list.Some? && str.Some? && str in list.value
  {
    if IsEmpty(list) then false
    else if str.None? then false
    else Search(str.value, list.value, 0)
  }

  predicate NotNullOrEmpty(s: JString) {
    !IsNullOrEmpty(s)
  }

  predicate NotIn(removed: seq<JString>, s: JString) {
    s !in removed
  }

  /** Two filters that agree on every element of `s` give the same result. */
  lemma {:induction false} FilterAgree<T>(s: seq<T>, p: T -> bool, q: T -> bool)
    requires forall i :: 0 <= i < |s| ==> p(s[i]) == q(s[i])
    ensures Filter(s, p) == Filter(s, q)
  {
    if |s| > 0 {
      FilterAgree(s[..|s| - 1], p, q);
    }
  }

  /** removeEmptyString(collection): collects the null and "" elements, then
      removes every element equal to one of them; the others keep their order.
      A null collection throws. */
  method RemoveEmptyString(collection: JList?<JString>) returns (r: Result<()>)
    modifies collection
    ensures collection == null ==> r == Err(NullPointerException)
    ensures collection != null ==> r.Ok? && collection.elems == Filter(old(collection.elems), NotNullOrEmpty)
  {
    if collection == null {
      return Err(NullPointerException);
    }
    var s := collection.elems;
    var removeStringList: seq<JString> := [];
    var i := 0;
    while i < |s|
      invariant 0 <= i <= |s|
      invariant removeStringList == Filter(s[..i], IsNullOrEmpty)
    {
      FilterSnoc(s[..i], s[i], IsNullOrEmpty);
      assert s[..i + 1] == s[..i] + [s[i]];
      if IsNullOrEmpty(s[i]) {
        removeStringList := removeStringList + [s[i]];
      }
      i := i + 1;
    }
    assert s[..|s|] == s;
    // removeAll(removeStringList)
    forall k | 0 <= k < |s|
      ensures NotIn(removeStringList, s[k]) == NotNullOrEmpty(s[k])
    {
      if IsNullOrEmpty(s[k]) {
        FilterKeeps(s, IsNullOrEmpty, s[k]);
      } else if s[k] in removeStringList {
        FilterSound(s, IsNullOrEmpty, s[k]);
      }
    }
    FilterAgree(s, (x: JString) => NotIn(removeStringList, x), NotNullOrEmpty);
    collection.elems := Filter(s, (x: JString) => NotIn(removeStringList, x));
    return Ok(());
  }

  /** What removeEmptyString keeps: no null or "" is left, every other
      element stays, and together with the removed ones they are the whole. */
  lemma RemoveEmptyStringKeeps(s: seq<JString>)
    ensures forall x :: x in Filter(s, NotNullOrEmpty) ==> x.Some? && |x.value| > 0
    ensures forall x :: x in s && x.Some? && |x.value| > 0 ==> x in Filter(s, NotNullOrEmpty)
    ensures multiset(Filter(s, NotNullOrEmpty)) + multiset(Filter(s, IsNullOrEmpty)) == multiset(s)
  {
    forall x | x in Filter(s, NotNullOrEmpty)
      ensures x.Some? && |x.value| > 0
    {
      FilterSound(s, NotNullOrEmpty, x);
    }
    forall x | x in s && x.Some? && |x.value| > 0
      ensures x in Filter(s, NotNullOrEmpty)
    {
      FilterKeeps(s, NotNullOrEmpty, x);
    }
    FilterPartition(s, NotNullOrEmpty, IsNullOrEmpty);
  }

  // ---------------------------------------------------------------------
  // equal / min / max
  // ---------------------------------------------------------------------

  /** The elements of `s` whose rank is k, in order. */
  function WithKey<T>(s: seq<T>, key: T -> int, k: int): (r: seq<T>)
    ensures forall x :: x in r ==> x in s && key(x) == k
  {
    if |s| == 0 then [] else WithKey(s[..|s| - 1], key, k) + (if key(s[|s| - 1]) == k then [s[|s| - 1]] else [])
  }

  lemma {:induction false} WithKeyKeeps<T>(s: seq<T>, key: T -> int, x: T)
    requires x in s
    ensures x in WithKey(s, key, key(x))
  {
    var n := |s|;
    if s[n - 1] != x {
      var k :| 0 <= k < n && s[k] == x;
      assert s[..n - 1][k] == x;
      WithKeyKeeps(s[..n - 1], key, x);
    }
  }

  /** equal(collection, object): the elements that compare equal to object, in order. */
  method Equal<T>(collection: seq<T>, target: T, key: T -> int) returns (r: seq<T>)
    ensures r == WithKey(collection, key, key(target))
  {
    r := [];
    var i := 0;
    while i < |collection|
      invariant 0 <= i <= |collection|
      invariant r == WithKey(collection[..i], key, key(target))
    {
      assert collection[..i + 1][..i] == collection[..i];
      if key(collection[i]) == key(target) {
        r := r + [collection[i]];
      }
      i := i + 1;
    }
    assert collection[..|collection|] == collection;
  }

  /** The least rank in a non-empty sequence. */
  function MinKey<T>(s: seq<T>, key: T -> int): int
    requires |s| > 0
  {
    if |s| == 1 then key(s[0])
    else
      var m := MinKey(s[..|s| - 1], key);
      if key(s[|s| - 1]) < m then key(s[|s| - 1]) else m
  }

  /** The least rank bounds every rank and is the rank of some element. */
  lemma {:induction false} MinKeyIsLeast<T>(s: seq<T>, key: T -> int)
    requires |s| > 0
    ensures var m := MinKey(s, key);
      (forall i :: 0 <= i < |s| ==> m <= key(s[i])) && exists i :: 0 <= i < |s| && key(s[i]) == m
  {
    if |s| > 1 {
      var t := s[..|s| - 1];
      MinKeyIsLeast(t, key);
      var m := MinKey(s, key);
      var j :| 0 <= j < |t| && key(t[j]) == MinKey(t, key);
      forall i | 0 <= i < |s| ensures m <= key(s[i]) {
        if i < |t| {
          assert s[i] == t[i];
        }
      }
      if m != key(s[|s| - 1]) {
        assert key(s[j]) == m;
      } else {
        assert key(s[|s| - 1]) == m;
      }
    } else {
      assert key(s[0]) == MinKey(s, key);
    }
  }


  lemma MinKeySnoc<T>(s: seq<T>, x: T, key: T -> int)
    requires |s| > 0
    ensures MinKey(s + [x], key) == if key(x) < MinKey(s, key) then key(x) else MinKey(s, key)
  {
    assert (s + [x])[..|s|] == s;
  }

  /** The greatest rank in a non-empty sequence. */
  function MaxKey<T>(s: seq<T>, key: T -> int): int
    requires |s| > 0
  {
    if |s| == 1 then key(s[0])
    else
      var m := MaxKey(s[..|s| - 1], key);
      if key(s[|s| - 1]) > m then key(s[|s| - 1]) else m
  }

  /** The greatest rank bounds every rank and is the rank of some element. */
  lemma {:induction false} MaxKeyIsGreatest<T>(s: seq<T>, key: T -> int)
    requires |s| > 0
    ensures var m := MaxKey(s, key);
      (forall i :: 0 <= i < |s| ==> key(s[i]) <= m) && exists i :: 0 <= i < |s| && key(s[i]) == m
  {
    if |s| > 1 {
      var t := s[..|s| - 1];
      MaxKeyIsGreatest(t, key);
      var m := MaxKey(s, key);
      var j :| 0 <= j < |t| && key(t[j]) == MaxKey(t, key);
      forall i | 0 <= i < |s| ensures key(s[i]) <= m {
        if i < |t| {
          assert s[i] == t[i];
        }
      }
      if m != key(s[|s| - 1]) {
        assert key(s[j]) == m;
      } else {
        assert key(s[|s| - 1]) == m;
      }
    } else {
      assert key(s[0]) == MaxKey(s, key);
    }
  }

  lemma MaxKeySnoc<T>(s: seq<T>, x: T, key: T -> int)
    requires |s| > 0
    ensures MaxKey(s + [x], key) == if key(x) > MaxKey(s, key) then key(x) else MaxKey(s, key)
  {
    assert (s + [x])[..|s|] == s;
  }


  /** min(collection): every element of least rank, in order; the running
      minimum starts at the first element and moves only to a strictly
      smaller one. An empty collection compares against null, which no
      element reaches, so the result is empty. */
  method Min<T>(collection: seq<T>, key: T -> int) returns (r: seq<T>)
    ensures |collection| == 0 ==> r == []
    ensures |collection| > 0 ==> r == WithKey(collection, key, MinKey(collection, key))
  {
    if |collection| == 0 {
      return [];
    }
    var min := collection[0];
    var i := 1;
    while i < |collection|
      invariant 1 <= i <= |collection|
      invariant key(min) == MinKey(collection[..i], key)
    {
      MinKeySnoc(collection[..i], collection[i], key);
      assert collection[..i + 1] == collection[..i] + [collection[i]];
      if key(collection[i]) < key(min) {
        min := collection[i];
      }
      i := i + 1;
    }
    assert collection[..|collection|] == collection;
    assert key(min) == MinKey(collection, key);
    r := Equal(collection, min, key);
  }

  /** max(collection): every element of greatest rank, in order. */
  method Max<T>(collection: seq<T>, key: T -> int) returns (r: seq<T>)
    ensures |collection| == 0 ==> r == []
    ensures |collection| > 0 ==> r == WithKey(collection, key, MaxKey(collection, key))
  {
    if |collection| == 0 {
      return [];
    }
    var max := collection[0];
    var i := 1;
    while i < |collection|
      invariant 1 <= i <= |collection|
      invariant key(max) == MaxKey(collection[..i], key)
    {
      MaxKeySnoc(collection[..i], collection[i], key);
      assert collection[..i + 1] == collection[..i] + [collection[i]];
      if key(collection[i]) > key(max) {
        max := collection[i];
      }
      i := i + 1;
    }
    assert collection[..|collection|] == collection;
    assert key(max) == MaxKey(collection, key);
    r := Equal(collection, max, key);
  }

  /** The selection min makes is never empty for a non-empty collection,
      holds only elements of least rank, and holds every one of them. */
  lemma MinSelection<T>(s: seq<T>, key: T -> int)
    requires |s| > 0
    ensures |WithKey(s, key, MinKey(s, key))| > 0
    ensures forall x :: x in WithKey(s, key, MinKey(s, key)) ==> forall y :: y in s ==> key(x) <= key(y)
    ensures forall x :: x in s && (forall y :: y in s ==> key(x) <= key(y)) ==> x in WithKey(s, key, MinKey(s, key))
  {
    var m := MinKey(s, key);
    MinKeyIsLeast(s, key);
    var i :| 0 <= i < |s| && key(s[i]) == m;
    WithKeyKeeps(s, key, s[i]);
    forall x | x in s && (forall y :: y in s ==> key(x) <= key(y))
      ensures x in WithKey(s, key, m)
    {
      assert key(x) <= key(s[i]);
      WithKeyKeeps(s, key, x);
    }
  }

  /** The same for max. */
  lemma MaxSelection<T>(s: seq<T>, key: T -> int)
    requires |s| > 0
    ensures |WithKey(s, key, MaxKey(s, key))| > 0
    ensures forall x :: x in WithKey(s, key, MaxKey(s, key)) ==> forall y :: y in s ==> key(y) <= key(x)
    ensures forall x :: x in s && (forall y :: y in s ==> key(y) <= key(x)) ==> x in WithKey(s, key, MaxKey(s, key))
  {
    var m := MaxKey(s, key);
    MaxKeyIsGreatest(s, key);
    var i :| 0 <= i < |s| && key(s[i]) == m;
    WithKeyKeeps(s, key, s[i]);
    forall x | x in s && (forall y :: y in s ==> key(y) <= key(x))
      ensures x in WithKey(s, key, m)
    {
      assert key(s[i]) <= key(x);
      WithKeyKeeps(s, key, x);
    }
  }

  // ---------------------------------------------------------------------
  // containsAll
  // ---------------------------------------------------------------------

  /** Whether every element of coll2 from position `from` on is in coll1. */
  function AllIn<T(==)>(coll1: seq<T>, coll2: seq<T>, from: nat): (r: bool)
    requires from <= |coll2|
    ensures r <==> forall i :: from <= i < |coll2| ==> coll2[i] in coll1
    decreases |coll2| - from
  {
    if from == |coll2| then true
    else if coll2[from] !in coll1 then false
    else AllIn(coll1, coll2, from + 1)
  }

  /** containsAll(coll1, coll2): false when either is empty, otherwise
      whether coll1 contains every element of coll2. */
  function ContainsAll<T(==)>(coll1: seq<T>, coll2: seq<T>): (r: bool)
    ensures r <==> |coll1| > 0 && |coll2| > 0 && forall x :: x in coll2 ==> x in coll1
  {
    if |coll1| <= 0 || |coll2| <= 0 then false else AllIn(coll1, coll2, 0)
  }
}

=== FILE: condition_factory.dfy ===
/** ConditionFactory: one static builder per Condition constructor. Each
    contract states the condition built and the SQL text it renders. */
module ConditionFactory {
  import opened Base
  import opened Values
  import opened Conditions

  /** buildSqlCondition(sql): a condition without value whose SQL is `sql`
      itself, under the default alias. */
  function BuildSqlCondition(sql: JString): (c: Condition)
    ensures c.WithoutValue? && c.tableAlias == Some(DEFAULT_ALIAS)
    ensures ToSql(c) == sql && GetColumn(c).None?
  {
    WithoutValueOf(sql)
  }

  /** buildSingleValueCondition(tableAlias, column, equal, value). With a
      non-empty alias the SQL is `alias.column equal 'value'`. */
  function BuildSingleValueCondition(tableAlias: JString, column: JString, equal: JString, value: Value): (c: Condition)
    ensures c == SingleValue(tableAlias, column, equal, value)
    ensures !IsNullOrEmpty(tableAlias) ==>
      ToSql(c) == Some(tableAlias.value + "." + Show(column) + " " + Show(equal) + " '" + Render(value) + "'")
    ensures IsNullOrEmpty(tableAlias) ==>
      ToSql(c) == Some(Show(column) + " " + Show(equal) + " '" + Render(value) + "'")
  {
    SingleValue(tableAlias, column, equal, value)
  }

  /** buildSingleValueCondition(column, equal, value): the column is
      qualified with "t". */
  function BuildSingleValueConditionDefault(column: JString, equal: JString, value: Value): (c: Condition)
    ensures c.SingleValue? && c.tableAlias == Some(DEFAULT_ALIAS)
    ensures c.column == column && c.equal == equal && c.value == value
    ensures ToSql(c) == Some("t." + Show(column) + " " + Show(equal) + " '" + Render(value) + "'")
  {
    var c := SingleValueWith(column, equal, value);
    DefaultAliasQualifies(c);
    c
  }

  /** buildBetweenCondition(tableAlias, column, begin, end). */
  function BuildBetweenCondition(tableAlias: JString, column: JString, beginValue: Value, endValue: Value): (c: Condition)
    ensures c == BetweenValue(tableAlias, column, beginValue, endValue)
    ensures !IsNullOrEmpty(tableAlias) ==>
      ToSql(c) == Some(tableAlias.value + "." + Show(column) + " between '" + Render(beginValue) + "' and '" + Render(endValue) + "'")
  {
    BetweenValue(tableAlias, column, beginValue, endValue)
  }

  /** buildBetweenCondition(column, begin, end): the column is qualified
      with "t". */
  function BuildBetweenConditionDefault(column: JString, beginValue: Value, endValue: Value): (c: Condition)
    ensures c.BetweenValue? && c.tableAlias == Some(DEFAULT_ALIAS)
    ensures c.column == column && c.beginValue == beginValue && c.endValue == endValue
    ensures ToSql(c) == Some("t." + Show(column) + " between '" + Render(beginValue) + "' and '" + Render(endValue) + "'")
  {
    var c := BetweenOf(column, beginValue, endValue);
    DefaultAliasQualifies(c);
    c
  }

  /** buildListCondition(tableAlias, column, equal, List). */
  function BuildListCondition(tableAlias: JString, column: JString, equal: JString, values: seq<Value>): (c: Condition)
    ensures c == ListValue(tableAlias, column, equal, values)
    ensures ToSql(c) == Some(Show(ColumnWithTableAlias(c)) + " " + Show(equal) + " (" + LiteralList(values) + ")")
  {
    ListValue(tableAlias, column, equal, values)
  }

  /** buildListCondition(column, equal, List): alias "t". */
  function BuildListConditionDefault(column: JString, equal: JString, values: seq<Value>): (c: Condition)
    ensures c.ListValue? && c.tableAlias == Some(DEFAULT_ALIAS)
    ensures c.column == column && c.equal == equal && c.values == values
    ensures ToSql(c) == Some("t." + Show(column) + " " + Show(equal) + " (" + LiteralList(values) + ")")
  {
    var c := ListValueWith(column, equal, values);
    DefaultAliasQualifies(c);
    c
  }

  /** buildListCondition(column, List): alias "t" and operator "in". */
  function BuildInCondition(column: JString, values: seq<Value>): (c: Condition)
    ensures c.ListValue? && c.tableAlias == Some(DEFAULT_ALIAS) && c.equal == Some(IN)
    ensures c.column == column && c.values == values
    ensures ToSql(c) == Some("t." + Show(column) + " in (" + LiteralList(values) + ")")
  {
    var c := ListValueOf(column, values);
    DefaultAliasQualifies(c);
    assert ListHead(c) == "t." + Show(column) + " in (" by {
      assert Show(c.equal) == "in";
      assert " " + "in" + " (" == " in (";
    }
    c
  }

  /** buildListCondition(tableAlias, column, equal, Object[]): the array's
      elements in order; a null array throws. */
  method BuildListConditionFromArray(tableAlias: JString, column: JString, equal: JString, arr: Option<seq<Value>>)
    returns (r: Result<Condition>)
    ensures arr.None? ==> r == Err(NullPointerException)
    ensures arr.Some? ==> r == Ok(BuildListCondition(tableAlias, column, equal, arr.value))
  {
    r := ListValueOfArray(tableAlias, column, equal, arr);
  }

  /** buildListCondition(column, equal, Object[]): alias "t". */
  method BuildListConditionFromArrayDefault(column: JString, equal: JString, arr: Option<seq<Value>>)
    returns (r: Result<Condition>)
    ensures arr.None? ==> r == Err(NullPointerException)
    ensures arr.Some? ==> r == Ok(BuildListConditionDefault(column, equal, arr.value))
  {
    r := ListValueOfArray(Some(DEFAULT_ALIAS), column, equal, arr);
  }

  /** buildListCondition(column, Object[]): alias "t" and operator "in". */
  method BuildInConditionFromArray(column: JString, arr: Option<seq<Value>>)
    returns (r: Result<Condition>)
    ensures arr.None? ==> r == Err(NullPointerException)
    ensures arr.Some? ==> r == Ok(BuildInCondition(column, arr.value))
  {
    r := ListValueOfArray(Some(DEFAULT_ALIAS), column, Some(IN), arr);
  }
}

=== FILE: condition_query.dfy ===
/** ConditionQuery: four lists of conditions, one per Condition kind, and a
    map of named parameters. Every condition added goes to the list of its
    own kind (each Condition subclass's addConditionToQuery calls the
    matching add method); the lists are read back in a fixed order. */
module Query {
  import opened Base
  import opened Values
  import opened Lists

  /** A Condition reference, which may be null. */
  type CondRef = Option<Condition>

  /** The four lists of a query. */
  datatype Bucket = BetweenBucket | WithoutBucket | SingleBucket | ListBucket

  /** The list addConditionToQuery puts a condition in. */
  function BucketOf(c: Condition): (b: Bucket)
    ensures b == SingleBucket <==> c.SingleValue?
    ensures b == ListBucket <==> c.ListValue?
    ensures b == BetweenBucket <==> c.BetweenValue?
    ensures b == WithoutBucket <==> c.WithoutValue?
  {
    match c
    case SingleValue(_, _, _, _) => SingleBucket
    case ListValue(_, _, _, _) => ListBucket
    case BetweenValue(_, _, _, _) => BetweenBucket
    case WithoutValue(_, _) => WithoutBucket
  }

  /** Whether `x` is a condition that belongs in list `b`. */
  predicate Routes(x: CondRef, b: Bucket)
  {
    x.Some? && BucketOf(x.value) == b
  }

  /** `Routes(_, b)` as a function value, for filtering. */
  function Sel(b: Bucket): CondRef -> bool
  {
    x => Routes(x, b)
  }

  /** The contents of a query. */
  datatype QueryState = QueryState(
    betweenValue: seq<CondRef>,
    withoutValue: seq<CondRef>,
    singleValue: seq<CondRef>,
    listValue: seq<CondRef>,
    params: map<string, Value>)

  /** A new query: four empty lists and an empty map. */
  const EMPTY: QueryState := QueryState([], [], [], [], map[])

  function BucketOfState(s: QueryState, b: Bucket): seq<CondRef>
  {
    match b
    case BetweenBucket => s.betweenValue
    case WithoutBucket => s.withoutValue
    case SingleBucket => s.singleValue
    case ListBucket => s.listValue
  }

  /** add(c) for a non-null c: c at the end of its own list; the other
      lists and the parameters stay as they were. */
  function Routed(s: QueryState, c: Condition): (r: QueryState)
    ensures BucketOfState(r, BucketOf(c)) == BucketOfState(s, BucketOf(c)) + [Some(c)]
    ensures forall b :: b != BucketOf(c) ==> BucketOfState(r, b) == BucketOfState(s, b)
    ensures r.params == s.params
  {
    match BucketOf(c)
    case BetweenBucket => s.(betweenValue := s.betweenValue + [Some(c)])
    case WithoutBucket => s.(withoutValue := s.withoutValue + [Some(c)])
    case SingleBucket => s.(singleValue := s.singleValue + [Some(c)])
    case ListBucket => s.(listValue := s.listValue + [Some(c)])
  }

  /** addAll(cs): add each element in order, skipping nulls. */
  function RoutedAll(s: QueryState, cs: seq<CondRef>): QueryState
  {
    if |cs| == 0 then s
    else
      var t := RoutedAll(s, cs[..|cs| - 1]);
      if cs[|cs| - 1].Some? then Routed(t, cs[|cs| - 1].value) else t
  }

  /** After addAll each list holds what it held, then the conditions of its
      kind from `cs` in their order in `cs`; the parameters are untouched. */
  lemma {:induction false} RoutedAllBuckets(s: QueryState, cs: seq<CondRef>, b: Bucket)
    ensures BucketOfState(RoutedAll(s, cs), b) == BucketOfState(s, b) + Filter(cs, Sel(b))
    ensures RoutedAll(s, cs).params == s.params
  {
    if |cs| > 0 {
      var n := |cs|;
      RoutedAllBuckets(s, cs[..n - 1], b);
      assert cs == cs[..n - 1] + [cs[n - 1]];
      FilterSnoc(cs[..n - 1], cs[n - 1], Sel(b));
    }
  }

  /** getAllCondition(): the without, single, list and between lists, in
      that order. */
  function AllConditions(s: QueryState): (r: seq<CondRef>)
    ensures |r| == |s.withoutValue| + |s.singleValue| + |s.listValue| + |s.betweenValue|
  {
    s.withoutValue + s.singleValue + s.listValue + s.betweenValue
  }

  /** Every list holds only non-null conditions of its own kind, as add
      and addAll leave it. */
  predicate WellRouted(s: QueryState)
  {
    && AllRoute(s.betweenValue, BetweenBucket)
    && AllRoute(s.withoutValue, WithoutBucket)
    && AllRoute(s.singleValue, SingleBucket)
    && AllRoute(s.listValue, ListBucket)
  }

  /** Every element of `xs` is a non-null condition of kind `b`. */
  predicate AllRoute(xs: seq<CondRef>, b: Bucket)
  {
    forall i :: 0 <= i < |xs| ==> Routes(xs[i], b)
  }

  lemma WellRoutedBucket(s: QueryState, b: Bucket)
    requires WellRouted(s)
    ensures AllRoute(BucketOfState(s, b), b)
  {
  }

  /** addAll keeps list `b` to its own kind. */
  lemma RoutedAllKeepsRoute(s: QueryState, cs: seq<CondRef>, b: Bucket)
    requires AllRoute(BucketOfState(s, b), b)
    ensures AllRoute(BucketOfState(RoutedAll(s, cs), b), b)
  {
    RoutedAllBuckets(s, cs, b);
    var xs, f := BucketOfState(s, b), Filter(cs, Sel(b));
    forall i | 0 <= i < |xs + f| ensures Routes((xs + f)[i], b) {
      if i >= |xs| {
        assert (xs + f)[i] == f[i - |xs|];
        assert f[i - |xs|] in f;
        FilterSound(cs, Sel(b), f[i - |xs|]);
      }
    }
  }

  /** add and addAll keep every list to its own kind. */
  lemma RoutedAllKeepsWellRouted(s: QueryState, cs: seq<CondRef>)
    requires WellRouted(s)
    ensures WellRouted(RoutedAll(s, cs))
  {
    RoutedAllKeepsRoute(s, cs, BetweenBucket);
    RoutedAllKeepsRoute(s, cs, WithoutBucket);
    RoutedAllKeepsRoute(s, cs, SingleBucket);
    RoutedAllKeepsRoute(s, cs, ListBucket);
  }

  /** The state cloneConditionQuery builds: a new query given all the
      conditions of `s` through addAll, and a copy of its parameters. */
  function CloneState(s: QueryState): QueryState
  {
    RoutedAll(EMPTY, AllConditions(s)).(params := map[] + s.params)
  }

  /** Filtering a list of kind `owner` by kind keeps it whole for its own
      kind and empties it for any other. */
  lemma FilterBucket(xs: seq<CondRef>, owner: Bucket, b: Bucket)
    requires AllRoute(xs, owner)
    ensures Filter(xs, Sel(b)) == if owner == b then xs else []
  {
    if owner == b {
      FilterAll(xs, Sel(b));
    } else {
      forall i | 0 <= i < |xs| ensures !Sel(b)(xs[i]) {
        assert Routes(xs[i], owner);
      }
      FilterNone(xs, Sel(b));
    }
  }

  /** Filtering the four lists of a well-routed query by kind `b` filters
      each list separately. */
  lemma FilterAllConditions(s: QueryState, b: Bucket)
    requires WellRouted(s)
    ensures Filter(AllConditions(s), Sel(b))
      == (if b == WithoutBucket then s.withoutValue else [])
       + (if b == SingleBucket then s.singleValue else [])
       + (if b == ListBucket then s.listValue else [])
       + (if b == BetweenBucket then s.betweenValue else [])
  {
    FilterAppend4(s.withoutValue, s.singleValue, s.listValue, s.betweenValue, Sel(b));
    FilterBucket(s.withoutValue, WithoutBucket, b);
    FilterBucket(s.singleValue, SingleBucket, b);
    FilterBucket(s.listValue, ListBucket, b);
    FilterBucket(s.betweenValue, BetweenBucket, b);
  }

  /** addAll of a well-routed query's conditions rebuilds each list. */
  lemma RerouteBucket(s: QueryState, b: Bucket)
    requires WellRouted(s)
    ensures Filter(AllConditions(s), Sel(b)) == BucketOfState(s, b)
  {
    FilterAllConditions(s, b);
    var e: seq<CondRef> := [];
    match b
    case WithoutBucket => assert s.withoutValue + e + e + e == s.withoutValue;
    case SingleBucket => assert e + s.singleValue + e + e == s.singleValue;
    case ListBucket => assert e + e + s.listValue + e == s.listValue;
    case BetweenBucket => assert e + e + e + s.betweenValue == s.betweenValue;
  }

  /** Cloning a query whose lists each hold their own kind gives the same
      lists, in the same order, and the same parameters. */
  lemma CloneOfWellRouted(s: QueryState)
    requires WellRouted(s)
    ensures CloneState(s) == s
  {
    var t := CloneState(s);
    CloneBucket(s, BetweenBucket);
    CloneBucket(s, WithoutBucket);
    CloneBucket(s, SingleBucket);
    CloneBucket(s, ListBucket);
    assert t.betweenValue == s.betweenValue;
    assert t.withoutValue == s.withoutValue;
    assert t.singleValue == s.singleValue;
    assert t.listValue == s.listValue;
    assert t.params == map[] + s.params == s.params;
  }

  lemma CloneBucket(s: QueryState, b: Bucket)
    requires WellRouted(s)
    ensures BucketOfState(CloneState(s), b) == BucketOfState(s, b)
  {
    RoutedAllBuckets(EMPTY, AllConditions(s), b);
    RerouteBucket(s, b);
    assert BucketOfState(EMPTY, b) == [];
  }

  /** A null in a list is dropped by the clone (addAll skips nulls), so a
      query whose list holds a null is not reproduced by cloning. */
  lemma CloneDropsNull()
    ensures var s := EMPTY.(singleValue := [None]);
      CloneState(s).singleValue == [] && CloneState(s) != s
  {
    var s := EMPTY.(singleValue := [None]);
    var all := AllConditions(s);
    assert all == [None];
    assert RoutedAll(EMPTY, all) == RoutedAll(EMPTY, all[..0]);
  }

  class ConditionQuery {
    var criteriaWithBetweenValue: seq<CondRef>
    var criteriaWithoutValue: seq<CondRef>
    var criteriaWithSingleValue: seq<CondRef>
    var criteriaWithListValue: seq<CondRef>
    var paramMap: map<string, Value>

    function State(): QueryState
      reads this
    {
      QueryState(criteriaWithBetweenValue, criteriaWithoutValue, criteriaWithSingleValue,
                 criteriaWithListValue, paramMap)
    }

    constructor ()
      ensures State() == EMPTY
    {
      criteriaWithBetweenValue := [];
      criteriaWithoutValue := [];
      criteriaWithSingleValue := [];
      criteriaWithListValue := [];
      paramMap := map[];
    }

    method AddBetweenValueCondition(c: CondRef)
      modifies this
      ensures State() == old(State()).(betweenValue := old(criteriaWithBetweenValue) + [c])
    {
      criteriaWithBetweenValue := criteriaWithBetweenValue + [c];
    }

    method AddWithoutValueCondition(c: CondRef)
      modifies this
      ensures State() == old(State()).(withoutValue := old(criteriaWithoutValue) + [c])
    {
      criteriaWithoutValue := criteriaWithoutValue + [c];
    }

    method AddSingleValueCondition(c: CondRef)
      modifies this
      ensures State() == old(State()).(singleValue := old(criteriaWithSingleValue) + [c])
    {
      criteriaWithSingleValue := criteriaWithSingleValue + [c];
    }

    method AddListValueCondition(c: CondRef)
      modifies this
      ensures State() == old(State()).(listValue := old(criteriaWithListValue) + [c])
    {
      criteriaWithListValue := criteriaWithListValue + [c];
    }

    /** add(condition): nothing for null; otherwise the condition's own
        addConditionToQuery picks the list. */
    method Add(c: CondRef)
      modifies this
      ensures c.None? ==> State() == old(State())
      ensures c.Some? ==> State() == Routed(old(State()), c.value)
    {
      if c.Some? {
        match c.value
        case SingleValue(_, _, _, _) => AddSingleValueCondition(c);
        case ListValue(_, _, _, _) => AddListValueCondition(c);
        case BetweenValue(_, _, _, _) => AddBetweenValueCondition(c);
        case WithoutValue(_, _) => AddWithoutValueCondition(c);
      }
    }

    /** addAll(list): nothing for null; otherwise add each element in order. */
    method AddAll(list: Option<seq<CondRef>>)
      modifies this
      ensures list.None? ==> State() == old(State())
      ensures list.Some? ==> State() == RoutedAll(old(State()), list.value)
    {
      if list.Some? {
        var cs := list.value;
        var i := 0;
        while i < |cs|
          invariant 0 <= i <= |cs|
          invariant State() == RoutedAll(old(State()), cs[..i])
        {
          assert cs[..i + 1][..i] == cs[..i];
          Add(cs[i]);
          i := i + 1;
        }
        assert cs[..|cs|] == cs;
      }
    }

    /** addParam(key, value): that key now maps to value; nothing else
        changes. */
    method AddParam(key: string, value: Value)
      modifies this
      ensures State() == old(State()).(params := old(paramMap)[key := value])
    {
      paramMap := paramMap[key := value];
    }

    /** addAllParam(map): every entry of `m` is put, overriding the same key;
        a null map throws. */
    method AddAllParam(m: Option<map<string, Value>>) returns (r: Result<()>)
      modifies this
      ensures m.None? ==> r == Err(NullPointerException) && State() == old(State())
      ensures m.Some? ==> r == Ok(()) && State() == old(State()).(params := old(paramMap) + m.value)
    {
      if m.None? {
        return Err(NullPointerException);
      }
      paramMap := paramMap + m.value;
      return Ok(());
    }

    /** getAllCondition(): a new list holding the four lists in turn. */
    method GetAllCondition() returns (r: seq<CondRef>)
      ensures r == AllConditions(State())
    {
      r := [];
      r := r + criteriaWithoutValue;
      r := r + criteriaWithSingleValue;
      r := r + criteriaWithListValue;
      r := r + criteriaWithBetweenValue;
    }

    /** cloneConditionQuery(): a new query given this one's conditions
        through addAll and its parameters through addAllParam. */
    method CloneConditionQuery() returns (q: ConditionQuery)
      ensures fresh(q)
      ensures q.State() == CloneState(State())
    {
      q := new ConditionQuery();
      var all := GetAllCondition();
      RoutedAllBuckets(EMPTY, all, SingleBucket);
      q.AddAll(Some(all));
      var _ := q.AddAllParam(Some(paramMap));
    }
  }

  /** addAllParam is a right-biased union: a key of the added map takes its
      value there, any other key keeps its old value. */
  lemma AddAllParamUnion(params: map<string, Value>, m: map<string, Value>, k: string)
    ensures k in m ==> (params + m)[k] == m[k]
    ensures k !in m && k in params ==> (params + m)[k] == params[k]
    ensures k in params + m <==> k in params || k in m
  {
  }
}

=== FILE: conditions.dfy ===
/** The four Condition kinds: their constructors' defaults, the qualified
    column, the setters and the SQL text each one renders. */
module Conditions {
  import opened Base
  import opened Values

  /** Condition's initial tableAlias. */
  const DEFAULT_ALIAS: string := "t"
  /** Constant.EQUAL and Constant.IN. */
  const EQUAL: string := "="
  const IN: string := "in"

  // ---------------------------------------------------------------------
  // Constructors with defaults
  // ---------------------------------------------------------------------

  /** SingleValueCondition(column, value): operator "=", alias "t". */
  function SingleValueOf(column: JString, value: Value): (c: Condition)
    ensures c.SingleValue? && c.tableAlias == Some(DEFAULT_ALIAS) && c.equal == Some(EQUAL)
    ensures c.column == column && c.value == value
  {
    SingleValueWith(column, Some(EQUAL), value)
  }

  /** SingleValueCondition(column, equal, value): alias "t". */
  function SingleValueWith(column: JString, equal: JString, value: Value): (c: Condition)
    ensures c.SingleValue? && c.tableAlias == Some(DEFAULT_ALIAS)
    ensures c.column == column && c.equal == equal && c.value == value
  {
    SingleValue(Some(DEFAULT_ALIAS), column, equal, value)
  }

  /** ListValueCondition(column, list): operator "in", alias "t". */
  function ListValueOf(column: JString, values: seq<Value>): (c: Condition)
    ensures c.ListValue? && c.tableAlias == Some(DEFAULT_ALIAS) && c.equal == Some(IN)
    ensures c.column == column && c.values == values
  {
    ListValueWith(column, Some(IN), values)
  }

  /** ListValueCondition(column, equal, list): alias "t". */
  function ListValueWith(column: JString, equal: JString, values: seq<Value>): (c: Condition)
    ensures c.ListValue? && c.tableAlias == Some(DEFAULT_ALIAS)
    ensures c.column == column && c.equal == equal && c.values == values
  {
    ListValue(Some(DEFAULT_ALIAS), column, equal, values)
  }

  /** The ListValueCondition constructors that take an Object[]: the
      elements are copied one by one into a new list, in order; a null array
      throws. `tableAlias` is "t" for the forms without one. */
  method ListValueOfArray(tableAlias: JString, column: JString, equal: JString, arr: Option<seq<Value>>)
    returns (r: Result<Condition>)
    ensures arr.None? ==> r == Err(NullPointerException)
    ensures arr.Some? ==> r == Ok(ListValue(tableAlias, column, equal, arr.value))
  {
    if arr.None? {
      return Err(NullPointerException);
    }
    var list: seq<Value> := [];
    var i := 0;
    while i < |arr.value|
      invariant 0 <= i <= |arr.value|
      invariant list == arr.value[..i]
    {
      list := list + [arr.value[i]];
      i := i + 1;
    }
    assert arr.value[..|arr.value|] == arr.value;
    return Ok(ListValue(tableAlias, column, equal, list));
  }

  /** BetweenValueCondition(column, begin, end): alias "t". */
  function BetweenOf(column: JString, beginValue: Value, endValue: Value): (c: Condition)
    ensures c.BetweenValue? && c.tableAlias == Some(DEFAULT_ALIAS)
    ensures c.column == column && c.beginValue == beginValue && c.endValue == endValue
  {
    BetweenValue(Some(DEFAULT_ALIAS), column, beginValue, endValue)
  }

  /** WithoutValueCondition(sql): alias "t". */
  function WithoutValueOf(sql: JString): (c: Condition)
    ensures c.WithoutValue? && c.tableAlias == Some(DEFAULT_ALIAS) && c.sql == sql
  {
    WithoutValue(Some(DEFAULT_ALIAS), sql)
  }

  // ---------------------------------------------------------------------
  // Columns and setters
  // ---------------------------------------------------------------------

  /** getColumn(): the column of the three kinds that have one; null for a
      WithoutValueCondition. */
  function GetColumn(c: Condition): (r: JString)
    ensures c.WithoutValue? ==> r.None?
    ensures !c.WithoutValue? ==> r == c.column
  {
    if c.WithoutValue? then None else c.column
  }

  /** getColumnWithTableAlias(): the bare column when the alias is null or
      "", otherwise alias + "." + column (a null column printing as "null"). */
  function ColumnWithTableAlias(c: Condition): (r: JString)
  {
    if IsNullOrEmpty(c.tableAlias) then GetColumn(c)
    else Some(c.tableAlias.value + "." + Show(GetColumn(c)))
  }

  /** With an alias the qualified column is the alias, a dot and the column;
      without one it is the column itself. */
  lemma ColumnWithTableAliasParts(c: Condition)
    ensures IsNullOrEmpty(c.tableAlias) ==> ColumnWithTableAlias(c) == GetColumn(c)
    ensures !IsNullOrEmpty(c.tableAlias) ==>
      var a, q := c.tableAlias.value, ColumnWithTableAlias(c).value;
      && |q| == |a| + 1 + |Show(GetColumn(c))|
      && q[..|a|] == a && q[|a|] == '.' && q[|a| + 1..] == Show(GetColumn(c))
  {
    if !IsNullOrEmpty(c.tableAlias) {
      var a, q := c.tableAlias.value, ColumnWithTableAlias(c).value;
      assert q == a + "." + Show(GetColumn(c));
      assert q[..|a|] == a;
      assert q[|a| + 1..] == Show(GetColumn(c));
    }
  }

  /** Under the default alias a column is written "t.column". */
  lemma DefaultAliasQualifies(c: Condition)
    requires !c.WithoutValue? && c.tableAlias == Some(DEFAULT_ALIAS)
    ensures ColumnWithTableAlias(c) == Some("t." + Show(c.column))
  {
    assert DEFAULT_ALIAS + "." == "t.";
  }

  /** setTableAlias(alias): only the alias changes. */
  function SetTableAlias(c: Condition, tableAlias: JString): (r: Condition)
    ensures r.tableAlias == tableAlias
    ensures r.WithoutValue? == c.WithoutValue? && r.SingleValue? == c.SingleValue?
    ensures r.ListValue? == c.ListValue? && r.BetweenValue? == c.BetweenValue?
    ensures GetColumn(r) == GetColumn(c)
    ensures r.WithoutValue? ==> r.sql == c.sql
    ensures r.SingleValue? ==> r.equal == c.equal && r.value == c.value
    ensures r.ListValue? ==> r.equal == c.equal && r.values == c.values
    ensures r.BetweenValue? ==> r.beginValue == c.beginValue && r.endValue == c.endValue
  {
    c.(tableAlias := tableAlias)
  }

  /** Resetting the alias to what it was gives back the same condition. */
  lemma SetTableAliasRestores(c: Condition, tableAlias: JString)
    ensures SetTableAlias(SetTableAlias(c, tableAlias), c.tableAlias) == c
  {
  }

  /** setColumn(column) of the three kinds that have a column. */
  function SetColumn(c: Condition, column: JString): (r: Condition)
    requires !c.WithoutValue?
    ensures GetColumn(r) == column && r.tableAlias == c.tableAlias
    ensures r.SingleValue? == c.SingleValue? && r.ListValue? == c.ListValue? && r.BetweenValue? == c.BetweenValue?
    ensures r.SingleValue? ==> r.equal == c.equal && r.value == c.value
    ensures r.ListValue? ==> r.equal == c.equal && r.values == c.values
    ensures r.BetweenValue? ==> r.beginValue == c.beginValue && r.endValue == c.endValue
  {
    c.(column := column)
  }

  /** BetweenValueCondition.setBeginValue: only the begin value changes. */
  function SetBeginValue(c: Condition, beginValue: Value): (r: Condition)
    requires c.BetweenValue?
    ensures r.BetweenValue? && r.beginValue == beginValue
    ensures r.tableAlias == c.tableAlias && r.column == c.column && r.endValue == c.endValue
  {
    c.(beginValue := beginValue)
  }

  /** BetweenValueCondition.setEndValue: only the end value changes. */
  function SetEndValue(c: Condition, endValue: Value): (r: Condition)
    requires c.BetweenValue?
    ensures r.BetweenValue? && r.endValue == endValue
    ensures r.tableAlias == c.tableAlias && r.column == c.column && r.beginValue == c.beginValue
  {
    c.(endValue := endValue)
  }

  /** ListValueCondition.addValue(v): exactly one element more, at the end. */
  function AddValue(c: Condition, v: Value): (r: Condition)
    requires c.ListValue?
    ensures r.ListValue? && r.values == c.values + [v]
    ensures r.tableAlias == c.tableAlias && r.column == c.column && r.equal == c.equal
  {
    c.(values := c.values + [v])
  }

  // ---------------------------------------------------------------------
  // toSql
  // ---------------------------------------------------------------------

  /** The part of a list condition's SQL before the values. */
  function ListHead(c: Condition): string
    requires c.ListValue?
  {
    Show(ColumnWithTableAlias(c)) + " " + Show(c.equal) + " ("
  }

  /** One value of a list condition as an SQL literal. */
  function Literal(v: Value): string
  {
    "'" + Render(v) + "'"
  }

  /** The values of a list condition as SQL literals, comma-separated. */
  function LiteralList(values: seq<Value>): string
  {
    Joined(Quoted(Rendered(values)), ",")
  }

  /** One value more adds its literal, after a comma unless it is the first. */
  lemma LiteralListSnoc(values: seq<Value>, v: Value)
    ensures LiteralList(values + [v]) ==
      if |values| == 0 then Literal(v) else LiteralList(values) + "," + Literal(v)
  {
    assert Quoted(Rendered(values + [v])) == Quoted(Rendered(values)) + [Literal(v)];
    JoinedSnoc(Quoted(Rendered(values)), Literal(v), ",");
  }

  /** toSql() of each kind (a null part prints as "null"):
      column equal 'value' for a single value;
      column equal ('v1','v2',...) for a list, "()" when it is empty;
      column between 'begin' and 'end' for a range;
      the stored sql, possibly null, for a condition without value
      (whose toString() returns the same). */
  function ToSql(c: Condition): (r: JString)
    ensures r.None? <==> c.WithoutValue? && c.sql.None?
    ensures c.WithoutValue? ==> r == c.sql
    ensures !c.WithoutValue? ==> r.Some?
  {
    match c
    case SingleValue(_, _, equal, value) =>
      Some(Show(ColumnWithTableAlias(c)) + " " + Show(equal) + " '" + Render(value) + "'")
    case ListValue(_, _, _, values) =>
      Some(ListHead(c) + LiteralList(values) + ")")
    case BetweenValue(_, _, beginValue, endValue) =>
      Some(Show(ColumnWithTableAlias(c)) + " between '" + Render(beginValue) + "' and '" + Render(endValue) + "'")
    case WithoutValue(_, sql) => sql
  }

  /** The two halves of a concatenation. */
  lemma SplitAt(a: string, b: string)
    ensures |a| <= |a + b| && (a + b)[..|a|] == a && (a + b)[|a|..] == b
  {
  }

  /** A single-value condition's SQL starts with the qualified column and a
      space, and ends with its value as a literal. */
  lemma SingleValueSqlShape(c: Condition)
    requires c.SingleValue?
    ensures var r, head := ToSql(c).value, Show(ColumnWithTableAlias(c)) + " ";
      && |head| + |Literal(c.value)| <= |r| && r[..|head|] == head
      && r[|r| - |Literal(c.value)|..] == Literal(c.value)
  {
    var col, e, v := Show(ColumnWithTableAlias(c)), Show(c.equal), Render(c.value);
    var r := ToSql(c).value;
    assert r == col + " " + e + " '" + v + "'";
    var head, front := col + " ", col + " " + e + " ";
    assert r == head + (e + " " + Literal(c.value));
    SplitAt(head, e + " " + Literal(c.value));
    assert r == front + Literal(c.value);
    SplitAt(front, Literal(c.value));
  }

  /** A range condition's SQL starts with the qualified column and a space,
      and ends with its end value as a literal. */
  lemma BetweenValueSqlShape(c: Condition)
    requires c.BetweenValue?
    ensures var r, head := ToSql(c).value, Show(ColumnWithTableAlias(c)) + " ";
      && |head| + |Literal(c.endValue)| <= |r| && r[..|head|] == head
      && r[|r| - |Literal(c.endValue)|..] == Literal(c.endValue)
  {
    var col, b, e := Show(ColumnWithTableAlias(c)), Render(c.beginValue), Render(c.endValue);
    var r := ToSql(c).value;
    assert r == col + " between '" + b + "' and '" + e + "'";
    var head, front := col + " ", col + " between '" + b + "' and ";
    var mid := "between '" + b + "' and " + Literal(c.endValue);
    assert r == head + mid;
    SplitAt(head, mid);
    assert r == front + Literal(c.endValue);
    SplitAt(front, Literal(c.endValue));
  }

  /** A list condition's SQL starts with the qualified column, a space, the
      operator and "(", and ends with ")". */
  lemma ListValueSqlShape(c: Condition)
    requires c.ListValue?
    ensures var r, head := ToSql(c).value, Show(ColumnWithTableAlias(c)) + " ";
      && |ListHead(c)| < |r| && r[..|ListHead(c)|] == ListHead(c) && r[|r| - 1] == ')'
      && |head| <= |r| && r[..|head|] == head
  {
    var col := Show(ColumnWithTableAlias(c));
    var r := ToSql(c).value;
    var body := LiteralList(c.values) + ")";
    assert r == ListHead(c) + body;
    SplitAt(ListHead(c), body);
    var head := col + " ";
    assert ListHead(c) == head + (Show(c.equal) + " (");
    SplitAt(head, Show(c.equal) + " (");
    assert r[..|head|] == ListHead(c)[..|head|];
  }

  /** One round of the toSql loop: a comma unless it is the first value,
      then the value's literal. */
  lemma ListSqlStep(head: string, prefix: seq<Value>, v: Value)
    ensures head + LiteralList(prefix + [v]) ==
      (if |prefix| == 0 then head else head + LiteralList(prefix) + ",") + Literal(v)
  {
    LiteralListSnoc(prefix, v);
    if |prefix| > 0 {
      assert head + (LiteralList(prefix) + "," + Literal(v)) == head + LiteralList(prefix) + "," + Literal(v);
    }
  }

  /** ListValueCondition.toSql(): the loop with a `first` flag that writes a
      comma before every value but the first. */
  method ListValueToSql(c: Condition) returns (r: string)
    requires c.ListValue?
    ensures ToSql(c) == Some(r)
  {
    var head := ListHead(c);
    var sb := head;
    var first := true;
    var i := 0;
    while i < |c.values|
      invariant 0 <= i <= |c.values|
      invariant first <==> i == 0
      invariant sb == head + LiteralList(c.values[..i])
    {
      var v := c.values[i];
      assert c.values[..i + 1] == c.values[..i] + [v];
      ListSqlStep(head, c.values[..i], v);
      if !first {
        sb := sb + ",";
      }
      sb := sb + Literal(v);
      first := false;
      i := i + 1;
    }
    assert c.values[..|c.values|] == c.values;
    r := sb + ")";
  }

  /** Adding a value to a non-empty list condition inserts ",'v'" before the
      closing parenthesis; adding to an empty one gives "('v')". */
  lemma ToSqlAddValue(c: Condition, v: Value)
    requires c.ListValue?
    ensures var before, after := ToSql(c).value, ToSql(AddValue(c, v)).value;
      && (|c.values| > 0 ==> after == before[..|before| - 1] + "," + Literal(v) + ")")
      && (|c.values| == 0 ==> after == ListHead(c) + Literal(v) + ")")
  {
    var c' := AddValue(c, v);
    assert ListHead(c') == ListHead(c);
    ListSqlStep(ListHead(c), c.values, v);
    var a := ListHead(c) + LiteralList(c.values);
    DropClosing(a);
  }

  /** Taking the closing parenthesis off again. */
  lemma DropClosing(a: string)
    ensures (a + ")")[..|a + ")"| - 1] == a
  {
  }

  /** An empty list condition renders "()" after the operator. */
  lemma EmptyListToSql(c: Condition)
    requires c.ListValue? && |c.values| == 0
    ensures ToSql(c) == Some(ListHead(c) + ")")
  {
    assert LiteralList(c.values) == "";
    assert ListHead(c) + "" == ListHead(c);
  }

  /** The literals of a non-empty list hold every quoted value and one comma
      between each two. */
  lemma LiteralListLength(values: seq<Value>)
    requires |values| > 0
    ensures |LiteralList(values)| == TotalLength(Quoted(Rendered(values))) + |values| - 1
  {
    var parts := Quoted(Rendered(values));
    JoinedLength(parts, ",");
    assert (|parts| - 1) * |","| == |parts| - 1;
  }
}

=== FILE: enums.dfy ===
/** The framework's two code tables: the numeric status codes with their
    messages, and the named result codes whose code and message fields can
    be reassigned at run time. Both are looked up by a linear scan over the
    constants in declaration order. */
module Enums {
  import opened Base

  // ---------------------------------------------------------------------
  // Status codes
  // ---------------------------------------------------------------------

  /** The nineteen status constants. */
  datatype StatusCode =
    | SUCCESS | BAD_REQUEST | NO_AUTH | FORBIDDEN | NOT_FOUND | REQUEST_TIMEOUT
    | INTERNAL_SERVER_ERROR | SERVICE_UNAVAILABLE | GATEWAY_TIMEOUT
    | SESSION_TIMEOUT | NO_PERMISSION | ILLEGAL_OPERATION | NULL_ARGUMENT
    | ILLEGAL_ARGUMENT | INTERFACE_SERVER_ERROR | LOGIC_ERROR | DATA_ERROR
    | SYSTEM_TIMEOUT | SYSTEM_ERROR

  /** values(): every constant, in declaration order. */
  const STATUS_VALUES: seq<StatusCode> := [
    SUCCESS, BAD_REQUEST, NO_AUTH, FORBIDDEN, NOT_FOUND, REQUEST_TIMEOUT,
    INTERNAL_SERVER_ERROR, SERVICE_UNAVAILABLE, GATEWAY_TIMEOUT,
    SESSION_TIMEOUT, NO_PERMISSION, ILLEGAL_OPERATION, NULL_ARGUMENT,
    ILLEGAL_ARGUMENT, INTERFACE_SERVER_ERROR, LOGIC_ERROR, DATA_ERROR,
    SYSTEM_TIMEOUT, SYSTEM_ERROR]

  /** code() and getCode(): the HTTP-like number of a constant. */
  function Code(e: StatusCode): Int32
  {
    match e
    case SUCCESS => 200
    case BAD_REQUEST => 400
    case NO_AUTH => 401
    case FORBIDDEN => 403
    case NOT_FOUND => 404
    case REQUEST_TIMEOUT => 408
    case INTERNAL_SERVER_ERROR => 500
    case SERVICE_UNAVAILABLE => 503
    case GATEWAY_TIMEOUT => 504
    case SESSION_TIMEOUT => 1000
    case NO_PERMISSION => 1001
    case ILLEGAL_OPERATION => 1002
    case NULL_ARGUMENT => 1003
    case ILLEGAL_ARGUMENT => 1004
    case INTERFACE_SERVER_ERROR => 1005
    case LOGIC_ERROR => 1006
    case DATA_ERROR => 1007
    case SYSTEM_TIMEOUT => 1008
    case SYSTEM_ERROR => 9999
  }

  /** message() and getMessage(): the user-facing text of a constant. */
  function Message(e: StatusCode): string
  {
    match e
    case SUCCESS => "操作成功"
    case BAD_REQUEST => "操作失败"
    case NO_AUTH => "未登录"
    case FORBIDDEN => "请求不合法"
    case NOT_FOUND => "未找到该资源"
    case REQUEST_TIMEOUT => "请求超时"
    case INTERNAL_SERVER_ERROR => "服务器异常"
    case SERVICE_UNAVAILABLE => "服务器正忙，请稍后再试！"
    case GATEWAY_TIMEOUT => "网关超时"
    case SESSION_TIMEOUT => "登录超时"
    case NO_PERMISSION => "无操作权限"
    case ILLEGAL_OPERATION => "操作不正确"
    case NULL_ARGUMENT => "参数为空"
    case ILLEGAL_ARGUMENT => "参数不正确"
    case INTERFACE_SERVER_ERROR => "接口调用异常"
    case LOGIC_ERROR => "逻辑错误"
    case DATA_ERROR => "数据异常"
    case SYSTEM_TIMEOUT => "系统超时，请稍后再试"
    case SYSTEM_ERROR => "系统异常，请联系管理员！"
  }

  /** The constant a code names, read off the table directly: the
      reference the linear lookup is compared with. */
  function StatusOf(code: int): (r: Option<StatusCode>)
    ensures r.Some? ==> Code(r.value) == code
  {
    if code == 200 then Some(SUCCESS)
    else if code == 400 then Some(BAD_REQUEST)
    else if code == 401 then Some(NO_AUTH)
    else if code == 403 then Some(FORBIDDEN)
    else if code == 404 then Some(NOT_FOUND)
    else if code == 408 then Some(REQUEST_TIMEOUT)
    else if code == 500 then Some(INTERNAL_SERVER_ERROR)
    else if code == 503 then Some(SERVICE_UNAVAILABLE)
    else if code == 504 then Some(GATEWAY_TIMEOUT)
    else if code == 1000 then Some(SESSION_TIMEOUT)
    else if code == 1001 then Some(NO_PERMISSION)
    else if code == 1002 then Some(ILLEGAL_OPERATION)
    else if code == 1003 then Some(NULL_ARGUMENT)
    else if code == 1004 then Some(ILLEGAL_ARGUMENT)
    else if code == 1005 then Some(INTERFACE_SERVER_ERROR)
    else if code == 1006 then Some(LOGIC_ERROR)
    else if code == 1007 then Some(DATA_ERROR)
    else if code == 1008 then Some(SYSTEM_TIMEOUT)
    else if code == 9999 then Some(SYSTEM_ERROR)
    else None
  }

  /** Every constant's code leads back to that constant. */
  lemma StatusOfCode(e: StatusCode)
    ensures StatusOf(Code(e)) == Some(e)
  {
    match e
    case SUCCESS =>
    case BAD_REQUEST =>
    case NO_AUTH =>
    case FORBIDDEN =>
    case NOT_FOUND =>
    case REQUEST_TIMEOUT =>
    case INTERNAL_SERVER_ERROR =>
    case SERVICE_UNAVAILABLE =>
    case GATEWAY_TIMEOUT =>
    case SESSION_TIMEOUT =>
    case NO_PERMISSION =>
    case ILLEGAL_OPERATION =>
    case NULL_ARGUMENT =>
    case ILLEGAL_ARGUMENT =>
    case INTERFACE_SERVER_ERROR =>
    case LOGIC_ERROR =>
    case DATA_ERROR =>
    case SYSTEM_TIMEOUT =>
    case SYSTEM_ERROR =>
  }

  /** No two constants share a code. */
  lemma StatusCodesDistinct(a: StatusCode, b: StatusCode)
    ensures Code(a) == Code(b) <==> a == b
  {
    StatusOfCode(a);
    StatusOfCode(b);
  }

  /** values() lists every constant. */
  lemma StatusValuesComplete(e: StatusCode)
    ensures e in STATUS_VALUES
  {
  }

  /** The first constant of `values` whose code is `code`. */
  function FirstStatus(values: seq<StatusCode>, code: int): (r: Option<StatusCode>)
    ensures r.Some? ==> r.value in values && Code(r.value) == code
    ensures r.None? ==> forall i :: 0 <= i < |values| ==> Code(values[i]) != code
  {
    if |values| == 0 then None
    else if Code(values[0]) == code then Some(values[0])
    else FirstStatus(values[1..], code)
  }

  /** getExceptionEnum(code): the scan over values() returning the first
      constant with that code, or null. */
  method GetExceptionEnum(code: int) returns (r: Option<StatusCode>)
    ensures r == FirstStatus(STATUS_VALUES, code)
  {
    r := ScanStatuses(STATUS_VALUES, code);
  }

  /** The loop of getExceptionEnum over values(), in order. */
  method ScanStatuses(values: seq<StatusCode>, code: int) returns (r: Option<StatusCode>)
    ensures r == FirstStatus(values, code)
  {
    var i := 0;
    while i < |values|
      invariant 0 <= i <= |values|
      invariant FirstStatus(values, code) == FirstStatus(values[i..], code)
    {
      if Code(values[i]) == code {
        assert values[i..][0] == values[i];
        return Some(values[i]);
      }
      assert values[i..][1..] == values[i + 1..];
      i := i + 1;
    }
    assert values[i..] == [];
    return None;
  }

  /** The linear lookup agrees with the table: it finds the constant a known
      code names and null for any other code. */
  lemma FirstStatusIsTable(code: int)
    ensures FirstStatus(STATUS_VALUES, code) == StatusOf(code)
  {
    var r := FirstStatus(STATUS_VALUES, code);
    if r.Some? {
      StatusOfCode(r.value);
    } else if StatusOf(code).Some? {
      var e := StatusOf(code).value;
      StatusValuesComplete(e);
    }
  }

  /** getExceptionEnum(e.code()) returns e for every constant. */
  lemma StatusLookupRoundTrip(e: StatusCode)
    ensures FirstStatus(STATUS_VALUES, Code(e)) == Some(e)
  {
    FirstStatusIsTable(Code(e));
    StatusOfCode(e);
  }

  /** A code no constant carries gives null. */
  lemma StatusLookupUnknown(code: int)
    requires forall e: StatusCode :: Code(e) != code
    ensures FirstStatus(STATUS_VALUES, code) == None
  {
    FirstStatusIsTable(code);
  }

  // ---------------------------------------------------------------------
  // Result codes
  // ---------------------------------------------------------------------

  /** The twelve result-code constants. */
  datatype ResultCode =
    | R_SUCCESS | R_SYSTEM_ERROR | R_INTERFACE_SYSTEM_ERROR | R_CONNECT_TIME_OUT
    | R_SYSTEM_FAILURE | R_NULL_ARGUMENT | R_ILLEGAL_ARGUMENT | R_ILLEGAL_OPERATION
    | R_LOGIC_ERROR | R_NO_OPERATE_PERMISSION | R_SESSION_TIMEOUT | R_DATA_ERROR

  /** values(): every constant, in declaration order. */
  const RESULT_VALUES: seq<ResultCode> := [
    R_SUCCESS, R_SYSTEM_ERROR, R_INTERFACE_SYSTEM_ERROR, R_CONNECT_TIME_OUT,
    R_SYSTEM_FAILURE, R_NULL_ARGUMENT, R_ILLEGAL_ARGUMENT, R_ILLEGAL_OPERATION,
    R_LOGIC_ERROR, R_NO_OPERATE_PERMISSION, R_SESSION_TIMEOUT, R_DATA_ERROR]

  /** The constant's name, which is also the code it is declared with. */
  function Name(e: ResultCode): string
  {
    match e
    case R_SUCCESS => "SUCCESS"
    case R_SYSTEM_ERROR => "SYSTEM_ERROR"
    case R_INTERFACE_SYSTEM_ERROR => "INTERFACE_SYSTEM_ERROR"
    case R_CONNECT_TIME_OUT => "CONNECT_TIME_OUT"
    case R_SYSTEM_FAILURE => "SYSTEM_FAILURE"
    case R_NULL_ARGUMENT => "NULL_ARGUMENT"
    case R_ILLEGAL_ARGUMENT => "ILLEGAL_ARGUMENT"
    case R_ILLEGAL_OPERATION => "ILLEGAL_OPERATION"
    case R_LOGIC_ERROR => "LOGIC_ERROR"
    case R_NO_OPERATE_PERMISSION => "NO_OPERATE_PERMISSION"
    case R_SESSION_TIMEOUT => "SESSION_TIMEOUT"
    case R_DATA_ERROR => "DATA_ERROR"
  }

  /** The message each constant is declared with. */
  function DeclaredMessage(e: ResultCode): string
  {
    match e
    case R_SUCCESS => "操作成功"
    case R_SYSTEM_ERROR => "系统异常，请联系管理员！"
    case R_INTERFACE_SYSTEM_ERROR => "外部接口调用异常！"
    case R_CONNECT_TIME_OUT => "系统超时，请稍后再试！"
    case R_SYSTEM_FAILURE => "系统错误"
    case R_NULL_ARGUMENT => "参数为空"
    case R_ILLEGAL_ARGUMENT => "参数不正确"
    case R_ILLEGAL_OPERATION => "操作不正确"
    case R_LOGIC_ERROR => "逻辑错误"
    case R_NO_OPERATE_PERMISSION => "无操作权限"
    case R_SESSION_TIMEOUT => "登录超时"
    case R_DATA_ERROR => "数据异常"
  }

  /** The constant a name denotes, read off the table directly. */
  function ResultCodeNamed(name: string): (r: Option<ResultCode>)
    ensures r.Some? ==> Name(r.value) == name
  {
    if name == "SUCCESS" then Some(R_SUCCESS)
    else if name == "SYSTEM_ERROR" then Some(R_SYSTEM_ERROR)
    else if name == "INTERFACE_SYSTEM_ERROR" then Some(R_INTERFACE_SYSTEM_ERROR)
    else if name == "CONNECT_TIME_OUT" then Some(R_CONNECT_TIME_OUT)
    else if name == "SYSTEM_FAILURE" then Some(R_SYSTEM_FAILURE)
    else if name == "NULL_ARGUMENT" then Some(R_NULL_ARGUMENT)
    else if name == "ILLEGAL_ARGUMENT" then Some(R_ILLEGAL_ARGUMENT)
    else if name == "ILLEGAL_OPERATION" then Some(R_ILLEGAL_OPERATION)
    else if name == "LOGIC_ERROR" then Some(R_LOGIC_ERROR)
    else if name == "NO_OPERATE_PERMISSION" then Some(R_NO_OPERATE_PERMISSION)
    else if name == "SESSION_TIMEOUT" then Some(R_SESSION_TIMEOUT)
    else if name == "DATA_ERROR" then Some(R_DATA_ERROR)
    else None
  }

  /** Every constant's name leads back to that constant. */
  lemma ResultCodeNamedName(e: ResultCode)
    ensures ResultCodeNamed(Name(e)) == Some(e)
  {
    match e
    case R_SUCCESS => NamedFirstGroup(e);
    case R_SYSTEM_ERROR => NamedFirstGroup(e);
    case R_INTERFACE_SYSTEM_ERROR => NamedFirstGroup(e);
    case R_CONNECT_TIME_OUT => NamedFirstGroup(e);
    case R_SYSTEM_FAILURE => NamedSecondGroup(e);
    case R_NULL_ARGUMENT => NamedSecondGroup(e);
    case R_ILLEGAL_ARGUMENT => NamedSecondGroup(e);
    case R_ILLEGAL_OPERATION => NamedSecondGroup(e);
    case R_LOGIC_ERROR => NamedThirdGroup(e);
    case R_NO_OPERATE_PERMISSION => NamedThirdGroup(e);
    case R_SESSION_TIMEOUT => NamedThirdGroup(e);
    case R_DATA_ERROR => NamedThirdGroup(e);
  }

  lemma NamedFirstGroup(e: ResultCode)
    requires e.R_SUCCESS? || e.R_SYSTEM_ERROR? || e.R_INTERFACE_SYSTEM_ERROR? || e.R_CONNECT_TIME_OUT?
    ensures ResultCodeNamed(Name(e)) == Some(e)
  {
  }

  lemma NamedSecondGroup(e: ResultCode)
    requires e.R_SYSTEM_FAILURE? || e.R_NULL_ARGUMENT? || e.R_ILLEGAL_ARGUMENT? || e.R_ILLEGAL_OPERATION?
    ensures ResultCodeNamed(Name(e)) == Some(e)
  {
  }

  lemma NamedThirdGroup(e: ResultCode)
    requires e.R_LOGIC_ERROR? || e.R_NO_OPERATE_PERMISSION? || e.R_SESSION_TIMEOUT? || e.R_DATA_ERROR?
    ensures ResultCodeNamed(Name(e)) == Some(e)
  {
  }

  /** No two constants share a declared code. */
  lemma ResultNamesDistinct(a: ResultCode, b: ResultCode)
    ensures Name(a) == Name(b) <==> a == b
  {
    ResultCodeNamedName(a);
    ResultCodeNamedName(b);
  }

  /** values() lists every constant. */
  lemma ResultValuesComplete(e: ResultCode)
    ensures e in RESULT_VALUES
  {
  }

  /** The scan of getResultCodeEnumByCode over `values` with the current
      codes: `param.getCode().equals(code)` throws on a constant whose code
      has been set to null, and a null `code` equals nothing. */
  function FirstResult(values: seq<ResultCode>, codes: map<ResultCode, JString>, code: JString): (r: Result<Option<ResultCode>>)
    requires forall e :: e in codes
    ensures r.Ok? && r.value.Some? ==> r.value.value in values && codes[r.value.value] == code && code.Some?
    ensures r.Err? ==> r.error == NullPointerException && exists i :: 0 <= i < |values| && codes[values[i]].None?
    ensures (forall i :: 0 <= i < |values| ==> codes[values[i]].Some?) ==> r.Ok?
    ensures r == Ok(None) ==> forall i :: 0 <= i < |values| ==> codes[values[i]] != code || code.None?
  {
    if |values| == 0 then Ok(None)
    else if codes[values[0]].None? then Err(NullPointerException)
    else if code.Some? && codes[values[0]] == code then Ok(Some(values[0]))
    else FirstResult(values[1..], codes, code)
  }

  /** One step of the scan: the constant at i decides the lookup, or the
      lookup goes on with the constants after it. */
  lemma FirstResultAt(values: seq<ResultCode>, codes: map<ResultCode, JString>, code: JString, i: nat)
    requires forall e :: e in codes
    requires i < |values|
    ensures var r := FirstResult(values[i..], codes, code);
      && (codes[values[i]].None? ==> r == Err(NullPointerException))
      && (codes[values[i]].Some? && code.Some? && codes[values[i]] == code ==> r == Ok(Some(values[i])))
      && (codes[values[i]].Some? && !(code.Some? && codes[values[i]] == code) ==> r == FirstResult(values[i + 1..], codes, code))
  {
    assert values[i..][0] == values[i];
    assert values[i..][1..] == values[i + 1..];
  }

  /** The result-code constants with their current code and message
      fields: the fields are not final and setCode and setMessage change
      them for the whole program. */
  class ResultCodes {
    var codes: map<ResultCode, JString>
    var messages: map<ResultCode, JString>

    predicate Valid()
      reads this
    {
      (forall e :: e in codes) && (forall e :: e in messages)
    }

    /** The table as declared: each code is its constant's name. */
    constructor ()
      ensures Valid()
      ensures forall e :: codes[e] == Some(Name(e)) && messages[e] == Some(DeclaredMessage(e))
    {
      codes := map e: ResultCode | true :: Some(Name(e));
      messages := map e: ResultCode | true :: Some(DeclaredMessage(e));
    }

    /** code() and getCode(). */
    function GetCode(e: ResultCode): JString
      requires Valid()
      reads this
    {
      codes[e]
    }

    /** message() and getMessage(). */
    function GetMessage(e: ResultCode): JString
      requires Valid()
      reads this
    {
      messages[e]
    }

    /** setCode(code) on constant e. */
    method SetCode(e: ResultCode, code: JString)
      requires Valid()
      modifies this
      ensures Valid()
      ensures codes == old(codes)[e := code] && messages == old(messages)
    {
      codes := codes[e := code];
    }

    /** setMessage(message) on constant e. */
    method SetMessage(e: ResultCode, message: JString)
      requires Valid()
      modifies this
      ensures Valid()
      ensures messages == old(messages)[e := message] && codes == old(codes)
    {
      messages := messages[e := message];
    }

    /** getResultCodeEnumByCode(code): the scan over values(). */
    method GetResultCodeEnumByCode(code: JString) returns (r: Result<Option<ResultCode>>)
      requires Valid()
      ensures r == FirstResult(RESULT_VALUES, codes, code)
    {
      r := ScanResults(RESULT_VALUES, codes, code);
    }
  }

  /** The loop of getResultCodeEnumByCode over values(), in order. */
  method ScanResults(values: seq<ResultCode>, codes: map<ResultCode, JString>, code: JString)
    returns (r: Result<Option<ResultCode>>)
    requires forall e :: e in codes
    ensures r == FirstResult(values, codes, code)
  {
    var i := 0;
    while i < |values|
      invariant 0 <= i <= |values|
      invariant FirstResult(values, codes, code) == FirstResult(values[i..], codes, code)
    {
      var c := codes[values[i]];
      FirstResultAt(values, codes, code, i);
      if c.None? {
        return Err(NullPointerException);
      }
      if code.Some? && c == code {
        return Ok(Some(values[i]));
      }
      i := i + 1;
    }
    assert values[i..] == [];
    return Ok(None);
  }

  /** value(): a result code carries no number. */
  function NumericValue(e: ResultCode): (r: Option<int>)
    ensures r.None?
  {
    None
  }

  /** The codes as declared. */
  function DeclaredCodes(): (m: map<ResultCode, JString>)
    ensures forall e :: e in m && m[e] == Some(Name(e))
  {
    map e: ResultCode | true :: Some(Name(e))
  }

  /** With the declared codes the lookup agrees with the table: a
      constant's name finds it, and any other string or null finds null. */
  lemma FirstResultIsTable(code: JString)
    ensures code.None? ==> FirstResult(RESULT_VALUES, DeclaredCodes(), code) == Ok(None)
    ensures code.Some? ==> FirstResult(RESULT_VALUES, DeclaredCodes(), code) == Ok(ResultCodeNamed(code.value))
  {
    var codes := DeclaredCodes();
    var r := FirstResult(RESULT_VALUES, codes, code);
    assert r.Ok?;
    if r.value.Some? {
      ResultCodeNamedName(r.value.value);
    } else if code.Some? && ResultCodeNamed(code.value).Some? {
      var e := ResultCodeNamed(code.value).value;
      ResultValuesComplete(e);
    }
  }

  /** getResultCodeEnumByCode(e.code()) returns e for every constant of the
      declared table. */
  lemma ResultLookupRoundTrip(e: ResultCode)
    ensures FirstResult(RESULT_VALUES, DeclaredCodes(), Some(Name(e))) == Ok(Some(e))
  {
    FirstResultIsTable(Some(Name(e)));
    ResultCodeNamedName(e);
  }

  /** Once SUCCESS, the first constant, has its code set to null, every
      lookup throws, whatever code it asks for. */
  lemma NullFirstCodeBreaksLookup(codes: map<ResultCode, JString>, code: JString)
    requires forall e :: e in codes
    requires codes[R_SUCCESS].None?
    ensures FirstResult(RESULT_VALUES, codes, code) == Err(NullPointerException)
  {
  }
}

=== FILE: list_util.dfy ===
/** ListUtil: partitioning, in-place reordering and comma-list builders. */
module ListUtil {
  import opened Base
  import opened Values
  import opened Lists

  // ---------------------------------------------------------------------
  // averageAssign
  // ---------------------------------------------------------------------

  /** The size of part i when `size` elements are split into n parts:
      the first size % n parts take one extra element. */
  function PartSize(size: nat, n: nat, i: nat): nat
    requires n > 0
  {
    size / n + (if i < size % n then 1 else 0)
  }

  /** Where part i starts: the sizes of the parts before it, added up. */
  function PartStart(size: nat, n: nat, i: nat): nat
    requires n > 0
  {
    if i == 0 then 0 else PartStart(size, n, i - 1) + PartSize(size, n, i - 1)
  }

  /** The closed form of PartStart. */
  lemma {:induction false} PartStartClosed(size: nat, n: nat, i: nat)
    requires n > 0
    ensures PartStart(size, n, i) == i * (size / n) + (if i < size % n then i else size % n)
  {
    if i > 0 {
      PartStartClosed(size, n, i - 1);
      assert i * (size / n) == (i - 1) * (size / n) + size / n;
    }
  }

  lemma MulMonotone(a: nat, b: nat, c: nat)
    requires a <= b
    ensures a * c <= b * c
  {
    assert b * c == a * c + (b - a) * c;
  }

  /** The parts fit in the source, and all n of them cover it exactly. */
  lemma PartStartBound(size: nat, n: nat, i: nat)
    requires 0 < n && i <= n
    ensures PartStart(size, n, i) <= size
    ensures PartStart(size, n, n) == size
  {
    PartStartClosed(size, n, i);
    PartStartClosed(size, n, n);
    MulMonotone(i, n, size / n);
  }

  lemma SliceConcat<T>(s: seq<T>, i: nat, j: nat)
    requires i <= j <= |s|
    ensures s[..j] == s[..i] + s[i..j]
  {
  }

  /** The index arithmetic of one round of averageAssign. */
  lemma AverageAssignStep(size: nat, n: nat, i: nat, number: int, offset: int)
    requires 0 <= i < n && number == size / n
    requires offset == (if i < size % n then i else size % n)
    ensures i * number + offset == PartStart(size, n, i)
    ensures size % n - offset > 0 ==> (i + 1) * number + offset + 1 == PartStart(size, n, i + 1)
    ensures size % n - offset <= 0 ==> (i + 1) * number + offset == PartStart(size, n, i + 1)
    ensures PartStart(size, n, i) + PartSize(size, n, i) == PartStart(size, n, i + 1) <= size
  {
    PartStartClosed(size, n, i);
    PartStartClosed(size, n, i + 1);
    PartStartBound(size, n, i + 1);
    assert (i + 1) * number == i * number + number;
  }

  /** One round's bounds: part i runs from i * number + offset to
      (i + 1) * number + offset, one further while a remainder is left, and
      that round uses up one unit of the remainder. */
  method AverageAssignRound(size: nat, n: nat, i: nat, number: int, offset: int, remainder: int)
    returns (begin: int, end: int, offset': int, remainder': int)
    requires 0 <= i < n && number == size / n
    requires offset == (if i < size % n then i else size % n) && remainder == size % n - offset
    ensures begin == PartStart(size, n, i) && end == PartStart(size, n, i + 1) <= size
    ensures end - begin == PartSize(size, n, i)
    ensures offset' == (if i + 1 < size % n then i + 1 else size % n) && remainder' == size % n - offset'
  {
    AverageAssignStep(size, n, i, number, offset);
    offset', remainder' := offset, remainder;
    if remainder > 0 {
      begin, end := i * number + offset, (i + 1) * number + offset + 1;
      remainder' := remainder - 1;
      offset' := offset + 1;
    } else {
      begin, end := i * number + offset, (i + 1) * number + offset;
    }
  }

  /** Appending the next slice extends the concatenated prefix. */
  lemma ConcatPart<T>(source: seq<T>, result: seq<seq<T>>, from: nat, to: nat)
    requires from <= to <= |source| && Concat(result) == source[..from]
    ensures Concat(result + [source[from..to]]) == source[..to]
  {
    SliceConcat(source, from, to);
    ConcatSnoc(result, source[from..to]);
  }

  /** The loop of averageAssign for n > 0: part i is source[begin..end]
      with the bounds of AverageAssignRound. */
  method AssignParts<T>(source: seq<T>, parts: nat, number: int, remainder0: int) returns (result: seq<seq<T>>)
    requires parts > 0 && number == |source| / parts && remainder0 == |source| % parts
    ensures |result| == parts && Concat(result) == source
    ensures forall k :: 0 <= k < parts ==> |result[k]| == PartSize(|source|, parts, k)
  {
    var size := |source|;
    var offset, remainder := 0, remainder0;
    result := [];
    var i := 0;
    while i < parts
      invariant 0 <= i <= parts
      invariant offset == (if i < remainder0 then i else remainder0) && remainder == remainder0 - offset
      invariant |result| == i
      invariant forall k :: 0 <= k < i ==> |result[k]| == PartSize(size, parts, k)
      invariant PartStart(size, parts, i) <= size
      invariant Concat(result) == source[..PartStart(size, parts, i)]
    {
      var begin, end;
      begin, end, offset, remainder := AverageAssignRound(size, parts, i, number, offset, remainder);
      var value := source[begin..end];
      ConcatPart(source, result, begin, end);
      result := result + [value];
      i := i + 1;
    }
    PartStartBound(size, parts, parts);
    assert source[..size] == source;
  }

  /** averageAssign(source, n): n sublists that, concatenated, give back the
      source in order, the first size % n of them one element longer than the
      rest. A null source throws before anything else (its size() is read
      first); n == 0 divides by zero; for n < 0 the loop never runs. */
  method AverageAssign<T>(source: Option<seq<T>>, n: Int32) returns (r: Result<seq<seq<T>>>)
    ensures source.None? ==> r == Err(NullPointerException)
    ensures source.Some? && n == 0 ==> r == Err(ArithmeticException)
    ensures source.Some? && n < 0 ==> r == Ok([])
    ensures source.Some? && n > 0 ==> r.Ok? && |r.value| == n && Concat(r.value) == source.value
    ensures source.Some? && n > 0 ==> r.Ok? && forall i :: 0 <= i < n ==> |r.value[i]| == PartSize(|source.value|, n, i)
  {
    if source.None? {
      return Err(NullPointerException);
    }
    var src := source.value;
    if n == 0 {
      return Err(ArithmeticException);
    }
    var remainder := JavaRem(|src|, n);
    var number := JavaDiv(|src|, n);
    if n < 0 {
      // the loop `i < n` does not run
      return Ok([]);
    }
    var result := AssignParts(src, n as nat, number, remainder);
    return Ok(result);
  }

  // ---------------------------------------------------------------------
  // swap
  // ---------------------------------------------------------------------

  /** The list with the element at `from` taken out and put back at `to`;
      the elements between shift one step toward `from`. */
  function Moved<T>(s: seq<T>, from: nat, to: nat): (r: seq<T>)
    requires from < |s| && to < |s|
    ensures |r| == |s|
  {
    if from <= to then s[..from] + s[from + 1..to + 1] + [s[from]] + s[to + 1..]
    else s[..to] + [s[from]] + s[to..from] + s[from + 1..]
  }

  /** Moving toward the end, element by element. */
  lemma MovedUpElements<T>(s: seq<T>, from: nat, to: nat)
    requires from <= to < |s|
    ensures var r := Moved(s, from, to);
      && r[to] == s[from]
      && (forall k :: 0 <= k < from ==> r[k] == s[k])
      && (forall k :: to < k < |s| ==> r[k] == s[k])
      && (forall k :: from <= k < to ==> r[k] == s[k + 1])
  {
    var a, b, c := s[..from], s[from + 1..to + 1], s[to + 1..];
    var r := a + b + [s[from]] + c;
    assert Moved(s, from, to) == r;
    assert |a| == from && |b| == to - from;
    forall k | 0 <= k < from ensures r[k] == s[k] {
      assert r[k] == a[k];
    }
    forall k | from <= k < to ensures r[k] == s[k + 1] {
      assert r[k] == b[k - from];
    }
    forall k | to < k < |s| ensures r[k] == s[k] {
      assert r[k] == c[k - to - 1];
    }
  }

  /** Moving toward the front, element by element. */
  lemma MovedDownElements<T>(s: seq<T>, from: nat, to: nat)
    requires to < from < |s|
    ensures var r := Moved(s, from, to);
      && r[to] == s[from]
      && (forall k :: 0 <= k < to ==> r[k] == s[k])
      && (forall k :: from < k < |s| ==> r[k] == s[k])
      && (forall k :: to < k <= from ==> r[k] == s[k - 1])
  {
    var a, b, c := s[..to], s[to..from], s[from + 1..];
    var r := a + [s[from]] + b + c;
    assert Moved(s, from, to) == r;
    assert |a| == to && |b| == from - to;
    forall k | 0 <= k < to ensures r[k] == s[k] {
      assert r[k] == a[k];
    }
    forall k | to < k <= from ensures r[k] == s[k - 1] {
      assert r[k] == b[k - to - 1];
    }
    forall k | from < k < |s| ensures r[k] == s[k] {
      assert r[k] == c[k - from - 1];
    }
  }

  /** Element by element: the moved element lands at `to`, the elements
      between shift by one toward `from`, and nothing outside the range moves. */
  lemma MovedElements<T>(s: seq<T>, from: nat, to: nat)
    requires from < |s| && to < |s|
    ensures var r := Moved(s, from, to);
      && r[to] == s[from]
      && (forall k :: 0 <= k < |s| && k < from && k < to ==> r[k] == s[k])
      && (forall k :: 0 <= k < |s| && k > from && k > to ==> r[k] == s[k])
      && (forall k :: from <= k < to ==> r[k] == s[k + 1])
      && (forall k :: to < k <= from ==> r[k] == s[k - 1])
  {
    if from <= to {
      MovedUpElements(s, from, to);
    } else {
      MovedDownElements(s, from, to);
    }
  }

  /** The pieces of a list around a move toward the end. */
  lemma MovedUpPermutes<T>(s: seq<T>, from: nat, to: nat)
    requires from <= to < |s|
    ensures multiset(s[..from] + s[from + 1..to + 1] + [s[from]] + s[to + 1..]) == multiset(s)
  {
    var a, b, c := s[..from], s[from + 1..to + 1], s[to + 1..];
    assert s == a + ([s[from]] + (b + c));
  }

  /** The pieces of a list around a move toward the front. */
  lemma MovedDownPermutes<T>(s: seq<T>, from: nat, to: nat)
    requires to < from < |s|
    ensures multiset(s[..to] + [s[from]] + s[to..from] + s[from + 1..]) == multiset(s)
  {
    var a, b, c := s[..to], s[to..from], s[from + 1..];
    assert s == a + (b + ([s[from]] + c));
  }

  /** Moving is a permutation. */
  lemma MovedPermutes<T>(s: seq<T>, from: nat, to: nat)
    requires from < |s| && to < |s|
    ensures multiset(Moved(s, from, to)) == multiset(s)
  {
    if from <= to {
      MovedUpPermutes(s, from, to);
    } else {
      MovedDownPermutes(s, from, to);
    }
  }

  /** Moving back undoes the move. */
  lemma MovedInverse<T>(s: seq<T>, from: nat, to: nat)
    requires from < |s| && to < |s|
    ensures Moved(Moved(s, from, to), to, from) == s
  {
    var r := Moved(s, from, to);
    MovedElements(s, from, to);
    MovedElements(r, to, from);
  }

  /** Moving an element onto its own position changes nothing. */
  lemma MovedSelf<T>(s: seq<T>, p: nat)
    requires p < |s|
    ensures Moved(s, p, p) == s
  {
    assert s == s[..p] + [s[p]] + s[p + 1..];
  }

  /** What Collections.swap(list, i, j) leaves in the list. */
  function Swapped<T>(s: seq<T>, i: nat, j: nat): seq<T>
    requires i < |s| && j < |s|
  {
    s[j := s[i]][i := s[j]]
  }

  lemma MovedStepUp<T>(s: seq<T>, from: nat, t: nat)
    requires from <= t && t + 1 < |s|
    ensures Swapped(Moved(s, from, t), t, t + 1) == Moved(s, from, t + 1)
  {
    MovedElements(s, from, t);
    MovedElements(s, from, t + 1);
  }

  lemma MovedStepDown<T>(s: seq<T>, from: nat, t: nat)
    requires 0 < t <= from < |s|
    ensures Swapped(Moved(s, from, t), t, t - 1) == Moved(s, from, t - 1)
  {
    MovedElements(s, from, t);
    MovedElements(s, from, t - 1);
  }

  /** What the loop of swap leaves after moving the element at `from` one
      neighbour swap at a time up to `to`. */
  function BubbledUp<T>(s: seq<T>, from: nat, to: nat): (r: seq<T>)
    requires from <= to < |s|
    ensures |r| == |s|
  {
    if to == from then s else Swapped(BubbledUp(s, from, to - 1), to - 1, to)
  }

  /** The same, moving down to `to`. */
  function BubbledDown<T>(s: seq<T>, from: nat, to: nat): (r: seq<T>)
    requires to <= from < |s|
    ensures |r| == |s|
    decreases from as int - to as int
  {
    if to == from then s else Swapped(BubbledDown(s, from, to + 1), to + 1, to)
  }

  /** The neighbour swaps move the element and shift the ones between. */
  lemma {:induction false} BubbledUpIsMoved<T>(s: seq<T>, from: nat, to: nat)
    requires from <= to < |s|
    ensures BubbledUp(s, from, to) == Moved(s, from, to)
  {
    if to == from {
      MovedSelf(s, from);
    } else {
      var t := to - 1;
      BubbledUpIsMoved(s, from, t);
      MovedStepUp(s, from, t);
      assert BubbledUp(s, from, t + 1) == Swapped(BubbledUp(s, from, t), t, t + 1);
    }
  }

  lemma {:induction false} BubbledDownIsMoved<T>(s: seq<T>, from: nat, to: nat)
    requires to <= from < |s|
    ensures BubbledDown(s, from, to) == Moved(s, from, to)
    decreases from as int - to as int
  {
    if to == from {
      MovedSelf(s, from);
    } else {
      BubbledDownIsMoved(s, from, to + 1);
      MovedStepDown(s, from, to + 1);
    }
  }

  function Clamp(x: int, n: nat): nat
    requires n > 0
  {
    if x < 0 then 0 else if x >= n then n - 1 else x
  }

  /** Collections.swap(list, i, j): reads position i, then writes j, then i;
      the first access out of range throws before anything is written. */
  method CollectionsSwap<T>(list: JList<T>, i: int, j: int) returns (r: Result<()>)
    modifies list
    ensures r.Ok? <==> 0 <= i < |old(list.elems)| && 0 <= j < |old(list.elems)|
    ensures r.Err? ==> r.error == IndexOutOfBounds && list.elems == old(list.elems)
    ensures r.Ok? ==> list.elems == Swapped(old(list.elems), i, j)
  {
    if !(0 <= i < |list.elems|) || !(0 <= j < |list.elems|) {
      return Err(IndexOutOfBounds);
    }
    var s := list.elems;
    list.elems := s[j := s[i]][i := s[j]];
    return Ok(());
  }

  /** The first loop of swap (oldPosition < newPosition): swaps with the
      right-hand neighbour until the element reaches newPosition. */
  method MoveRight<T>(list: JList<T>, oldPosition: int, newPosition: int) returns (r: Result<()>)
    requires oldPosition < newPosition
    modifies list
    ensures |list.elems| == |old(list.elems)|
    ensures r.Ok? <==> 0 <= oldPosition && newPosition < |old(list.elems)|
    ensures r.Err? ==> r.error == IndexOutOfBounds
    ensures !(0 <= oldPosition < |old(list.elems)|) ==> list.elems == old(list.elems)
    ensures 0 <= oldPosition < |old(list.elems)| ==>
      list.elems == BubbledUp(old(list.elems), oldPosition, Clamp(newPosition, |old(list.elems)|))
  {
    ghost var s0 := list.elems;
    var n := |list.elems|;
    var i := oldPosition;
    while i < newPosition
      invariant oldPosition <= i <= newPosition
      invariant |list.elems| == n
      invariant i == oldPosition ==> list.elems == s0
      invariant i > oldPosition ==> 0 <= oldPosition && i < n
      invariant 0 <= oldPosition && i < n ==> list.elems == BubbledUp(s0, oldPosition, i)
    {
      var step := CollectionsSwap(list, i, i + 1);
      if step.Err? {
        return step;
      }
      i := i + 1;
    }
    return Ok(());
  }

  /** The second loop of swap (oldPosition > newPosition): swaps with the
      left-hand neighbour until the element reaches newPosition. */
  method MoveLeft<T>(list: JList<T>, oldPosition: int, newPosition: int) returns (r: Result<()>)
    requires oldPosition > newPosition
    modifies list
    ensures |list.elems| == |old(list.elems)|
    ensures r.Ok? <==> oldPosition < |old(list.elems)| && 0 <= newPosition
    ensures r.Err? ==> r.error == IndexOutOfBounds
    ensures !(0 <= oldPosition < |old(list.elems)|) ==> list.elems == old(list.elems)
    ensures 0 <= oldPosition < |old(list.elems)| ==>
      list.elems == BubbledDown(old(list.elems), oldPosition, Clamp(newPosition, |old(list.elems)|))
  {
    ghost var s0 := list.elems;
    var n := |list.elems|;
    var i := oldPosition;
    while i > newPosition
      invariant newPosition <= i <= oldPosition
      invariant |list.elems| == n
      invariant i == oldPosition ==> list.elems == s0
      invariant i < oldPosition ==> oldPosition < n && 0 <= i
      invariant 0 <= i && oldPosition < n ==> list.elems == BubbledDown(s0, oldPosition, i)
    {
      var step := CollectionsSwap(list, i, i - 1);
      if step.Err? {
        return step;
      }
      i := i - 1;
    }
    return Ok(());
  }

  /** swap(list, oldPosition, newPosition): moves the element at oldPosition
      to newPosition by adjacent swaps. A null list throws
      IllegalStateException; a position out of range throws
      IndexOutOfBoundsException after the element has travelled as far as the
      list allows. */
  method Swap<T>(list: JList?<T>, oldPosition: Int32, newPosition: Int32) returns (r: Result<()>)
    modifies list
    ensures list == null ==> r == Err(IllegalStateException)
    ensures list != null ==> |list.elems| == |old(list.elems)|
    ensures list != null ==>
      (r.Ok? <==> oldPosition == newPosition || (0 <= oldPosition < |old(list.elems)| && 0 <= newPosition < |old(list.elems)|))
    ensures list != null && r.Err? ==> r.error == IndexOutOfBounds
    ensures list != null && !(0 <= oldPosition < |old(list.elems)|) ==> list.elems == old(list.elems)
    ensures list != null && 0 <= oldPosition < |old(list.elems)| ==>
      list.elems == Moved(old(list.elems), oldPosition, Clamp(newPosition, |old(list.elems)|))
  {
    if list == null {
      return Err(IllegalStateException);
    }
    ghost var s0 := list.elems;
    if oldPosition < newPosition {
      r := MoveRight(list, oldPosition, newPosition);
      if 0 <= oldPosition < |s0| {
        BubbledUpIsMoved(s0, oldPosition, Clamp(newPosition, |s0|));
      }
      return;
    }
    if oldPosition > newPosition {
      r := MoveLeft(list, oldPosition, newPosition);
      if 0 <= oldPosition < |s0| {
        BubbledDownIsMoved(s0, oldPosition, Clamp(newPosition, |s0|));
      }
      return;
    }
    if 0 <= oldPosition < |list.elems| {
      MovedSelf(list.elems, oldPosition);
    }
    return Ok(());
  }

  // ---------------------------------------------------------------------
  // Comma-list builders
  // ---------------------------------------------------------------------

  function Shown(s: seq<JString>): (r: seq<string>)
    ensures |r| == |s| && forall i :: 0 <= i < |s| ==> r[i] == Show(s[i])
  {
    seq(|s|, i requires 0 <= i < |s| => Show(s[i]))
  }

  /** One more element of a null-printing loop appends its text and the
      separator. */
  lemma ShownStep(a: seq<JString>, i: nat, sep: string)
    requires i < |a|
    ensures Terminated(Shown(a[..i + 1]), sep) == Terminated(Shown(a[..i]), sep) + (Show(a[i]) + sep)
  {
    assert a[..i + 1] == a[..i] + [a[i]];
    assert Shown(a[..i + 1]) == Shown(a[..i]) + [Show(a[i])];
    TerminatedSnoc(Shown(a[..i]), Show(a[i]), sep);
  }

  /** One more element of a toString loop appends its text and the
      separator. */
  lemma RenderedStep(l: seq<Value>, i: nat, sep: string)
    requires i < |l|
    ensures Terminated(Rendered(l[..i + 1]), sep) == Terminated(Rendered(l[..i]), sep) + (Render(l[i]) + sep)
  {
    assert l[..i + 1] == l[..i] + [l[i]];
    assert Rendered(l[..i + 1]) == Rendered(l[..i]) + [Render(l[i])];
    TerminatedSnoc(Rendered(l[..i]), Render(l[i]), sep);
  }

  /** The last element, appended without a separator, completes the join. */
  lemma RenderedLast(l: seq<Value>, sep: string)
    requires |l| > 0
    ensures Terminated(Rendered(l[..|l| - 1]), sep) + Render(l[|l| - 1]) == Joined(Rendered(l), sep)
  {
    var n := |l|;
    var parts := Rendered(l[..n - 1]);
    assert l == l[..n - 1] + [l[n - 1]];
    assert Rendered(l) == parts + [Render(l[n - 1])];
    JoinedSnoc(parts, Render(l[n - 1]), sep);
    if |parts| > 0 {
      TerminatedIsJoinedPlusSep(parts, sep);
    }
  }

  /** Deleting the one-character separator after the last part leaves the
      join. */
  lemma DropLastSeparator(parts: seq<string>, sep: string)
    requires |parts| > 0 && |sep| == 1
    ensures var t := Terminated(parts, sep); |t| > 0 && t[..|t| - 1] == Joined(parts, sep)
  {
    TerminatedIsJoinedPlusSep(parts, sep);
    var j := Joined(parts, sep);
    assert (j + sep)[..|j + sep| - 1] == j;
  }

  /** listToString: the elements' printed forms joined by ",", no trailing
      comma; "" for a null or empty list. */
  method ListToString(list: Option<seq<Value>>) returns (r: string)
    ensures list.None? ==> r == ""
    ensures list.Some? ==> r == Joined(Rendered(list.value), ",")
  {
    var sb := "";
    if list.Some? && |list.value| > 0 {
      var l := list.value;
      var i := 0;
      while i < |l|
        invariant 0 <= i <= |l|
        invariant i < |l| ==> sb == Terminated(Rendered(l[..i]), ",")
        invariant i == |l| ==> sb == Joined(Rendered(l), ",")
      {
        if i < |l| - 1 {
          RenderedStep(l, i, ",");
          sb := sb + (Render(l[i]) + ",");
        } else {
          RenderedLast(l, ",");
          sb := sb + Render(l[i]);
        }
        i := i + 1;
      }
    }
    return sb;
  }

  /** convertArrayToSplitStr: every element followed by the separator (null
      prints as "null"), then the last character deleted; "" for a null or
      empty list, and a failing delete when nothing was appended. */
  method ConvertArrayToSplitStr(list: Option<seq<JString>>, split: JString) returns (r: Result<string>)
    ensures list.None? || |list.value| == 0 ==> r == Ok("")
    ensures list.Some? && |list.value| > 0 ==>
      var t := Terminated(Shown(list.value), Show(split));
      r == if |t| == 0 then Err(StringIndexOutOfBounds) else Ok(t[..|t| - 1])
  {
    var result := "";
    if list.Some? && |list.value| > 0 {
      var l := list.value;
      var i := 0;
      while i < |l|
        invariant 0 <= i <= |l|
        invariant result == Terminated(Shown(l[..i]), Show(split))
      {
        ShownStep(l, i, Show(split));
        result := result + (Show(l[i]) + Show(split));
        i := i + 1;
      }
      assert l[..|l|] == l;
      if |result| == 0 {
        return Err(StringIndexOutOfBounds);
      }
      result := result[..|result| - 1];
    }
    return Ok(result);
  }

  /** Deleting one character after the last separator leaves the join plus
      all but the last character of the separator: a proper join exactly for
      one-character separators. */
  lemma ConvertSplitIsJoinPlusSepPrefix(parts: seq<string>, sep: string)
    requires |parts| > 0 && |sep| > 0
    ensures var t := Terminated(parts, sep);
      |t| > 0 && t[..|t| - 1] == Joined(parts, sep) + sep[..|sep| - 1]
    ensures |sep| == 1 ==> var t := Terminated(parts, sep); t[..|t| - 1] == Joined(parts, sep)
  {
    TerminatedIsJoinedPlusSep(parts, sep);
    var j := Joined(parts, sep);
    assert (j + sep)[..|j + sep| - 1] == j + sep[..|sep| - 1];
  }

  /** The non-null strings of `s`, in order. */
  function NonNull(s: seq<JString>): (r: seq<string>)
    ensures |r| <= |s|
  {
    if |s| == 0 then []
    else NonNull(s[..|s| - 1]) + (if s[|s| - 1].Some? then [s[|s| - 1].value] else [])
  }

  /** No string survives exactly when every value is null. */
  lemma {:induction false} NonNullEmpty(s: seq<JString>)
    ensures |NonNull(s)| == 0 <==> forall i :: 0 <= i < |s| ==> s[i].None?
  {
    if |s| > 0 {
      var init := s[..|s| - 1];
      NonNullEmpty(init);
      assert forall i :: 0 <= i < |s| - 1 ==> init[i] == s[i];
    }
  }

  /** The non-null strings of a sequence with one more value. */
  lemma NonNullSnoc(s: seq<JString>, x: JString)
    ensures NonNull(s + [x]) == NonNull(s) + (if x.Some? then [x.value] else [])
  {
    assert (s + [x])[..|s|] == s;
  }

  /** Quoting distributes over appending one string. */
  lemma QuotedSnoc(s: seq<string>, x: string)
    ensures Quoted(s + [x]) == Quoted(s) + ["'" + x + "'"]
  {
  }

  /** One more value adds its quoted text and a comma, or nothing when
      it is null. */
  lemma InCondStep(prefix: seq<JString>, x: JString)
    ensures Terminated(Quoted(NonNull(prefix + [x])), ",")
      == Terminated(Quoted(NonNull(prefix)), ",") + (if x.Some? then "'" + x.value + "'," else "")
  {
    NonNullSnoc(prefix, x);
    var q := Quoted(NonNull(prefix));
    if x.Some? {
      QuotedSnoc(NonNull(prefix), x.value);
      TerminatedSnoc(q, "'" + x.value + "'", ",");
      assert Terminated(q, ",") + ("'" + x.value + "'") + "," == Terminated(q, ",") + ("'" + x.value + "',");
    } else {
      assert NonNull(prefix) + [] == NonNull(prefix);
      assert Terminated(q, ",") + "" == Terminated(q, ",");
    }
  }

  /** The terminated text is empty exactly when every value is null, and
      otherwise drops its last comma to give the join. */
  lemma InCondFinish(vs: seq<JString>)
    ensures var t := Terminated(Quoted(NonNull(vs)), ",");
      (|t| == 0 <==> |NonNull(vs)| == 0)
      && (|t| > 0 ==> t[..|t| - 1] == Joined(Quoted(NonNull(vs)), ","))
  {
    var parts := Quoted(NonNull(vs));
    if |parts| > 0 {
      TerminatedIsJoinedPlusSep(parts, ",");
      var j := Joined(parts, ",");
      assert (j + ",")[..|j + ","| - 1] == j;
    }
  }

  /** The loop of getInCond: each non-null value quoted and followed by a
      comma. */
  method QuoteEach(vs: seq<JString>) returns (sb: string)
    ensures sb == Terminated(Quoted(NonNull(vs)), ",")
  {
    sb := "";
    var i := 0;
    while i < |vs|
      invariant 0 <= i <= |vs|
      invariant sb == Terminated(Quoted(NonNull(vs[..i])), ",")
    {
      assert vs[..i + 1] == vs[..i] + [vs[i]];
      InCondStep(vs[..i], vs[i]);
      if vs[i].Some? {
        sb := sb + ("'" + vs[i].value + "',");
      }
      i := i + 1;
    }
    assert vs[..|vs|] == vs;
  }

  /** getInCond(List<String>) and getInCond(String[]): every non-null value in
      single quotes, separated by ","; "" for a null or empty input; a
      non-empty input of nulls only fails at the final delete. */
  method GetInCond(values: Option<seq<JString>>) returns (r: Result<string>)
    ensures values.None? || |values.value| == 0 ==> r == Ok("")
    ensures values.Some? && |values.value| > 0 && |NonNull(values.value)| == 0 ==> r == Err(StringIndexOutOfBounds)
    ensures values.Some? && |NonNull(values.value)| > 0 ==> r == Ok(Joined(Quoted(NonNull(values.value)), ","))
  {
    var sb := "";
    if values.Some? && |values.value| > 0 {
      sb := QuoteEach(values.value);
      InCondFinish(values.value);
      if |sb| == 0 {
        return Err(StringIndexOutOfBounds);
      }
      sb := sb[..|sb| - 1];
    }
    return Ok(sb);
  }

  /** arrayToString: the elements joined by "," (null prints as "null"); a
      null or empty array fails at substring(0, -1). */
  method ArrayToString(ig: Option<seq<JString>>) returns (r: Result<string>)
    ensures ig.None? || |ig.value| == 0 ==> r == Err(StringIndexOutOfBounds)
    ensures ig.Some? && |ig.value| > 0 ==> r == Ok(Joined(Shown(ig.value), ","))
  {
    var str := "";
    if ig.Some? && |ig.value| > 0 {
      var a := ig.value;
      var i := 0;
      while i < |a|
        invariant 0 <= i <= |a|
        invariant str == Terminated(Shown(a[..i]), ",")
      {
        ShownStep(a, i, ",");
        str := str + (Show(a[i]) + ",");
        i := i + 1;
      }
      assert a[..|a|] == a;
      DropLastSeparator(Shown(a), ",");
    }
    if |str| == 0 {
      return Err(StringIndexOutOfBounds);
    }
    str := str[..|str| - 1];
    return Ok(str);
  }
}

=== FILE: lists.dfy ===
/** A java.util.List that the utilities change in place. */
module Lists {

  class JList<T> {
    /** The elements, in list order. */
    var elems: seq<T>

    constructor (s: seq<T>)
      ensures elems == s
    {
      elems := s;
    }
  }

  /** The lists of `ss` one after another. */
  function Concat<T>(ss: seq<seq<T>>): seq<T>
  {
    if |ss| == 0 then [] else Concat(ss[..|ss| - 1]) + ss[|ss| - 1]
  }

  /** The elements of `s` that satisfy `p`, in their original order. */
  function Filter<T>(s: seq<T>, p: T -> bool): (r: seq<T>)
    ensures |r| <= |s|
  {
    if |s| == 0 then [] else Filter(s[..|s| - 1], p) + (if p(s[|s| - 1]) then [s[|s| - 1]] else [])
  }

  lemma FilterSnoc<T>(s: seq<T>, x: T, p: T -> bool)
    ensures Filter(s + [x], p) == Filter(s, p) + (if p(x) then [x] else [])
  {
    assert (s + [x])[..|s|] == s;
  }

  /** Every element kept is an element of `s` that satisfies `p`. */
  lemma {:induction false} FilterSound<T>(s: seq<T>, p: T -> bool, x: T)
    requires x in Filter(s, p)
    ensures x in s && p(x)
  {
    var n := |s|;
    var init := Filter(s[..n - 1], p);
    if x in init {
      FilterSound(s[..n - 1], p, x);
      var k :| 0 <= k < n - 1 && s[..n - 1][k] == x;
      assert s[k] == x;
    }
  }

  /** An element of `s` that satisfies `p` is kept. */
  lemma {:induction false} FilterKeeps<T>(s: seq<T>, p: T -> bool, x: T)
    requires x in s && p(x)
    ensures x in Filter(s, p)
  {
    var n := |s|;
    if s[n - 1] != x {
      assert x in s[..n - 1] by {
        var k :| 0 <= k < n && s[k] == x;
        assert s[..n - 1][k] == x;
      }
      FilterKeeps(s[..n - 1], p, x);
    }
  }

  /** Filtering with a predicate every element meets keeps the sequence whole. */
  lemma {:induction false} FilterAll<T>(s: seq<T>, p: T -> bool)
    requires forall i :: 0 <= i < |s| ==> p(s[i])
    ensures Filter(s, p) == s
  {
    if |s| > 0 {
      FilterAll(s[..|s| - 1], p);
    }
  }

  /** The lists of `ss + [t]`: the lists of `ss`, then `t`. */
  lemma ConcatSnoc<T>(ss: seq<seq<T>>, t: seq<T>)
    ensures Concat(ss + [t]) == Concat(ss) + t
  {
    assert (ss + [t])[..|ss|] == ss;
  }

  /** The elements a filter keeps and the elements its complement keeps make up the whole. */
  lemma {:induction false} FilterPartition<T>(s: seq<T>, p: T -> bool, q: T -> bool)
    requires forall x :: q(x) == !p(x)
    ensures multiset(Filter(s, p)) + multiset(Filter(s, q)) == multiset(s)
  {
    if |s| > 0 {
      var n := |s|;
      var x := s[n - 1];
      FilterPartition(s[..n - 1], p, q);
      assert s == s[..n - 1] + [x];
      FilterSnoc(s[..n - 1], x, p);
      FilterSnoc(s[..n - 1], x, q);
    }
  }

  /** Filtering with a predicate no element meets keeps nothing. */
  lemma {:induction false} FilterNone<T>(s: seq<T>, p: T -> bool)
    requires forall i :: 0 <= i < |s| ==> !p(s[i])
    ensures Filter(s, p) == []
  {
    if |s| > 0 {
      FilterNone(s[..|s| - 1], p);
    }
  }

  /** Filtering a concatenation filters each part. */
  lemma {:induction false} FilterAppend<T>(s: seq<T>, t: seq<T>, p: T -> bool)
    ensures Filter(s + t, p) == Filter(s, p) + Filter(t, p)
    decreases |t|
  {
    if |t| > 0 {
      var n := |t|;
      assert s + t == (s + t[..n - 1]) + [t[n - 1]];
      assert t == t[..n - 1] + [t[n - 1]];
      FilterSnoc(s + t[..n - 1], t[n - 1], p);
      FilterSnoc(t[..n - 1], t[n - 1], p);
      FilterAppend(s, t[..n - 1], p);
    } else {
      assert s + t == s;
    }
  }

  /** Filtering four lists one after another filters each. */
  lemma FilterAppend4<T>(a: seq<T>, b: seq<T>, c: seq<T>, d: seq<T>, p: T -> bool)
    ensures Filter(a + b + c + d, p) == Filter(a, p) + Filter(b, p) + Filter(c, p) + Filter(d, p)
  {
    FilterAppend(a + b + c, d, p);
    FilterAppend(a + b, c, p);
    FilterAppend(a, b, p);
  }
}

=== FILE: object_util.dfy ===
/** ObjectUtil: emptiness of arbitrary objects and appending to an array. */
module ObjectUtil {
  import opened Base
  import opened Values

  /** isEmpty(Object[]): null or length 0. */
  predicate IsEmptyArray<T>(arr: Option<seq<T>>) {
    arr.None? || |arr.value| == 0
  }

  /** The number of elements of an array, CharSequence, Collection or Map. */
  function SizeOf(obj: Value): Option<nat>
  {
    match obj
    case Arr(elems, _) => Some(|elems|)
    case PrimArr(length, _) => Some(length)
    case Str(s) => Some(|s|)
    case CharSeq(cs) => Some(|cs|)
    case ListObj(elems, _) => Some(|elems|)
    case SetObj(elems, _) => Some(|elems|)
    case MapObj(size, _) => Some(size)
    case _ => None
  }

  /** isEmpty(Object): true for null; for an array, CharSequence, Collection
      or Map, whether it has no elements; false for any other object. */
  function IsEmptyObject(obj: Value): (r: bool)
    ensures obj.Null? ==> r
    ensures !obj.Null? && SizeOf(obj).Some? ==> (r <==> SizeOf(obj).value == 0)
    ensures !obj.Null? && SizeOf(obj).None? ==> !r
  {
    if obj.Null? then true
    else if obj.Arr? then |obj.elems| == 0
    else if obj.PrimArr? then obj.length == 0
    else if obj.Str? then |obj.s| == 0
    else if obj.CharSeq? then |obj.chars| == 0
    else if obj.ListObj? || obj.SetObj? then |obj.elems| == 0
    else if obj.MapObj? then obj.size == 0
    else false
  }

  /** An object that is not empty is not null. */
  lemma NotEmptyIsPresent(obj: Value)
    requires !IsEmptyObject(obj)
    ensures !obj.Null?
    ensures obj.Str? ==> |obj.s| > 0
  {
  }

  /** addObjectToArray(array, obj): a new array one longer than `array` (of
      length 1 for a null array) holding the old elements and then obj; the
      old array is left as it was. */
  method AddObjectToArray<A>(arr: array?<A>, obj: A) returns (newArr: array<A>)
    ensures fresh(newArr)
    ensures newArr.Length == (if arr == null then 1 else arr.Length + 1)
    ensures arr != null ==> newArr[..arr.Length] == arr[..]
    ensures newArr[newArr.Length - 1] == obj
  {
    var newArrLength := if arr != null then arr.Length + 1 else 1;
    newArr := new A[newArrLength](_ => obj);
    if arr != null {
      // copy the old elements into the front of the new array
      var i := 0;
      while i < arr.Length
        invariant 0 <= i <= arr.Length
        invariant newArr[..i] == arr[..i]
        modifies newArr
      {
        newArr[i] := arr[i];
        i := i + 1;
      }
    }
    newArr[newArr.Length - 1] := obj;
  }
}

=== FILE: page_util.dfy ===
/** PageUtil.pagging: one page of an in-memory list, with Java `int`
    arithmetic. */
module PageUtil {
  import opened Base

  /** ceil(count / pageSize), as pagging computes it for a positive pageSize. */
  function PageCount(count: nat, pageSize: nat): nat
    requires pageSize > 0
  {
    if count % pageSize == 0 then count / pageSize else count / pageSize + 1
  }

  lemma MulMonotone(a: nat, b: nat, c: nat)
    requires a <= b
    ensures a * c <= b * c
  {
    assert b * c == a * c + (b - a) * c;
  }

  /** The page count is the ceiling: the last page starts before the end of
      the list and the pages together reach its end. */
  lemma PageCountIsCeiling(count: nat, pageSize: nat)
    requires pageSize > 0 && count > 0
    ensures PageCount(count, pageSize) >= 1
    ensures (PageCount(count, pageSize) - 1) * pageSize < count <= PageCount(count, pageSize) * pageSize
  {
    var q, m := count / pageSize, count % pageSize;
    assert count == q * pageSize + m;
    if m != 0 {
      assert (q + 1) * pageSize == q * pageSize + pageSize;
    }
  }

  /** `pageNum != pageCount` on two `Integer` objects compares identities.
      pageCount is boxed by Integer.valueOf, which hands out shared objects
      only for -128..127; pageNum, boxed the same way by its caller, is the
      same object exactly when the values are equal and in that range. */
  predicate SameBoxedInteger(a: int, b: int)
  {
    a == b && -128 <= b <= 127
  }

  /** pagging(list, pageNum, pageSize), as written: null for a null or empty
      list; the page count with Java `%` and `/` (a zero pageSize throws);
      the last-page test on boxed `Integer` objects; the page bounds in
      wrapping `int` arithmetic; and null when subList rejects them. */
  function Pagging<T>(list: Option<seq<T>>, pageNum: Int32, pageSize: Int32): (r: Result<Option<seq<T>>>)
    requires list.Some? ==> |list.value| <= INT_MAX
    ensures list.None? || |list.value| == 0 ==> r == Ok(None)
    ensures r.Err? <==> list.Some? && |list.value| > 0 && pageSize == 0
    ensures r.Err? ==> r.error == ArithmeticException
    ensures r.Ok? && r.value.Some? ==> exists from, to :: 0 <= from <= to <= |list.value| && r.value.value == list.value[from..to]
  {
    if list.None? || |list.value| == 0 then Ok(None)
    else if pageSize == 0 then Err(ArithmeticException)
    else
      var count := |list.value|;
      var pageCount := if JavaRem(count, pageSize) == 0 then JavaDiv(count, pageSize) else JavaDiv(count, pageSize) + 1;
      var fromIndex := Wrap32(Wrap32(pageNum - 1) * pageSize);
      var toIndex := if !SameBoxedInteger(pageNum, pageCount) then Wrap32(fromIndex + pageSize) else count;
      if 0 <= fromIndex <= toIndex <= count then Ok(Some(list.value[fromIndex..toIndex]))
      else Ok(None)
  }

  /** The bounds arithmetic does not wrap for a page in range. */
  lemma InRangeNoOverflow(count: nat, pageNum: int, pageSize: nat)
    requires 0 < count <= INT_MAX && pageSize > 0
    requires 1 <= pageNum <= PageCount(count, pageSize)
    ensures 0 <= (pageNum - 1) * pageSize < count
    ensures pageNum < PageCount(count, pageSize) ==> pageNum * pageSize < count
  {
    PageCountIsCeiling(count, pageSize);
    MulMonotone(pageNum - 1, PageCount(count, pageSize) - 1, pageSize);
    if pageNum < PageCount(count, pageSize) {
      MulMonotone(pageNum, PageCount(count, pageSize) - 1, pageSize);
    }
  }

  /** A page in range: every page but the last holds pageSize elements from
      (pageNum - 1) * pageSize on. The last page runs to the end of the list
      while the page count is at most 127; beyond that the last-page test
      fails, and the last page comes back only when it is full. */
  lemma PaggingInRange<T>(list: seq<T>, pageNum: Int32, pageSize: Int32)
    requires 0 < |list| <= INT_MAX && pageSize > 0
    requires 1 <= pageNum <= PageCount(|list|, pageSize)
    ensures var from := (pageNum - 1) * pageSize;
      && 0 <= from < |list|
      && (pageNum < PageCount(|list|, pageSize) ==>
            from + pageSize <= |list| && Pagging(Some(list), pageNum, pageSize) == Ok(Some(list[from..from + pageSize])))
      && (pageNum == PageCount(|list|, pageSize) <= 127 ==>
            Pagging(Some(list), pageNum, pageSize) == Ok(Some(list[from..])))
      && (pageNum == PageCount(|list|, pageSize) > 127 ==>
            Pagging(Some(list), pageNum, pageSize) ==
              if |list| % pageSize == 0 then Ok(Some(list[from..])) else Ok(None))
  {
    PaggingExactInRange(list, pageNum, pageSize);
    if pageNum == PageCount(|list|, pageSize) > 127 {
      LastPageUnboxed(list, pageNum, pageSize);
    } else {
      PaggingExactAgrees(list, pageNum, pageSize);
    }
  }

  /** The bounds of the last page: it starts inside the list, and
      (pageNum - 1) * pageSize + pageSize reaches the end exactly when the
      last page is full, and otherwise lies less than a page beyond it. */
  lemma LastPageBounds(count: nat, pageNum: int, pageSize: nat)
    requires 0 < count <= INT_MAX && pageSize > 0
    requires pageNum == PageCount(count, pageSize)
    ensures 0 <= (pageNum - 1) * pageSize < count
    ensures count % pageSize == 0 ==> (pageNum - 1) * pageSize + pageSize == count
    ensures count % pageSize != 0 ==> count < (pageNum - 1) * pageSize + pageSize < count + pageSize
  {
    var q, m := count / pageSize, count % pageSize;
    assert count == q * pageSize + m;
    InRangeNoOverflow(count, pageNum, pageSize);
    assert (pageNum - 1) * pageSize + pageSize == pageNum * pageSize;
    if m == 0 {
      assert pageNum == q;
    } else {
      assert pageNum == q + 1;
      assert pageNum * pageSize == q * pageSize + pageSize;
    }
  }

  /** The last page past 127 pages, where the last-page test fails: the end
      index is (pageNum - 1) * pageSize + pageSize, which is the end of the
      list exactly when the last page is full, and otherwise lies past it or
      wraps negative. */
  lemma LastPageUnboxed<T>(list: seq<T>, pageNum: Int32, pageSize: Int32)
    requires 0 < |list| <= INT_MAX && pageSize > 0
    requires pageNum == PageCount(|list|, pageSize) > 127
    ensures 0 <= (pageNum - 1) * pageSize < |list|
    ensures var from := (pageNum - 1) * pageSize;
      Pagging(Some(list), pageNum, pageSize) ==
        if |list| % pageSize == 0 then Ok(Some(list[from..])) else Ok(None)
  {
    var count := |list|;
    LastPageBounds(count, pageNum, pageSize);
    assert JavaRem(count, pageSize) == count % pageSize;
    assert JavaDiv(count, pageSize) == count / pageSize;
    var from := (pageNum - 1) * pageSize;
    assert Wrap32(pageNum - 1) == pageNum - 1;
    assert Wrap32(from) == from;
    var to := Wrap32(from + pageSize);
    if count % pageSize == 0 {
      assert to == count;
      assert list[from..count] == list[from..];
    } else {
      assert to < 0 || to > count;
    }
  }

  lemma PaggingExactInRange<T>(list: seq<T>, pageNum: int, pageSize: int)
    requires 0 < |list| <= INT_MAX && pageSize > 0
    requires 1 <= pageNum <= PageCount(|list|, pageSize)
    ensures var from := (pageNum - 1) * pageSize;
      && 0 <= from < |list|
      && (pageNum < PageCount(|list|, pageSize) ==>
            from + pageSize <= |list| && PaggingExact(Some(list), pageNum, pageSize) == Ok(Some(list[from..from + pageSize])))
      && (pageNum == PageCount(|list|, pageSize) ==>
            PaggingExact(Some(list), pageNum, pageSize) == Ok(Some(list[from..])))
  {
    var count := |list|;
    InRangeNoOverflow(count, pageNum, pageSize);
    assert JavaRem(count, pageSize) == count % pageSize;
    assert JavaDiv(count, pageSize) == count / pageSize;
    var from := (pageNum - 1) * pageSize;
    var next := pageNum * pageSize;
    assert from + pageSize == next;
    if pageNum < PageCount(count, pageSize) {
      assert 0 <= from <= next <= count;
      assert PaggingExact(Some(list), pageNum, pageSize) == Ok(Some(list[from..next]));
    } else {
      assert 0 <= from <= count;
      assert list[from..count] == list[from..];
    }
  }

  /** A page number below 1 or above the page count gives null, as long as
      (pageNum - 1) * pageSize fits in an `int`. */
  lemma PaggingOutOfRange<T>(list: seq<T>, pageNum: Int32, pageSize: Int32)
    requires 0 < |list| <= INT_MAX && pageSize > 0
    requires pageNum < 1 || pageNum > PageCount(|list|, pageSize)
    requires INT_MIN <= (pageNum - 1) * pageSize <= INT_MAX
    ensures Pagging(Some(list), pageNum, pageSize) == Ok(None)
  {
    var count := |list|;
    PageCountIsCeiling(count, pageSize);
    if pageNum < 1 {
      assert (pageNum - 1) * pageSize < 0 by {
        assert (pageNum - 1) * pageSize == -((1 - pageNum) * pageSize);
      }
    } else {
      MulMonotone(PageCount(count, pageSize), pageNum - 1, pageSize);
    }
  }

  /** Corrected pagging: the bounds computed without wrap-around. A page
      out of range is null for every page number. */
  function PaggingExact<T>(list: Option<seq<T>>, pageNum: int, pageSize: int): (r: Result<Option<seq<T>>>)
    requires list.Some? ==> |list.value| <= INT_MAX
    ensures list.None? || |list.value| == 0 ==> r == Ok(None)
    ensures r.Err? <==> list.Some? && |list.value| > 0 && pageSize == 0
    ensures r.Ok? && r.value.Some? ==> exists from, to :: 0 <= from <= to <= |list.value| && r.value.value == list.value[from..to]
  {
    if list.None? || |list.value| == 0 then Ok(None)
    else if pageSize == 0 then Err(ArithmeticException)
    else
      var count := |list.value|;
      var pageCount := if JavaRem(count, pageSize) == 0 then JavaDiv(count, pageSize) else JavaDiv(count, pageSize) + 1;
      var fromIndex := (pageNum - 1) * pageSize;
      var toIndex := if pageNum != pageCount then fromIndex + pageSize else count;
      if 0 <= fromIndex <= toIndex <= count then Ok(Some(list.value[fromIndex..toIndex]))
      else Ok(None)
  }

  /** With exact arithmetic every page number out of range gives null. */
  lemma PaggingExactOutOfRange<T>(list: seq<T>, pageNum: int, pageSize: int)
    requires 0 < |list| <= INT_MAX && pageSize > 0
    requires pageNum < 1 || pageNum > PageCount(|list|, pageSize)
    ensures PaggingExact(Some(list), pageNum, pageSize) == Ok(None)
  {
    var count := |list|;
    PageCountIsCeiling(count, pageSize);
    if pageNum < 1 {
      assert (pageNum - 1) * pageSize < 0 by {
        assert (pageNum - 1) * pageSize == -((1 - pageNum) * pageSize);
      }
    } else {
      MulMonotone(PageCount(count, pageSize), pageNum - 1, pageSize);
    }
  }

  /** With exact arithmetic the pages in range are those of pagging, except
      a last page that is not full when there are more than 127 pages. */
  lemma PaggingExactAgrees<T>(list: seq<T>, pageNum: Int32, pageSize: Int32)
    requires 0 < |list| <= INT_MAX && pageSize > 0
    requires 1 <= pageNum <= PageCount(|list|, pageSize)
    ensures pageNum < PageCount(|list|, pageSize) || PageCount(|list|, pageSize) <= 127 || |list| % pageSize == 0 ==>
      PaggingExact(Some(list), pageNum, pageSize) == Pagging(Some(list), pageNum, pageSize)
  {
    InRangeNoOverflow(|list|, pageNum, pageSize);
    assert (pageNum - 1) * pageSize + pageSize == pageNum * pageSize;
    if pageNum == PageCount(|list|, pageSize) > 127 && |list| % pageSize == 0 {
      LastPageUnboxed(list, pageNum, pageSize);
      PaggingExactInRange(list, pageNum, pageSize);
    }
  }

  /** The boxed comparison: 1000 elements in pages of 7 make 143 pages, so
      the last-page test fails on page 143; its end index 1001 lies past the
      list and the page comes back null instead of the last 6 elements. */
  lemma PaggingLastPageLost()
    ensures var list := seq(1000, i => i);
      && PageCount(|list|, 7) == 143
      && Pagging(Some(list), 143, 7) == Ok(None)
      && PaggingExact(Some(list), 143, 7) == Ok(Some(list[994..]))
  {
    var list := seq(1000, i => i);
    LastPageUnboxed(list, 143, 7);
    PaggingExactInRange(list, 143, 7);
  }

  /** The wrap-around: with pageSize 65536, page 65537 starts at
      65536 * 65536 = 2^32, which wraps to 0, so a list of 65536 elements
      (one page) gets its first page back instead of null. */
  lemma PaggingWrapsAround()
    ensures var list := seq(65536, i => 0);
      && PageCount(|list|, 65536) == 1
      && Pagging(Some(list), 65537, 65536) == Ok(Some(list))
      && PaggingExact(Some(list), 65537, 65536) == Ok(None)
  {
    var list := seq(65536, i => 0);
    assert Wrap32(65536 * 65536) == 0;
    assert list[0..65536] == list;
    PaggingExactOutOfRange(list, 65537, 65536);
  }
}

=== FILE: pojo.dfy ===
/** The query objects a controller fills from a request: QueryPojo (extra
    conditions and parameters, plus every non-null field of the concrete
    class as a parameter), Page (paging fields) and Grid (sort fields).

    Java's inheritance Grid -> Page -> QueryPojo is modelled by composition:
    a Grid holds its Page part and a Page its QueryPojo part. Reflection is
    replaced by data: the declared fields of each class, with their current
    values, are passed in, most-derived class first. */
module Pojo {
  import opened Base
  import opened Values
  import opened Query
  import StringUtil
  import PageUtil

  // ---------------------------------------------------------------------
  // Fields by reflection
  // ---------------------------------------------------------------------

  /** A declared field: its name and the value field.get(this) reads. */
  type Field = (string, Value)

  /** The field names buildConditionQuery never records. */
  const FILTER: seq<string> :=
    ["sortname", "sortorder", "pageSize", "pageNum", "dataList", "pages", "total", "appendCondition", "queryParamMap"]

  /** The fields of one class put into a map in declaration order. */
  function LevelMap(fs: seq<Field>): map<string, Value>
  {
    if |fs| == 0 then map[]
    else LevelMap(fs[..|fs| - 1])[fs[|fs| - 1].0 := fs[|fs| - 1].1]
  }

  /** Putting the fields one more at a time. */
  lemma LevelMapSnoc(fs: seq<Field>, i: nat)
    requires i < |fs|
    ensures LevelMap(fs[..i + 1]) == LevelMap(fs[..i])[fs[i].0 := fs[i].1]
  {
    assert fs[..i + 1][..i] == fs[..i];
  }

  /** getClassFields(clazz, true): the class's own fields, then those of
      each superclass, put into one map; a superclass field replaces a
      subclass field of the same name. */
  function ClassFields(levels: seq<seq<Field>>): map<string, Value>
  {
    if |levels| == 0 then map[]
    else ClassFields(levels[..|levels| - 1]) + LevelMap(levels[|levels| - 1])
  }

  /** The field a name resolves to is the one declared by the most distant
      superclass that declares that name. */
  lemma {:induction false} SuperclassWins(levels: seq<seq<Field>>, j: nat, name: string)
    requires j < |levels| && name in LevelMap(levels[j])
    requires forall k :: j < k < |levels| ==> name !in LevelMap(levels[k])
    ensures name in ClassFields(levels) && ClassFields(levels)[name] == LevelMap(levels[j])[name]
  {
    var n := |levels|;
    if j < n - 1 {
      var prefix := levels[..n - 1];
      assert prefix[j] == levels[j];
      forall k | j < k < |prefix| ensures name !in LevelMap(prefix[k]) {
        assert prefix[k] == levels[k];
      }
      SuperclassWins(prefix, j, name);
    }
  }

  /** The puts of one class's fields into `m`. */
  method PutFields(m0: map<string, Value>, fs: seq<Field>) returns (m: map<string, Value>)
    ensures m == m0 + LevelMap(fs)
  {
    m := m0;
    var j := 0;
    while j < |fs|
      invariant 0 <= j <= |fs|
      invariant m == m0 + LevelMap(fs[..j])
    {
      LevelMapSnoc(fs, j);
      m := m[fs[j].0 := fs[j].1];
      j := j + 1;
    }
    assert fs[..|fs|] == fs;
  }

  /** The map getClassFields fills: the class's fields, then each
      superclass's in turn. */
  method GetClassFields(levels: seq<seq<Field>>) returns (m: map<string, Value>)
    ensures m == ClassFields(levels)
  {
    m := map[];
    var i := 0;
    while i < |levels|
      invariant 0 <= i <= |levels|
      invariant m == ClassFields(levels[..i])
    {
      assert levels[..i + 1][..i] == levels[..i];
      m := PutFields(m, levels[i]);
      i := i + 1;
    }
    assert levels[..|levels|] == levels;
  }

  /** The parameters the field scan writes: every resolved field whose name
      is not filtered and whose value is not null. */
  function Recorded(levels: seq<seq<Field>>): (r: map<string, Value>)
    ensures forall k :: k in r <==> k in ClassFields(levels) && k !in FILTER && !ClassFields(levels)[k].Null?
    ensures forall k :: k in r ==> r[k] == ClassFields(levels)[k]
  {
    var fields := ClassFields(levels);
    map k | k in fields && k !in FILTER && !fields[k].Null? :: fields[k]
  }

  /** A lazily created map after putting all of `m`: untouched when `m` is
      empty, otherwise created if needed and extended. */
  function PutAllLazily(p: Option<map<string, Value>>, m: map<string, Value>): Option<map<string, Value>>
  {
    if m == map[] then p
    else Some((if p.Some? then p.value else map[]) + m)
  }

  /** The entries of `m` whose keys are in `ks`. */
  function Restrict(m: map<string, Value>, ks: set<string>): map<string, Value>
  {
    map k | k in m && k in ks :: m[k]
  }

  lemma RestrictAdd(m: map<string, Value>, ks: set<string>, key: string)
    ensures key in m ==> Restrict(m, ks + {key}) == Restrict(m, ks)[key := m[key]]
    ensures key !in m ==> Restrict(m, ks + {key}) == Restrict(m, ks)
  {
  }

  lemma RestrictAll(m: map<string, Value>, ks: set<string>)
    requires m.Keys <= ks
    ensures Restrict(m, ks) == m
  {
  }

  /** One more put after a lazy putAll is a lazy putAll of one entry more. */
  lemma PutAllLazilyPut(p: Option<map<string, Value>>, m: map<string, Value>, k: string, v: Value)
    ensures PutAllLazily(p, m[k := v]) ==
      Some((if PutAllLazily(p, m).Some? then PutAllLazily(p, m).value else map[])[k := v])
  {
    assert k in m[k := v];
    var base := if p.Some? then p.value else map[];
    if m == map[] {
      assert base + m[k := v] == base[k := v];
    } else {
      assert base + m[k := v] == (base + m)[k := v];
    }
  }

  /** The query buildConditionQuery returns: the annotation-derived
      conditions, then the appended ones, then the parameters as they were
      before the field scan. */
  function BuiltQuery(conditions: seq<CondRef>, appended: Option<seq<CondRef>>,
                      params: Option<map<string, Value>>): QueryState
  {
    var s1 := RoutedAll(EMPTY, conditions);
    var s2 := if appended.Some? then RoutedAll(s1, appended.value) else s1;
    if params.Some? then s2.(params := s2.params + params.value) else s2
  }

  /** The lists and parameters of the query before the copied map is
      added. */
  lemma RoutedTwice(conditions: seq<CondRef>, appended: seq<CondRef>, b: Bucket)
    ensures var s2 := RoutedAll(RoutedAll(EMPTY, conditions), appended);
      && BucketOfState(s2, b) == Lists.Filter(conditions, Sel(b)) + Lists.Filter(appended, Sel(b))
      && s2.params == map[]
  {
    var s1 := RoutedAll(EMPTY, conditions);
    RoutedAllBuckets(EMPTY, conditions, b);
    assert BucketOfState(EMPTY, b) == [];
    assert BucketOfState(s1, b) == Lists.Filter(conditions, Sel(b));
    RoutedAllBuckets(s1, appended, b);
  }

  /** Each list of the built query holds the annotation-derived conditions
      of its kind, then the appended ones, in order; its parameters are the
      map copied before the field scan. */
  lemma BuiltQueryOrder(conditions: seq<CondRef>, appended: seq<CondRef>,
                        params: Option<map<string, Value>>, b: Bucket)
    ensures var s := BuiltQuery(conditions, Some(appended), params);
      && BucketOfState(s, b) == Lists.Filter(conditions, Sel(b)) + Lists.Filter(appended, Sel(b))
      && s.params == if params.Some? then params.value else map[]
  {
    var s2 := RoutedAll(RoutedAll(EMPTY, conditions), appended);
    RoutedTwice(conditions, appended, b);
    if params.Some? {
      var s := s2.(params := s2.params + params.value);
      assert BucketOfState(s, b) == BucketOfState(s2, b) by {
        match b
        case BetweenBucket =>
        case WithoutBucket =>
        case SingleBucket =>
        case ListBucket =>
      }
      assert map[] + params.value == params.value;
    }
  }

  // ---------------------------------------------------------------------
  // QueryPojo
  // ---------------------------------------------------------------------

  class QueryPojo {
    /** The HashSet of extra conditions, null until the first append; its
        elements in the order they were first added. */
    var appendCondition: Option<seq<CondRef>>
    /** The extra parameters, null until the first put. */
    var queryParamMap: Option<map<string, Value>>

    constructor ()
      ensures appendCondition.None? && queryParamMap.None?
    {
      appendCondition := None;
      queryParamMap := None;
    }

    /** appendQueryParam(key, value): create the map if needed, then put. */
    method AppendQueryParam(key: string, value: Value)
      modifies this
      ensures queryParamMap == Some((if old(queryParamMap).Some? then old(queryParamMap).value else map[])[key := value])
      ensures appendCondition == old(appendCondition)
    {
      if queryParamMap.None? {
        queryParamMap := Some(map[]);
      }
      queryParamMap := Some(queryParamMap.value[key := value]);
    }

    /** appendCondition(condition): create the set if needed, then add;
        a condition already present is not added again. */
    method AppendCondition(c: CondRef)
      modifies this
      ensures appendCondition.Some?
      ensures old(appendCondition).Some? && c in old(appendCondition).value ==> appendCondition == old(appendCondition)
      ensures old(appendCondition).Some? && c !in old(appendCondition).value ==> appendCondition == Some(old(appendCondition).value + [c])
      ensures old(appendCondition).None? ==> appendCondition == Some([c])
      ensures queryParamMap == old(queryParamMap)
    {
      if appendCondition.None? {
        appendCondition := Some([]);
      }
      if c !in appendCondition.value {
        assert old(appendCondition).None? ==> appendCondition.value + [c] == [c];
        appendCondition := Some(appendCondition.value + [c]);
      }
    }

    /** buildConditionQuery(): a new query given the annotation-derived
        conditions, the appended conditions and a copy of the parameter
        map; only then are the fields scanned, and every non-null, unfiltered
        field is put into the parameter map (so it reaches the next query
        built, not this one). `levels` are the declared fields of the
        concrete class and its superclasses below QueryPojo, most-derived
        first (QueryPojo's own two fields are always filtered). */
    method BuildConditionQuery(conditions: seq<CondRef>, levels: seq<seq<Field>>) returns (q: ConditionQuery)
      modifies this
      ensures fresh(q)
      ensures q.State() == BuiltQuery(conditions, old(appendCondition), old(queryParamMap))
      ensures queryParamMap == PutAllLazily(old(queryParamMap), Recorded(levels))
      ensures appendCondition == old(appendCondition)
    {
      q := new ConditionQuery();
      q.AddAll(Some(conditions));
      if appendCondition.Some? {
        q.AddAll(Some(appendCondition.value));
      }
      if queryParamMap.Some? {
        var _ := q.AddAllParam(queryParamMap);
      }
      ScanFields(levels);
    }

    /** The field scan of buildConditionQuery, over the resolved field map
        in no particular order. */
    method ScanFields(levels: seq<seq<Field>>)
      modifies this
      ensures queryParamMap == PutAllLazily(old(queryParamMap), Recorded(levels))
      ensures appendCondition == old(appendCondition)
    {
      var fieldMap := GetClassFields(levels);
      ghost var rec := Recorded(levels);
      ghost var p0 := queryParamMap;
      var keys := fieldMap.Keys;
      ghost var done: set<string> := {};
      while keys != {}
        invariant keys + done == fieldMap.Keys && keys !! done
        invariant queryParamMap == PutAllLazily(p0, Restrict(rec, done))
        invariant appendCondition == old(appendCondition)
        decreases keys
      {
        var key :| key in keys;
        ScanField(fieldMap, key, rec, done, p0);
        keys := keys - {key};
        done := done + {key};
      }
      RestrictAll(rec, done);
    }

    /** One entry of the field scan: a name outside the filter with a
        non-null value is put into the parameters. */
    method ScanField(fieldMap: map<string, Value>, key: string, ghost rec: map<string, Value>,
                     ghost done: set<string>, ghost p0: Option<map<string, Value>>)
      modifies this
      requires key in fieldMap
      requires key in rec <==> key !in FILTER && !fieldMap[key].Null?
      requires key in rec ==> rec[key] == fieldMap[key]
      requires queryParamMap == PutAllLazily(p0, Restrict(rec, done))
      ensures queryParamMap == PutAllLazily(p0, Restrict(rec, done + {key}))
      ensures appendCondition == old(appendCondition)
    {
      RestrictAdd(rec, done, key);
      if key !in FILTER {
        var value := fieldMap[key];
        if !value.Null? {
          PutAllLazilyPut(p0, Restrict(rec, done), key, value);
          AppendQueryParam(key, value);
        }
      }
    }
  }

  /** The filtered names and null values never become parameters. */
  lemma FilteredNeverRecorded(levels: seq<seq<Field>>, name: string)
    requires name in FILTER || (name in ClassFields(levels) && ClassFields(levels)[name].Null?)
    ensures name !in Recorded(levels)
  {
  }

  // ---------------------------------------------------------------------
  // Page
  // ---------------------------------------------------------------------

  /** getPages() for a positive pageSize: (total + pageSize - 1) / pageSize
      in `int` arithmetic. */
  function PagesOf(total: Int32, pageSize: Int32): Int32
    requires pageSize > 0
  {
    var num := Wrap32(Wrap32(total + pageSize) - 1);
    JavaDiv(num, pageSize)
  }

  lemma DivOf(a: int, p: int, q: int, r: int)
    requires p > 0 && 0 <= r < p && a == q * p + r
    ensures a / p == q
  {
    var q', r' := a / p, a % p;
    assert q' * p + r' == q * p + r;
    if q' > q {
      assert (q' - q) * p == q' * p - q * p;
      PageUtil.MulMonotone(1, q' - q, p);
    } else if q' < q {
      assert (q - q') * p == q * p - q' * p;
      PageUtil.MulMonotone(1, q - q', p);
    }
  }

  /** The numerator of getPages() is exact whenever the true value fits,
      even if total + pageSize alone overflows. */
  lemma PagesNumerator(total: Int32, pageSize: Int32)
    requires pageSize > 0 && total >= 0 && total + pageSize - 1 <= INT_MAX
    ensures Wrap32(Wrap32(total + pageSize) - 1) == total + pageSize - 1
  {
    if total + pageSize > INT_MAX {
      assert total + pageSize == 0x8000_0000;
      assert Wrap32(0x8000_0000) == INT_MIN;
      assert Wrap32(INT_MIN - 1) == INT_MAX;
    }
  }

  /** (total + pageSize - 1) / pageSize is the ceiling of total / pageSize. */
  lemma CeilingDivision(total: nat, pageSize: nat)
    requires pageSize > 0
    ensures (total + pageSize - 1) / pageSize == PageUtil.PageCount(total, pageSize)
  {
    var q, m := total / pageSize, total % pageSize;
    var num := total + pageSize - 1;
    if m == 0 {
      DivOf(num, pageSize, q, pageSize - 1);
    } else {
      assert num == (q + 1) * pageSize + (m - 1);
      DivOf(num, pageSize, q + 1, m - 1);
    }
  }

  /** Without overflow the page count is the ceiling of total / pageSize:
      0 for no rows, otherwise enough pages for every row and no empty
      last page. */
  lemma PagesOfIsCeiling(total: Int32, pageSize: Int32)
    requires pageSize > 0 && total >= 0 && total + pageSize - 1 <= INT_MAX
    ensures PagesOf(total, pageSize) == PageUtil.PageCount(total, pageSize)
    ensures total > 0 ==> (PagesOf(total, pageSize) - 1) * pageSize < total <= PagesOf(total, pageSize) * pageSize
  {
    PagesNumerator(total, pageSize);
    assert PagesOf(total, pageSize) == (total + pageSize - 1) / pageSize;
    CeilingDivision(total, pageSize);
    if total > 0 {
      PageUtil.PageCountIsCeiling(total, pageSize);
    }
  }

  /** getPageOffset()'s first step: a page number below 1 becomes 1. */
  function ClampPageNum(pageNum: Int32): (r: Int32)
    ensures r >= 1 && (pageNum >= 1 ==> r == pageNum)
  {
    if pageNum < 1 then 1 else pageNum
  }

  /** The offset getPageOffset() returns for a clamped page number. */
  function OffsetOf(pageNum: Int32, pageSize: Int32): Int32
  {
    Wrap32((pageNum - 1) * pageSize)
  }

  /** A second getPageOffset() call finds the page number already clamped
      and returns the same offset. */
  lemma PageOffsetIdempotent(pageNum: Int32, pageSize: Int32)
    ensures ClampPageNum(ClampPageNum(pageNum)) == ClampPageNum(pageNum)
    ensures OffsetOf(ClampPageNum(ClampPageNum(pageNum)), pageSize) == OffsetOf(ClampPageNum(pageNum), pageSize)
  {
  }

  /** Without overflow the offset is the number of rows on the pages before
      the current one; never negative for a non-negative pageSize. */
  lemma OffsetCountsEarlierRows(pageNum: Int32, pageSize: Int32)
    requires pageSize >= 0 && (ClampPageNum(pageNum) - 1) * pageSize <= INT_MAX
    ensures OffsetOf(ClampPageNum(pageNum), pageSize) == (ClampPageNum(pageNum) - 1) * pageSize >= 0
  {
  }

  class Page {
    /** The QueryPojo part of this object. */
    const pojo: QueryPojo
    var pageSize: Int32
    var pageNum: Int32
    /** The `list` field: a java.util.List, or null. */
    var list: Value
    var pages: Int32
    var total: Int32

    /** new Page(): ten rows per page, page 1. */
    constructor ()
      ensures fresh(pojo) && pojo.appendCondition.None? && pojo.queryParamMap.None?
      ensures pageSize == 10 && pageNum == 1 && list.Null? && pages == 0 && total == 0
    {
      pojo := new QueryPojo();
      pageSize := 10;
      pageNum := 1;
      list := Null;
      pages := 0;
      total := 0;
    }

    /** new Page(page): copies pageSize, pageNum, total and list; `pages`
        and the QueryPojo part start fresh. */
    constructor Copy(page: Page)
      ensures fresh(pojo) && pojo.appendCondition.None? && pojo.queryParamMap.None?
      ensures pageSize == page.pageSize && pageNum == page.pageNum
      ensures total == page.total && list == page.list && pages == 0
    {
      pojo := new QueryPojo();
      pageSize := page.pageSize;
      pageNum := page.pageNum;
      total := page.total;
      list := page.list;
      pages := 0;
    }

    /** The fields Page declares, for the field scan. */
    function Fields(): seq<Field>
      reads this
    {
      [("pageSize", Int(pageSize)), ("pageNum", Int(pageNum)), ("list", list),
       ("pages", Int(pages)), ("total", Int(total))]
    }

    /** getPages(): 1 when pageSize <= 0 (no paging, nothing stored);
        otherwise the page count, which is also stored in `pages`. */
    method GetPages() returns (r: Int32)
      modifies this
      ensures pageSize <= 0 ==> r == 1 && pages == old(pages)
      ensures pageSize > 0 ==> r == PagesOf(total, pageSize) && pages == r
      ensures pageSize == old(pageSize) && pageNum == old(pageNum) && total == old(total) && list == old(list)
    {
      if pageSize <= 0 {
        return 1;
      }
      pages := PagesOf(total, pageSize);
      return pages;
    }

    /** getPageOffset(): clamps the stored page number to at least 1, then
        returns (pageNum - 1) * pageSize. */
    method GetPageOffset() returns (r: Int32)
      modifies this
      ensures pageNum == ClampPageNum(old(pageNum))
      ensures r == OffsetOf(pageNum, pageSize)
      ensures pageSize == old(pageSize) && pages == old(pages) && total == old(total) && list == old(list)
    {
      pageNum := if pageNum < 1 then 1 else pageNum;
      r := Wrap32((pageNum - 1) * pageSize);
    }

    /** buildConditionQuery(): QueryPojo's query plus the parameters
        "pageOffset" and "pageSize". `levels` are the fields of the classes
        below Page, most-derived first. */
    method BuildConditionQuery(conditions: seq<CondRef>, levels: seq<seq<Field>>) returns (q: ConditionQuery)
      modifies this, pojo
      ensures fresh(q)
      ensures pageNum == ClampPageNum(old(pageNum))
      ensures q.State() == PagedQuery(BuiltQuery(conditions, old(pojo.appendCondition), old(pojo.queryParamMap)),
                                      OffsetOf(pageNum, pageSize), pageSize)
      ensures pojo.queryParamMap == PutAllLazily(old(pojo.queryParamMap), Recorded(levels + [old(Fields())]))
      ensures pojo.appendCondition == old(pojo.appendCondition)
      ensures pageSize == old(pageSize) && pages == old(pages) && total == old(total) && list == old(list)
    {
      q := pojo.BuildConditionQuery(conditions, levels + [Fields()]);
      var offset := GetPageOffset();
      q.AddParam("pageOffset", Int(offset));
      q.AddParam("pageSize", Int(pageSize));
    }
  }

  /** The parameters Page adds to a query. */
  function PagedQuery(s: QueryState, offset: Int32, pageSize: Int32): (r: QueryState)
    ensures r.params.Keys == s.params.Keys + {"pageOffset", "pageSize"}
    ensures r.params["pageOffset"] == Int(offset) && r.params["pageSize"] == Int(pageSize)
    ensures forall k :: k in s.params && k != "pageOffset" && k != "pageSize" ==> r.params[k] == s.params[k]
    ensures r.(params := s.params) == s
  {
    s.(params := s.params["pageOffset" := Int(offset)]["pageSize" := Int(pageSize)])
  }

  /** The fields of PageQueryPojo put into one map. */
  lemma PageFieldMap(pageSize: Int32, pageNum: Int32, list: Value, pages: Int32, total: Int32)
    ensures ClassFields([[("pageSize", Int(pageSize)), ("pageNum", Int(pageNum)), ("list", list),
                          ("pages", Int(pages)), ("total", Int(total))]])
      == map["pageSize" := Int(pageSize), "pageNum" := Int(pageNum), "list" := list,
             "pages" := Int(pages), "total" := Int(total)]
  {
    var fs := [("pageSize", Int(pageSize)), ("pageNum", Int(pageNum)), ("list", list),
               ("pages", Int(pages)), ("total", Int(total))];
    var levels := [fs];
    assert levels[..0] == [];
    assert ClassFields(levels) == map[] + LevelMap(fs);
    assert fs[..0] == [];
    LevelMapSnoc(fs, 0);
    LevelMapSnoc(fs, 1);
    LevelMapSnoc(fs, 2);
    LevelMapSnoc(fs, 3);
    LevelMapSnoc(fs, 4);
    assert fs[..5] == fs;
    assert map[] + LevelMap(fs) == LevelMap(fs);
  }

  /** A Page's own fields are all filtered except `list`, which is recorded
      under its name when it is not null. */
  lemma PageFieldsRecorded(pageSize: Int32, pageNum: Int32, list: Value, pages: Int32, total: Int32)
    ensures var levels := [[("pageSize", Int(pageSize)), ("pageNum", Int(pageNum)), ("list", list),
                            ("pages", Int(pages)), ("total", Int(total))]];
      && (list.Null? ==> Recorded(levels) == map[])
      && (!list.Null? ==> Recorded(levels) == map["list" := list])
  {
    var levels := [[("pageSize", Int(pageSize)), ("pageNum", Int(pageNum)), ("list", list),
                    ("pages", Int(pages)), ("total", Int(total))]];
    PageFieldMap(pageSize, pageNum, list, pages, total);
    var m := ClassFields(levels);
    assert "list" !in FILTER;
    var r := Recorded(levels);
    forall k | k in r ensures k == "list" {
      assert k in m && k !in FILTER;
    }
    if list.Null? {
      assert "list" !in r;
      assert r == map[];
    } else {
      assert "list" in r && r["list"] == list;
      assert r == map["list" := list];
    }
  }

  // ---------------------------------------------------------------------
  // Grid
  // ---------------------------------------------------------------------

  /** `s` with every occurrence of `c` removed (replaceAll of a one-character
      pattern). */
  function RemoveChar(s: string, c: char): (r: string)
    ensures c !in r && |r| <= |s|
    ensures forall x :: x in r ==> x in s
  {
    if |s| == 0 then ""
    else (if s[0] == c then "" else [s[0]]) + RemoveChar(s[1..], c)
  }

  /** `s` with "--" removed: a left-to-right scan that drops each
      non-overlapping occurrence (replaceAll("--", "")). */
  function RemoveDoubleDash(s: string): (r: string)
    ensures |r| <= |s|
    ensures forall x :: x in r ==> x in s
  {
    if |s| >= 2 && s[0] == '-' && s[1] == '-' then RemoveDoubleDash(s[2..])
    else if |s| == 0 then ""
    else [s[0]] + RemoveDoubleDash(s[1..])
  }

  /** Whether `s` holds "--". */
  predicate HasDoubleDash(s: string)
  {
    exists i :: 0 <= i < |s| - 1 && s[i] == '-' && s[i + 1] == '-'
  }

  /** A string that does not start with '-' keeps its first character. */
  lemma RemoveDoubleDashHead(s: string)
    requires |s| > 0 && s[0] != '-'
    ensures |RemoveDoubleDash(s)| > 0 && RemoveDoubleDash(s)[0] == s[0]
  {
  }

  /** One pass of the "--" removal leaves no "--" behind. */
  lemma {:induction false} RemoveDoubleDashClean(s: string)
    ensures !HasDoubleDash(RemoveDoubleDash(s))
    decreases |s|
  {
    if |s| >= 2 && s[0] == '-' && s[1] == '-' {
      RemoveDoubleDashClean(s[2..]);
    } else if |s| > 0 {
      var t := s[1..];
      var rt := RemoveDoubleDash(t);
      RemoveDoubleDashClean(t);
      var r := RemoveDoubleDash(s);
      assert r == [s[0]] + rt;
      if s[0] == '-' && |rt| > 0 {
        RemoveDoubleDashHead(t);
      }
      forall i | 0 <= i < |r| - 1 ensures !(r[i] == '-' && r[i + 1] == '-') {
        if i > 0 {
          assert r[i] == rt[i - 1] && r[i + 1] == rt[i];
        }
      }
    }
  }

  /** The first `n` characters (substring(0, n) when longer). */
  function Truncate(s: string, n: nat): (r: string)
    ensures |r| <= n && (|s| <= n ==> r == s) && (|s| > n ==> r == s[..n])
  {
    if |s| > n then s[..n] else s
  }

  /** buildSortname()'s six replaceAll calls, in the order written. */
  function StripSortname(s: string): string
  {
    RemoveChar(RemoveChar(RemoveChar(RemoveDoubleDash(RemoveChar(RemoveChar(s, '\''), '*')), ' '), '('), ')')
  }

  /** buildSortname(): null for a null sortname; otherwise the name without
      quotes, stars, "--", spaces and parentheses, cut to 20 characters. */
  function SanitizeSortname(sortname: JString): (r: JString)
    ensures r.None? <==> sortname.None?
    ensures r.Some? ==> |r.value| <= 20
    ensures r.Some? ==> r.value == Truncate(StripSortname(sortname.value), 20)
    ensures r.Some? ==> forall c :: c in r.value ==> c != '\'' && c != '*' && c != ' ' && c != '(' && c != ')'
  {
    if sortname.None? then None
    else
      var stripped := StripSortname(sortname.value);
      assert forall c :: c in stripped ==> c != '\'' && c != '*' && c != ' ' && c != '(' && c != ')' by {
        var s0 := sortname.value;
        var s1 := RemoveChar(s0, '\'');
        var s2 := RemoveChar(s1, '*');
        var s3 := RemoveDoubleDash(s2);
        var s4 := RemoveChar(s3, ' ');
        var s5 := RemoveChar(s4, '(');
        assert stripped == RemoveChar(s5, ')');
      }
      Some(Truncate(stripped, 20))
  }

  /** Removing a character the string does not hold changes nothing. */
  lemma {:induction false} RemoveCharAbsent(s: string, c: char)
    requires c !in s
    ensures RemoveChar(s, c) == s
    decreases |s|
  {
    if |s| > 0 {
      assert s[1..] + [] == s[1..];
      RemoveCharAbsent(s[1..], c);
      assert [s[0]] + s[1..] == s;
    }
  }

  /** A string without "--" is left as it is by the "--" removal. */
  lemma {:induction false} RemoveDoubleDashNone(s: string)
    requires !HasDoubleDash(s)
    ensures RemoveDoubleDash(s) == s
    decreases |s|
  {
    if |s| > 0 {
      var t := s[1..];
      assert !HasDoubleDash(t) by {
        forall i | 0 <= i < |t| - 1 ensures !(t[i] == '-' && t[i + 1] == '-') {
          assert t[i] == s[i + 1] && t[i + 1] == s[i + 2];
        }
      }
      RemoveDoubleDashNone(t);
      assert [s[0]] + t == s;
    }
  }

  /** A character the sanitiser keeps as it is. */
  predicate Plain(x: char)
  {
    x != '\'' && x != '*' && x != '-' && x != ' ' && x != '(' && x != ')'
  }

  /** A dash, a space and a dash between plain characters hold no "--". */
  lemma SpacedDashesClean(x: char, y: char)
    requires Plain(x) && Plain(y)
    ensures RemoveDoubleDash([x, '-', ' ', '-', y]) == [x, '-', ' ', '-', y]
  {
    var s := [x, '-', ' ', '-', y];
    assert !HasDoubleDash(s) by {
      forall i | 0 <= i < |s| - 1 ensures !(s[i] == '-' && s[i + 1] == '-') {
      }
    }
    RemoveDoubleDashNone(s);
  }

  /** Removing the space joins the two dashes. */
  lemma SpaceRemovalJoins(x: char, y: char)
    requires Plain(x) && Plain(y)
    ensures RemoveChar([x, '-', ' ', '-', y], ' ') == [x, '-', '-', y]
  {
    RemoveCharCons(y, [], ' ');
    RemoveCharCons('-', [y], ' ');
    RemoveCharCons(' ', ['-', y], ' ');
    RemoveCharCons('-', [' ', '-', y], ' ');
    RemoveCharCons(x, ['-', ' ', '-', y], ' ');
    assert [y] + RemoveChar([], ' ') == [y];
  }

  /** Removing from a string with one more character in front. */
  lemma RemoveCharCons(c0: char, rest: string, c: char)
    ensures RemoveChar([c0] + rest, c) == (if c0 == c then [] else [c0]) + RemoveChar(rest, c)
  {
    assert ([c0] + rest)[1..] == rest;
  }

  /** Only the space removal changes a dash, a space and a dash between
      plain characters. */
  lemma StripJoinsDashes(x: char, y: char)
    requires Plain(x) && Plain(y)
    ensures StripSortname([x, '-', ' ', '-', y]) == [x, '-', '-', y]
  {
    var s := [x, '-', ' ', '-', y];
    var t := [x, '-', '-', y];
    RemoveCharAbsent(s, '\'');
    RemoveCharAbsent(s, '*');
    SpacedDashesClean(x, y);
    SpaceRemovalJoins(x, y);
    RemoveCharAbsent(t, '(');
    RemoveCharAbsent(t, ')');
  }

  /** As written, "--" is removed before spaces and parentheses, so those
      can bring two dashes together: "a- -b" becomes "a--b". */
  lemma SortnameKeepsDoubleDash()
    ensures SanitizeSortname(Some("a- -b")) == Some("a--b")
    ensures HasDoubleDash(SanitizeSortname(Some("a- -b")).value)
  {
    StripJoinsDashes('a', 'b');
    var t := "a--b";
    assert Truncate(t, 20) == t;
    assert t[1] == '-' && t[2] == '-';
  }

  /** The sanitiser with the "--" removal done last, after every other
      character it strips. */
  function SanitizeSortnameStrict(sortname: JString): (r: JString)
    ensures r.None? <==> sortname.None?
    ensures r.Some? ==> |r.value| <= 20
    ensures r.Some? ==> forall c :: c in r.value ==> c != '\'' && c != '*' && c != ' ' && c != '(' && c != ')'
  {
    if sortname.None? then None
    else
      var s := sortname.value;
      var stripped := RemoveDoubleDash(RemoveChar(RemoveChar(RemoveChar(RemoveChar(RemoveChar(s, '\''), '*'), ' '), '('), ')'));
      assert forall c :: c in stripped ==> c != '\'' && c != '*' && c != ' ' && c != '(' && c != ')' by {
        var s5 := RemoveChar(RemoveChar(RemoveChar(RemoveChar(RemoveChar(s, '\''), '*'), ' '), '('), ')');
        assert stripped == RemoveDoubleDash(s5);
      }
      Some(Truncate(stripped, 20))
  }

  /** The corrected sanitiser never leaves "--" in the name. */
  lemma SanitizeSortnameStrictClean(sortname: JString)
    requires sortname.Some?
    ensures !HasDoubleDash(SanitizeSortnameStrict(sortname).value)
  {
    var s := sortname.value;
    var stripped := RemoveDoubleDash(RemoveChar(RemoveChar(RemoveChar(RemoveChar(RemoveChar(s, '\''), '*'), ' '), '('), ')'));
    RemoveDoubleDashClean(RemoveChar(RemoveChar(RemoveChar(RemoveChar(RemoveChar(s, '\''), '*'), ' '), '('), ')'));
    var r := Truncate(stripped, 20);
    if |stripped| > 20 {
      forall i | 0 <= i < |r| - 1 ensures !(r[i] == '-' && r[i + 1] == '-') {
        assert r[i] == stripped[i] && r[i + 1] == stripped[i + 1];
      }
    }
  }

  /** buildSortorder()'s test on the lower-cased order. */
  function ValidOrder(lowered: JString): (r: JString)
    ensures r.Some? <==> lowered == Some("asc") || lowered == Some("desc")
    ensures r.Some? ==> r == lowered
  {
    if lowered == Some("asc") || lowered == Some("desc") then lowered else None
  }

  /** buildOrderCol()'s result for a sanitised name and a valid order. */
  function OrderCol(name: JString, order: JString): (r: JString)
    ensures IsNullOrEmpty(name) ==> r.None?
    ensures !IsNullOrEmpty(name) && IsNullOrEmpty(order) ==> r == name
    ensures !IsNullOrEmpty(name) && !IsNullOrEmpty(order) ==>
      r.Some? && |r.value| == |name.value| + 1 + |order.value| && r.value[..|name.value|] == name.value
      && r.value[|name.value|] == ' ' && r.value[|name.value| + 1..] == order.value
  {
    if IsNullOrEmpty(name) then None
    else if IsNullOrEmpty(order) then name
    else Some(name.value + " " + order.value)
  }

  class Grid {
    /** The Page part (and through it the QueryPojo part) of this object. */
    const page: Page
    var sortname: JString
    var sortorder: JString

    /** new Grid(): Page's defaults, no sort. */
    constructor ()
      ensures fresh(page) && fresh(page.pojo)
      ensures page.pageSize == 10 && page.pageNum == 1 && page.list.Null? && page.pages == 0 && page.total == 0
      ensures page.pojo.appendCondition.None? && page.pojo.queryParamMap.None?
      ensures sortname.None? && sortorder.None?
    {
      page := new Page();
      sortname := None;
      sortorder := None;
    }

    /** new Grid(page): Page's copy constructor, no sort. */
    constructor FromPage(p: Page)
      ensures fresh(page) && fresh(page.pojo)
      ensures page.pageSize == p.pageSize && page.pageNum == p.pageNum
      ensures page.total == p.total && page.list == p.list && page.pages == 0
      ensures page.pojo.appendCondition.None? && page.pojo.queryParamMap.None?
      ensures sortname.None? && sortorder.None?
    {
      page := new Page.Copy(p);
      sortname := None;
      sortorder := None;
    }

    /** The fields Grid declares, for the field scan. */
    function Fields(): seq<Field>
      reads this
    {
      [("sortname", if sortname.Some? then Str(sortname.value) else Null),
       ("sortorder", if sortorder.Some? then Str(sortorder.value) else Null)]
    }

    /** buildSortname(): the sanitised sort column. */
    function BuildSortname(): (r: JString)
      reads this
      ensures r == SanitizeSortname(sortname)
    {
      SanitizeSortname(sortname)
    }

    /** buildSortorder(): lower-cases the stored order in place, then
        returns it if it is "asc" or "desc" and null otherwise. */
    method BuildSortorder() returns (r: JString)
      modifies this
      ensures sortorder == StringUtil.ToLowerCase(old(sortorder))
      ensures r == ValidOrder(sortorder)
      ensures sortname == old(sortname)
    {
      if sortorder.None? {
        return None;
      }
      sortorder := Some(StringUtil.LowerAll(sortorder.value));
      if sortorder == Some("asc") || sortorder == Some("desc") {
        return sortorder;
      }
      return None;
    }

    /** buildOrderCol(): null when the sanitised name is null or empty
        (and the order is then left as it was); otherwise the name,
        followed by a space and the order when the order is valid. */
    method BuildOrderCol() returns (r: JString)
      modifies this
      ensures r == OrderCol(SanitizeSortname(sortname), ValidOrder(sortorder))
      ensures IsNullOrEmpty(SanitizeSortname(sortname)) ==> sortorder == old(sortorder)
      ensures !IsNullOrEmpty(SanitizeSortname(sortname)) ==> sortorder == StringUtil.ToLowerCase(old(sortorder))
      ensures sortname == old(sortname)
    {
      var name := BuildSortname();
      if name.None? || name.value == "" {
        return None;
      }
      var order := BuildSortorder();
      if order.Some? && order.value != "" {
        r := Some(name.value + " " + order.value);
      } else {
        r := name;
      }
    }

    /** buildConditionQuery(): Page's query, plus the parameter "orderCol"
        when buildOrderCol() is not null. `levels` are the fields of the
        classes below Grid, most-derived first. */
    method BuildConditionQuery(conditions: seq<CondRef>, levels: seq<seq<Field>>) returns (q: ConditionQuery)
      modifies this, page, page.pojo
      ensures fresh(q)
      ensures var paged := PagedQuery(BuiltQuery(conditions, old(page.pojo.appendCondition), old(page.pojo.queryParamMap)),
                                      OffsetOf(ClampPageNum(old(page.pageNum)), old(page.pageSize)), old(page.pageSize));
        var orderCol := OrderCol(SanitizeSortname(old(sortname)), ValidOrder(StringUtil.ToLowerCase(old(sortorder))));
        q.State() == if orderCol.Some? then paged.(params := paged.params["orderCol" := Str(orderCol.value)]) else paged
      ensures page.pojo.queryParamMap ==
        PutAllLazily(old(page.pojo.queryParamMap), Recorded(levels + [old(Fields())] + [old(page.Fields())]))
      ensures page.pojo.appendCondition == old(page.pojo.appendCondition)
      ensures page.pageNum == ClampPageNum(old(page.pageNum))
      ensures page.pageSize == old(page.pageSize) && page.pages == old(page.pages)
      ensures page.total == old(page.total) && page.list == old(page.list)
      ensures IsNullOrEmpty(SanitizeSortname(old(sortname))) ==> sortorder == old(sortorder)
      ensures !IsNullOrEmpty(SanitizeSortname(old(sortname))) ==> sortorder == StringUtil.ToLowerCase(old(sortorder))
      ensures sortname == old(sortname)
    {
      q := page.BuildConditionQuery(conditions, levels + [Fields()]);
      var orderCol := BuildOrderCol();
      if orderCol.Some? {
        q.AddParam("orderCol", Str(orderCol.value));
      }
    }
  }

  /** A sort column that is already clean (at most 20 characters, none of
      the stripped ones, no "--") passes through buildSortname unchanged. */
  lemma SanitizeSortnameKeepsClean(name: string)
    requires |name| <= 20 && !HasDoubleDash(name)
    requires forall c :: c in name ==> c != '\'' && c != '*' && c != ' ' && c != '(' && c != ')'
    ensures SanitizeSortname(Some(name)) == Some(name)
  {
    RemoveCharAbsent(name, '\'');
    RemoveCharAbsent(name, '*');
    RemoveDoubleDashNone(name);
    RemoveCharAbsent(name, ' ');
    RemoveCharAbsent(name, '(');
    RemoveCharAbsent(name, ')');
  }

  /** A clean sort column with an order that lower-cases to "asc" or "desc"
      (as "ASC" does) gives the column, a space and the lower-cased order. */
  lemma OrderColOfCleanName(name: string, order: string)
    requires 0 < |name| <= 20 && !HasDoubleDash(name)
    requires forall c :: c in name ==> c != '\'' && c != '*' && c != ' ' && c != '(' && c != ')'
    requires StringUtil.LowerAll(order) == "asc" || StringUtil.LowerAll(order) == "desc"
    ensures OrderCol(SanitizeSortname(Some(name)), ValidOrder(StringUtil.ToLowerCase(Some(order))))
      == Some(name + " " + StringUtil.LowerAll(order))
  {
    SanitizeSortnameKeepsClean(name);
  }

  /** A Grid's own two fields are both filtered. */
  lemma GridFieldsNeverRecorded(sortname: Value, sortorder: Value)
    ensures Recorded([[("sortname", sortname), ("sortorder", sortorder)]]) == map[]
  {
    var fs := [("sortname", sortname), ("sortorder", sortorder)];
    var levels := [fs];
    assert levels[..0] == [];
    assert fs[..0] == [];
    LevelMapSnoc(fs, 0);
    LevelMapSnoc(fs, 1);
    assert fs[..2] == fs;
    assert ClassFields(levels) == map[] + map["sortname" := sortname, "sortorder" := sortorder];
    assert "sortname" in FILTER && "sortorder" in FILTER;
  }
}

=== FILE: string_util.dfy ===
/** StringUtil: null-safe string helpers. A Java String is a `JString`
    (null or a sequence of characters). */
module StringUtil {
  import opened Base
  import opened Values

  // ---------------------------------------------------------------------
  // Character classes
  // ---------------------------------------------------------------------

  /** Character.isWhitespace: the space, line and paragraph separators other
      than the three no-break spaces, plus the control characters U+0009 to
      U+000D and U+001C to U+001F. The table is the one of Java 9 and later;
      Java 8 also counts U+180E (MONGOLIAN VOWEL SEPARATOR) as whitespace. */
  predicate IsWhitespace(c: char) {
    || '\U{9}' <= c <= '\U{D}'
    || '\U{1C}' <= c <= '\U{20}'
    || c == '\U{1680}'
    || ('\U{2000}' <= c <= '\U{200A}' && c != '\U{2007}')
    || c == '\U{2028}' || c == '\U{2029}' || c == '\U{205F}' || c == '\U{3000}'
  }

  /** What a trim scan strips: Character.isWhitespace (stripChars == null),
      the rule of String.trim (every character up to U+0020), or the members
      of a stripChars string. */
  datatype CharClass = Whitespace | AtMostSpace | AnyOf(chars: string)

  predicate Strippable(cls: CharClass, c: char) {
    match cls
    case Whitespace => IsWhitespace(c)
    case AtMostSpace => c <= ' '
    case AnyOf(chars) => c in chars
  }

  // ---------------------------------------------------------------------
  // isBlank / isNotBlank / contains
  // ---------------------------------------------------------------------

  ghost predicate Blank(str: JString) {
    str.None? || forall i :: 0 <= i < |str.value| ==> IsWhitespace(str.value[i])
  }

  /** isBlank: null, empty, or whitespace only. */
  method IsBlank(str: JString) returns (r: bool)
    ensures r <==> Blank(str)
  {
    if str.None? || |str.value| == 0 {
      return true;
    }
    var s := str.value;
    var i := 0;
    while i < |s|
      invariant 0 <= i <= |s|
      invariant forall k :: 0 <= k < i ==> IsWhitespace(s[k])
    {
      if !IsWhitespace(s[i]) {
        return false;
      }
      i := i + 1;
    }
    return true;
  }

  /** isNotBlank: exactly the negation of isBlank (its own loop in the source). */
  method IsNotBlank(str: JString) returns (r: bool)
    ensures r <==> !Blank(str)
  {
    if str.None? || |str.value| == 0 {
      return false;
    }
    var s := str.value;
    var i := 0;
    while i < |s|
      invariant 0 <= i <= |s|
      invariant forall k :: 0 <= k < i ==> IsWhitespace(s[k])
    {
      if !IsWhitespace(s[i]) {
        return true;
      }
      i := i + 1;
    }
    return false;
  }

  /** contains(String, char): false for null or "", otherwise indexOf(c) >= 0. */
  function ContainsChar(str: JString, searchChar: char): (r: bool)
    ensures r <==> str.Some? && exists i :: 0 <= i < |str.value| && str.value[i] == searchChar
  {
    if str.None? || |str.value| == 0 then false else searchChar in str.value
  }

  predicate OccursAt(s: string, t: string, i: int) {
    0 <= i && i + |t| <= |s| && s[i..i + |t|] == t
  }

  /** String.indexOf(t, from): the first occurrence of `t` at or after `from`, or -1. */
  function IndexOf(s: string, t: string, from: nat): (r: int)
    requires from <= |s|
    ensures r == -1 || (from <= r && OccursAt(s, t, r))
    ensures r == -1 ==> forall i :: from <= i ==> !OccursAt(s, t, i)
    ensures r != -1 ==> forall i :: from <= i < r ==> !OccursAt(s, t, i)
    decreases |s| - from
  {
    if from + |t| > |s| then -1
    else if s[from..from + |t|] == t then from
    else if from == |s| then -1
    else IndexOf(s, t, from + 1)
  }

  /** contains(String, String): false when either is null, otherwise whether
      `searchStr` occurs in `str`. */
  function ContainsStr(str: JString, searchStr: JString): (r: bool)
    ensures r <==> str.Some? && searchStr.Some? && exists i :: OccursAt(str.value, searchStr.value, i)
  {
    str.Some? && searchStr.Some? && IndexOf(str.value, searchStr.value, 0) >= 0
  }

  // ---------------------------------------------------------------------
  // The trim engine: trim(str, stripChars, mode)
  // ---------------------------------------------------------------------

  /** The length of the longest prefix of `s` made of strippable characters. */
  function LeadingRun(s: string, cls: CharClass): (k: nat)
    ensures k <= |s|
    ensures forall i :: 0 <= i < k ==> Strippable(cls, s[i])
    ensures k < |s| ==> !Strippable(cls, s[k])
  {
    if |s| == 0 || !Strippable(cls, s[0]) then 0 else 1 + LeadingRun(s[1..], cls)
  }

  /** The length of the longest suffix of `s` made of strippable characters. */
  function TrailingRun(s: string, cls: CharClass): (k: nat)
    ensures k <= |s|
    ensures forall i :: |s| - k <= i < |s| ==> Strippable(cls, s[i])
    ensures k < |s| ==> !Strippable(cls, s[|s| - k - 1])
  {
    if |s| == 0 || !Strippable(cls, s[|s| - 1]) then 0 else 1 + TrailingRun(s[..|s| - 1], cls)
  }

  lemma {:induction false} LeadingRunUnique(s: string, cls: CharClass, k: nat)
    requires k <= |s|
    requires forall i :: 0 <= i < k ==> Strippable(cls, s[i])
    requires k < |s| ==> !Strippable(cls, s[k])
    ensures LeadingRun(s, cls) == k
  {
  }

  lemma {:induction false} TrailingRunUnique(s: string, cls: CharClass, k: nat)
    requires k <= |s|
    requires forall i :: |s| - k <= i < |s| ==> Strippable(cls, s[i])
    requires k < |s| ==> !Strippable(cls, s[|s| - k - 1])
    ensures TrailingRun(s, cls) == k
  {
  }

  /** Where the scan from the front stops (mode <= 0 scans the front). */
  function TrimStartIndex(s: string, cls: CharClass, mode: int): nat
  {
    if mode <= 0 then LeadingRun(s, cls) else 0
  }

  /** Where the scan from the back stops, never before the front scan (mode >= 0 scans the back). */
  function TrimEndIndex(s: string, cls: CharClass, mode: int): (e: nat)
    ensures TrimStartIndex(s, cls, mode) <= e <= |s|
  {
    var start := TrimStartIndex(s, cls, mode);
    if mode >= 0 then |s| - TrailingRun(s[start..], cls) else |s|
  }

  /** The substring between the two scans. */
  function TrimCore(s: string, cls: CharClass, mode: int): string
  {
    s[TrimStartIndex(s, cls, mode)..TrimEndIndex(s, cls, mode)]
  }

  /** What trim(str, stripChars, mode) returns: null for null; `str` itself
      for an empty stripChars; otherwise the characters between the scans,
      whitespace for a null stripChars, members of stripChars otherwise. */
  function TrimSpec(str: JString, stripChars: JString, mode: int): JString
  {
    if str.None? then None
    else if stripChars == Some("") then str
    else Some(TrimCore(str.value, if stripChars.None? then Whitespace else AnyOf(stripChars.value), mode))
  }

  /** The front scan of trim: advance over strippable characters. */
  method ScanFront(s: string, cls: CharClass) returns (start: nat)
    ensures start == LeadingRun(s, cls)
  {
    start := 0;
    while start < |s| && Strippable(cls, s[start])
      invariant 0 <= start <= |s|
      invariant forall i :: 0 <= i < start ==> Strippable(cls, s[i])
    {
      start := start + 1;
    }
    LeadingRunUnique(s, cls, start);
  }

  /** The back scan of trim: retreat over strippable characters, never
      past `start`. */
  method ScanBack(s: string, cls: CharClass, start: nat) returns (end: nat)
    requires start <= |s|
    ensures end == |s| - TrailingRun(s[start..], cls)
  {
    end := |s|;
    ghost var u := s[start..];
    while start < end && Strippable(cls, s[end - 1])
      invariant start <= end <= |s|
      invariant forall i :: end <= i < |s| ==> Strippable(cls, s[i])
    {
      end := end - 1;
    }
    forall i | |u| - (|s| - end) <= i < |u| ensures Strippable(cls, u[i]) {
      assert u[i] == s[start + i];
    }
    if start < end {
      assert u[|u| - (|s| - end) - 1] == s[end - 1];
    }
    TrailingRunUnique(u, cls, |s| - end);
  }

  /** trim(str, stripChars, mode), the private engine behind every trimStart,
      trimEnd and trim(str, stripChars) overload. */
  method Trim(str: JString, stripChars: JString, mode: int) returns (r: JString)
    ensures r == TrimSpec(str, stripChars, mode)
  {
    if str.None? {
      return None;
    }
    var s := str.value;
    var cls := if stripChars.None? then Whitespace else AnyOf(stripChars.value);
    var length := |s|;
    var start := 0;
    var end := length;
    if mode <= 0 {
      if stripChars == Some("") {
        return str;
      }
      start := ScanFront(s, cls);
    }
    if mode >= 0 {
      if stripChars == Some("") {
        return str;
      }
      end := ScanBack(s, cls, start);
    }
    assert start == TrimStartIndex(s, cls, mode) && end == TrimEndIndex(s, cls, mode);
    if start > 0 || end < length {
      return Some(s[start..end]);
    }
    assert s[start..end] == s;
    return str;
  }

  /** A null string stays null; an empty stripChars returns the string unchanged. */
  lemma TrimSpecialCases(str: JString, stripChars: JString, mode: int)
    ensures str.None? ==> TrimSpec(str, stripChars, mode).None?
    ensures stripChars == Some("") ==> TrimSpec(str, stripChars, mode) == str
  {
  }

  /** The strippable suffix of `s[a..]`, seen as positions of `s`. */
  lemma TrailingRunOfSuffix(s: string, cls: CharClass, a: nat)
    requires a <= |s|
    ensures var k := TrailingRun(s[a..], cls);
      && (forall i :: |s| - k <= i < |s| ==> Strippable(cls, s[i]))
      && (k < |s| - a ==> !Strippable(cls, s[|s| - k - 1]))
  {
    var u := s[a..];
    var k := TrailingRun(u, cls);
    forall i | |s| - k <= i < |s| ensures Strippable(cls, s[i]) {
      assert s[i] == u[i - a];
    }
    if k < |u| {
      assert s[|s| - k - 1] == u[|u| - k - 1];
    }
  }

  /** trim strips exactly the longest strippable prefix (for mode <= 0) and
      then the longest strippable suffix of the rest (for mode >= 0), and keeps
      everything between in place. */
  lemma TrimRemovesLongestRuns(s: string, cls: CharClass, mode: int)
    ensures var a, b := TrimStartIndex(s, cls, mode), TrimEndIndex(s, cls, mode);
      && TrimCore(s, cls, mode) == s[a..b]
      && (forall i :: 0 <= i < a ==> Strippable(cls, s[i]))
      && (forall i :: b <= i < |s| ==> Strippable(cls, s[i]))
      && (mode <= 0 && a < b ==> !Strippable(cls, s[a]))
      && (mode >= 0 && a < b ==> !Strippable(cls, s[b - 1]))
      && (mode > 0 ==> a == 0)
      && (mode < 0 ==> b == |s|)
  {
    var a := TrimStartIndex(s, cls, mode);
    if mode >= 0 {
      TrailingRunOfSuffix(s, cls, a);
    }
  }

  /** A trimmed string has nothing left to strip at the front. */
  lemma TrimmedFrontClean(s: string, cls: CharClass, mode: int)
    ensures TrimStartIndex(TrimCore(s, cls, mode), cls, mode) == 0
  {
    if mode <= 0 {
      TrimRemovesLongestRuns(s, cls, mode);
      var t := TrimCore(s, cls, mode);
      var a := TrimStartIndex(s, cls, mode);
      if |t| > 0 {
        assert t[0] == s[a];
      }
      LeadingRunUnique(t, cls, 0);
    }
  }

  /** A trimmed string has nothing left to strip at the back. */
  lemma TrimmedBackClean(s: string, cls: CharClass, mode: int)
    ensures var t := TrimCore(s, cls, mode); TrimEndIndex(t, cls, mode) == |t|
  {
    var t := TrimCore(s, cls, mode);
    TrimmedFrontClean(s, cls, mode);
    if mode >= 0 {
      TrimRemovesLongestRuns(s, cls, mode);
      var b := TrimEndIndex(s, cls, mode);
      if |t| > 0 {
        assert t[|t| - 1] == s[b - 1];
      }
      assert t[0..] == t;
      TrailingRunUnique(t, cls, 0);
    }
  }

  /** Trimming twice is trimming once. */
  lemma TrimCoreIdempotent(s: string, cls: CharClass, mode: int)
    ensures TrimCore(TrimCore(s, cls, mode), cls, mode) == TrimCore(s, cls, mode)
  {
    var t := TrimCore(s, cls, mode);
    TrimmedFrontClean(s, cls, mode);
    TrimmedBackClean(s, cls, mode);
    assert t[0..|t|] == t;
  }

  /** The same for trim itself, null and empty stripChars included. */
  lemma TrimSpecIdempotent(str: JString, stripChars: JString, mode: int)
    ensures TrimSpec(TrimSpec(str, stripChars, mode), stripChars, mode) == TrimSpec(str, stripChars, mode)
  {
    if str.Some? && stripChars != Some("") {
      TrimCoreIdempotent(str.value, if stripChars.None? then Whitespace else AnyOf(stripChars.value), mode);
    }
  }

  /** trim(str, stripChars): both ends. */
  method TrimWith(str: JString, stripChars: JString) returns (r: JString)
    ensures r == TrimSpec(str, stripChars, 0)
  {
    r := Trim(str, stripChars, 0);
  }

  /** trimStart(str): leading whitespace (Character.isWhitespace). */
  method TrimStart(str: JString) returns (r: JString)
    ensures r == TrimSpec(str, None, -1)
  {
    r := Trim(str, None, -1);
  }

  /** trimStart(str, stripChars). */
  method TrimStartWith(str: JString, stripChars: JString) returns (r: JString)
    ensures r == TrimSpec(str, stripChars, -1)
  {
    r := Trim(str, stripChars, -1);
  }

  /** trimEnd(str): trailing whitespace (Character.isWhitespace). */
  method TrimEnd(str: JString) returns (r: JString)
    ensures r == TrimSpec(str, None, 1)
  {
    r := Trim(str, None, 1);
  }

  /** trimEnd(str, stripChars). */
  method TrimEndWith(str: JString, stripChars: JString) returns (r: JString)
    ensures r == TrimSpec(str, stripChars, 1)
  {
    r := Trim(str, stripChars, 1);
  }

  /** trimToNull(str, stripChars): null when the trimmed result is null or empty. */
  method TrimToNullWith(str: JString, stripChars: JString) returns (r: JString)
    ensures r.None? <==> IsNullOrEmpty(TrimSpec(str, stripChars, 0))
    ensures r.Some? ==> r == TrimSpec(str, stripChars, 0)
  {
    var result := Trim(str, stripChars, 0);
    if result.None? || |result.value| == 0 {
      return None;
    }
    return result;
  }

  /** trimToEmpty(str, stripChars): "" in place of null. */
  method TrimToEmptyWith(str: JString, stripChars: JString) returns (r: string)
    ensures TrimSpec(str, stripChars, 0).None? ==> r == ""
    ensures TrimSpec(str, stripChars, 0).Some? ==> r == TrimSpec(str, stripChars, 0).value
  {
    var result := Trim(str, stripChars, 0);
    if result.None? {
      return "";
    }
    return result.value;
  }

  // ---------------------------------------------------------------------
  // The one-argument overloads, which use String.trim
  // ---------------------------------------------------------------------

  /** String.trim: strips characters up to U+0020 from both ends. */
  function StringTrim(s: string): string
  {
    TrimCore(s, AtMostSpace, 0)
  }

  /** trim(str). */
  function TrimString(str: JString): (r: JString)
    ensures r.None? <==> str.None?
    ensures r.Some? ==> r.value == StringTrim(str.value)
  {
    if str.None? then None else Some(StringTrim(str.value))
  }

  /** trimToNull(str): null for null and for a string that trims to "";
      otherwise the trimmed string, which has a character above U+0020 at
      each end. */
  function TrimToNull(str: JString): (r: JString)
    ensures r.None? <==> str.None? || |StringTrim(str.value)| == 0
    ensures r.Some? ==> r.value == StringTrim(str.value)
    ensures r.Some? ==> |r.value| > 0 && r.value[0] > ' ' && r.value[|r.value| - 1] > ' '
  {
    if str.None? then None
    else
      var result := StringTrim(str.value);
      TrimRemovesLongestRuns(str.value, AtMostSpace, 0);
      if |result| == 0 then None else Some(result)
  }

  /** trimToEmpty(str): "" for null, otherwise the trimmed string; a
      non-empty result has a character above U+0020 at each end. */
  function TrimToEmpty(str: JString): (r: string)
    ensures str.None? ==> r == ""
    ensures str.Some? ==> r == StringTrim(str.value)
    ensures |r| > 0 ==> r[0] > ' ' && r[|r| - 1] > ' '
  {
    if str.None? then ""
    else
      TrimRemovesLongestRuns(str.value, AtMostSpace, 0);
      StringTrim(str.value)
  }

  /** trimToNull is null exactly when trimToEmpty is "", and otherwise agrees with it;
      both agree with trim on a non-null string. */
  lemma TrimToNullVersusEmpty(str: JString)
    ensures TrimToNull(str).None? <==> TrimToEmpty(str) == ""
    ensures TrimToNull(str).Some? ==> TrimToNull(str).value == TrimToEmpty(str)
    ensures str.None? ==> TrimToEmpty(str) == ""
    ensures str.Some? ==> TrimToEmpty(str) == TrimString(str).value
  {
  }

  // ---------------------------------------------------------------------
  // join
  // ---------------------------------------------------------------------

  /** How join prints one element: nothing for null, toString() otherwise. */
  function JoinPart(v: Value): string
  {
    if v.Null? then "" else Render(v)
  }

  function JoinParts(a: seq<Value>): (r: seq<string>)
    ensures |r| == |a| && forall i :: 0 <= i < |a| ==> r[i] == JoinPart(a[i])
  {
    seq(|a|, i requires 0 <= i < |a| => JoinPart(a[i]))
  }

  /** The length join assumes for every element when it sizes its buffer:
      16 when the first element is null, its printed length otherwise. */
  function FirstLength(a: seq<Value>): nat
    requires |a| > 0
  {
    if a[0].Null? then 16 else |Render(a[0])|
  }

  /** The initial StringBuffer capacity of join(Object[], String), computed in
      `int` arithmetic: 0 for an empty array, otherwise the number of elements
      times the first length plus the separator length. */
  function JoinCapacity(a: seq<Value>, sep: string): Int32
  {
    if |a| == 0 then 0 else Wrap32(|a| * Wrap32(FirstLength(a) + |sep|))
  }

  /** The initial capacity of join(Object[], char): the first length plus one,
      times the number of elements, in `int` arithmetic. */
  function JoinCharCapacity(a: seq<Value>): Int32
  {
    if |a| == 0 then 0 else Wrap32(Wrap32(FirstLength(a) + 1) * |a|)
  }

  /** One more element adds its printed part at the end. */
  lemma JoinPartsSnoc(a: seq<Value>, i: nat)
    requires i < |a|
    ensures JoinParts(a[..i + 1]) == JoinParts(a[..i]) + [JoinPart(a[i])]
  {
    assert a[..i + 1] == a[..i] + [a[i]];
  }

  /** The append loop shared by both joins: every element in order, a null one
      as nothing, with the separator before every element but the first. */
  method AppendAll(a: seq<Value>, sep: string) returns (buf: string)
    ensures buf == Joined(JoinParts(a), sep)
  {
    buf := "";
    var i := 0;
    while i < |a|
      invariant 0 <= i <= |a|
      invariant buf == Joined(JoinParts(a[..i]), sep)
    {
      ghost var parts := JoinParts(a[..i]);
      ghost var part := JoinPart(a[i]);
      JoinPartsSnoc(a, i);
      JoinedSnoc(parts, part, sep);
      assert |parts| == i;
      if i > 0 {
        buf := buf + sep;
      }
      if !a[i].Null? {
        assert part == Render(a[i]);
        buf := buf + Render(a[i]);
      } else {
        assert part == "";
      }
      i := i + 1;
    }
    assert a[..|a|] == a;
  }

  /** join(Object[], String): null for a null array; a null separator is "";
      a buffer capacity that overflows to a negative int throws
      NegativeArraySizeException; otherwise null elements print as "" and the
      separator appears between neighbours only. */
  method Join(arr: Option<seq<Value>>, separator: JString) returns (r: Result<JString>)
    ensures arr.None? ==> r == Ok(None)
    ensures arr.Some? ==>
      var sep := if separator.Some? then separator.value else "";
      if JoinCapacity(arr.value, sep) < 0 then r == Err(NegativeArraySizeException)
      else r == Ok(Some(Joined(JoinParts(arr.value), sep)))
  {
    if arr.None? {
      return Ok(None);
    }
    var sep := if separator.Some? then separator.value else "";
    if JoinCapacity(arr.value, sep) < 0 {
      return Err(NegativeArraySizeException);
    }
    var buf := AppendAll(arr.value, sep);
    return Ok(Some(buf));
  }

  /** join(Object[], char): the same result with a one-character separator, and
      its own capacity estimate. */
  method JoinChar(arr: Option<seq<Value>>, separator: char) returns (r: Result<JString>)
    ensures arr.None? ==> r == Ok(None)
    ensures arr.Some? ==>
      if JoinCharCapacity(arr.value) < 0 then r == Err(NegativeArraySizeException)
      else r == Ok(Some(Joined(JoinParts(arr.value), [separator])))
  {
    if arr.None? {
      return Ok(None);
    }
    if JoinCharCapacity(arr.value) < 0 {
      return Err(NegativeArraySizeException);
    }
    var buf := AppendAll(arr.value, [separator]);
    return Ok(Some(buf));
  }

  /** While the estimate fits in an int, the capacity is the exact product, so
      join(Object[], String) never throws. */
  lemma JoinCapacityFits(a: seq<Value>, sep: string)
    requires |a| > 0
    requires |a| * (FirstLength(a) + |sep|) <= INT_MAX
    ensures JoinCapacity(a, sep) == |a| * (FirstLength(a) + |sep|)
    ensures JoinCapacity(a, sep) >= 0
  {
    ProductAtLeastFactor(|a|, FirstLength(a) + |sep|);
  }

  /** The same for join(Object[], char). */
  lemma JoinCharCapacityFits(a: seq<Value>)
    requires |a| > 0
    requires (FirstLength(a) + 1) * |a| <= INT_MAX
    ensures JoinCharCapacity(a) == (FirstLength(a) + 1) * |a|
    ensures JoinCharCapacity(a) >= 0
  {
    ProductAtLeastFactor(|a|, FirstLength(a) + 1);
  }

  /** n * m >= m for n >= 1 and m >= 0. */
  lemma ProductAtLeastFactor(n: int, m: int)
    requires n >= 1 && m >= 0
    ensures n * m >= m && m * n == n * m
  {
  }

  /** 65536 elements whose first is a string of 32768 characters and whose
      others are null: with an empty separator the capacity 2^31 wraps to
      Integer.MIN_VALUE, so join throws instead of returning that string. */
  lemma JoinCapacityOverflow(s: string)
    requires |s| == 32768
    ensures JoinCapacity([Str(s)] + seq(65535, _ => Null), "") == INT_MIN
  {
    var a := [Str(s)] + seq(65535, _ => Null);
    assert a[0] == Str(s);
    assert FirstLength(a) == 32768;
    assert Wrap32(65536 * 32768) == INT_MIN;
  }

  /** The char form overflows one character earlier: a first string of 32767
      characters gives 32768 * 65536 = 2^31, which wraps negative. */
  lemma JoinCharCapacityOverflow(s: string)
    requires |s| == 32767
    ensures JoinCharCapacity([Str(s)] + seq(65535, _ => Null)) == INT_MIN
  {
    var a := [Str(s)] + seq(65535, _ => Null);
    assert a[0] == Str(s);
    assert FirstLength(a) == 32767;
    assert Wrap32(32768 * 65536) == INT_MIN;
  }

  /** The documented examples: [null, "", "a"] joined with ';' is ";;a",
      and with no separator it is "a". */
  lemma JoinExample()
    ensures Joined(JoinParts([Null, Str(""), Str("a")]), ";") == ";;a"
    ensures Joined(JoinParts([Null, Str(""), Str("a")]), "") == "a"
  {
    var parts := JoinParts([Null, Str(""), Str("a")]);
    assert parts == ["", "", "a"];
    assert parts[..2][..1] == [""];
  }

  // ---------------------------------------------------------------------
  // Case conversion (ASCII letters)
  // ---------------------------------------------------------------------

  predicate IsUppercaseAlpha(c: char) {
    'A' <= c <= 'Z'
  }

  predicate IsLowercaseAlpha(c: char) {
    'a' <= c <= 'z'
  }

  /** toUpperAscii: a lower-case ASCII letter moves down by 0x20. */
  function ToUpperAscii(c: char): (r: char)
    ensures IsLowercaseAlpha(c) ==> IsUppercaseAlpha(r) && r as int == c as int - 0x20
    ensures !IsLowercaseAlpha(c) ==> r == c
  {
    if IsLowercaseAlpha(c) then (c as int - 0x20) as char else c
  }

  /** toLowerAscii: an upper-case ASCII letter moves up by 0x20. */
  function ToLowerAscii(c: char): (r: char)
    ensures IsUppercaseAlpha(c) ==> IsLowercaseAlpha(r) && r as int == c as int + 0x20
    ensures !IsUppercaseAlpha(c) ==> r == c
  {
    if IsUppercaseAlpha(c) then (c as int + 0x20) as char else c
  }

  function UpperAll(s: string): (r: string)
    ensures |r| == |s| && forall i :: 0 <= i < |s| ==> r[i] == ToUpperAscii(s[i])
  {
    seq(|s|, i requires 0 <= i < |s| => ToUpperAscii(s[i]))
  }

  function LowerAll(s: string): (r: string)
    ensures |r| == |s| && forall i :: 0 <= i < |s| ==> r[i] == ToLowerAscii(s[i])
  {
    seq(|s|, i requires 0 <= i < |s| => ToLowerAscii(s[i]))
  }

  /** toLowerCase(str): null-safe. */
  function ToLowerCase(str: JString): (r: JString)
    ensures r.None? <==> str.None?
    ensures r.Some? ==> r.value == LowerAll(str.value)
  {
    if str.None? then None else Some(LowerAll(str.value))
  }

  /** toUpperCase(str, index): the first index + 1 characters upper-cased and
      the rest kept; the whole string when index < 0 or index >= length. */
  function ToUpperCaseUpTo(str: JString, index: int): (r: JString)
    ensures r.None? <==> str.None?
    ensures r.Some? ==> |r.value| == |str.value|
    ensures r.Some? ==> forall i :: 0 <= i < |str.value| ==>
      r.value[i] == if index < 0 || index >= |str.value| || i <= index then ToUpperAscii(str.value[i]) else str.value[i]
  {
    if str.None? then None
    else if index < 0 || |str.value| <= index then Some(UpperAll(str.value))
    else Some(UpperAll(str.value[..index + 1]) + str.value[index + 1..])
  }

  // ---------------------------------------------------------------------
  // longToString: base-62 (or base-36) digits, least significant first
  // ---------------------------------------------------------------------

  const DECIMAL_DIGITS: string := "0123456789"
  const UPPER_LETTERS: string := "ABCDEFGHIJKLMNOPQRSTUVWXYZ"
  const LOWER_LETTERS: string := "abcdefghijklmnopqrstuvwxyz"

  /** DIGITS and DIGITS_NOCASE. */
  const DIGITS: string := DECIMAL_DIGITS + UPPER_LETTERS + LOWER_LETTERS
  const DIGITS_NOCASE: string := DECIMAL_DIGITS + UPPER_LETTERS

  const LONG_MIN: int := -0x8000_0000_0000_0000
  const LONG_MAX: int := 0x7fff_ffff_ffff_ffff

  type Int64 = x: int | LONG_MIN <= x <= LONG_MAX

  function Alphabet(noCase: bool): (a: string)
    ensures |a| == if noCase then 36 else 62
  {
    if noCase then DIGITS_NOCASE else DIGITS
  }

  /** The position of a character in DIGITS, or -1. */
  function DigitValue(c: char): int
  {
    if '0' <= c <= '9' then c as int - '0' as int
    else if 'A' <= c <= 'Z' then c as int - 'A' as int + 10
    else if 'a' <= c <= 'z' then c as int - 'a' as int + 36
    else -1
  }

  lemma DecimalAt(d: nat)
    requires d < 10
    ensures DECIMAL_DIGITS[d] == ('0' as int + d) as char
  {
  }

  lemma UpperAt(d: nat)
    requires d < 26
    ensures UPPER_LETTERS[d] == ('A' as int + d) as char
  {
  }

  lemma LowerAt(d: nat)
    requires d < 26
    ensures LOWER_LETTERS[d] == ('a' as int + d) as char
  {
  }

  /** Either alphabet is the decimal digits, then the upper-case letters,
      then (for DIGITS) the lower-case letters. */
  lemma AlphabetAt(noCase: bool, d: nat)
    requires d < |Alphabet(noCase)|
    ensures Alphabet(noCase)[d] ==
      if d < 10 then DECIMAL_DIGITS[d] else if d < 36 then UPPER_LETTERS[d - 10] else LOWER_LETTERS[d - 36]
  {
    assert |DECIMAL_DIGITS| == 10 && |UPPER_LETTERS| == 26;
  }

  /** Reading a digit back from either alphabet gives its position. */
  lemma AlphabetDigitValue(noCase: bool, d: nat)
    requires d < |Alphabet(noCase)|
    ensures DigitValue(Alphabet(noCase)[d]) == d
  {
    if d < 10 {
      DecimalDigitValue(noCase, d);
    } else if d < 36 {
      UpperDigitValue(noCase, d);
    } else {
      LowerDigitValue(noCase, d);
    }
  }

  lemma DecimalDigitValue(noCase: bool, d: nat)
    requires d < 10
    ensures DigitValue(Alphabet(noCase)[d]) == d
  {
    AlphabetAt(noCase, d);
    DecimalAt(d);
    DigitValueOfChar(Alphabet(noCase)[d], '0', d, 0);
  }

  lemma UpperDigitValue(noCase: bool, d: nat)
    requires 10 <= d < 36
    ensures DigitValue(Alphabet(noCase)[d]) == d
  {
    AlphabetAt(noCase, d);
    UpperAt(d - 10);
    DigitValueOfChar(Alphabet(noCase)[d], 'A', d - 10, 10);
  }

  lemma LowerDigitValue(noCase: bool, d: nat)
    requires 36 <= d < |Alphabet(noCase)|
    ensures DigitValue(Alphabet(noCase)[d]) == d
  {
    AlphabetAt(noCase, d);
    LowerAt(d - 36);
    DigitValueOfChar(Alphabet(noCase)[d], 'a', d - 36, 36);
  }

  /** The k-th character of one of the three ranges reads back as the
      range's first value plus k. */
  lemma DigitValueOfChar(c: char, first: char, k: nat, offset: nat)
    requires (first == '0' && k < 10 && offset == 0) || (first == 'A' && k < 26 && offset == 10)
      || (first == 'a' && k < 26 && offset == 36)
    requires c == (first as int + k) as char
    ensures DigitValue(c) == offset + k
  {
  }

  /** The digits of n in the alphabet's base, least significant first ("" for 0). */
  function Encode(n: nat, noCase: bool): string
    decreases n
  {
    var b := |Alphabet(noCase)|;
    if n == 0 then "" else [Alphabet(noCase)[n % b]] + Encode(n / b, noCase)
  }

  /** Reads a digit string least significant first. */
  function Decode(s: string, noCase: bool): int
  {
    if |s| == 0 then 0 else DigitValue(s[0]) + |Alphabet(noCase)| * Decode(s[1..], noCase)
  }

  lemma {:induction false} DecodeEncode(n: nat, noCase: bool)
    ensures Decode(Encode(n, noCase), noCase) == n
    decreases n
  {
    if n > 0 {
      var b := |Alphabet(noCase)|;
      var e := Encode(n, noCase);
      AlphabetDigitValue(noCase, n % b);
      DecodeEncode(n / b, noCase);
      assert e[1..] == Encode(n / b, noCase);
    }
  }

  lemma {:induction false} EncodeInAlphabet(n: nat, noCase: bool)
    ensures forall i :: 0 <= i < |Encode(n, noCase)| ==> Encode(n, noCase)[i] in Alphabet(noCase)
    ensures n > 0 ==> |Encode(n, noCase)| > 0
    decreases n
  {
    if n > 0 {
      EncodeInAlphabet(n / |Alphabet(noCase)|, noCase);
    }
  }

  /** What longToString is meant to return for any long: "0" for zero,
      otherwise the digits of |v|. */
  function LongToStringSpec(v: int, noCase: bool): string
  {
    if v == 0 then [Alphabet(noCase)[0]] else Encode(Abs(v), noCase)
  }

  /** Every character comes from the alphabet, the string read least
      significant first is |v|, and v and -v print alike. */
  lemma LongToStringSpecProperties(v: int, noCase: bool)
    ensures var r := LongToStringSpec(v, noCase);
      && |r| > 0
      && (forall i :: 0 <= i < |r| ==> r[i] in Alphabet(noCase))
      && Decode(r, noCase) == Abs(v)
      && r == LongToStringSpec(-v, noCase)
  {
    EncodeInAlphabet(Abs(v), noCase);
    DecodeEncode(Abs(v), noCase);
    if v == 0 {
      AlphabetDigitValue(noCase, 0);
      assert Decode([Alphabet(noCase)[0]], noCase) == DigitValue(Alphabet(noCase)[0]);
    }
  }

  /** Java's `long` negation: -Long.MIN_VALUE is Long.MIN_VALUE again. */
  function Negate64(v: Int64): Int64
  {
    if v == LONG_MIN then LONG_MIN else -v
  }

  /** Long.MIN_VALUE % 62 and Long.MIN_VALUE % 36 are both -8 in Java. */
  lemma MinValueRemainder(noCase: bool)
    ensures JavaRem(LONG_MIN, |Alphabet(noCase)|) == -8
  {
    assert 0x8000_0000_0000_0000 / 62 == 148764065110560900;
    assert 0x8000_0000_0000_0000 / 36 == 256204778801521550;
  }

  /** One round of the digit loop on a positive value. */
  lemma DigitStep(v: nat, noCase: bool)
    requires v > 0
    ensures var b := |Alphabet(noCase)|;
      && JavaRem(v, b) == v % b
      && JavaDiv(v, b) == v / b < v
      && Encode(v, noCase) == [Alphabet(noCase)[v % b]] + Encode(v / b, noCase)
  {
  }

  /** One round of the digit loop: a negative value (only Long.MIN_VALUE
      gets here) gives a negative digit; a positive one emits its least
      significant digit and moves on to the quotient. */
  lemma DigitRound(v: Int64, longValue: Int64, buf: string, noCase: bool)
    requires v != 0
    requires v < 0 ==> v == LONG_MIN && longValue == LONG_MIN
    requires v >= 0 ==> longValue != LONG_MIN && buf + Encode(v, noCase) == Encode(Abs(longValue), noCase)
    ensures var b := |Alphabet(noCase)|; var digit := JavaRem(v, b);
      && (digit < 0 <==> v < 0)
      && (digit >= 0 ==>
            && digit < b && 0 <= JavaDiv(v, b) < v
            && (buf + [Alphabet(noCase)[digit]]) + Encode(JavaDiv(v, b), noCase) == Encode(Abs(longValue), noCase))
  {
    if v < 0 {
      MinValueRemainder(noCase);
    } else {
      var b := |Alphabet(noCase)|;
      DigitStep(v, noCase);
      assert (buf + [Alphabet(noCase)[v % b]]) + Encode(v / b, noCase) == buf + ([Alphabet(noCase)[v % b]] + Encode(v / b, noCase));
    }
  }

  /** longToString(long, noCase), as written: a negative value is negated
      first, and Long.MIN_VALUE, which stays negative, produces a negative
      remainder that indexes the digit table out of bounds. */
  method LongToString(longValue: Int64, noCase: bool) returns (r: Result<string>)
    ensures longValue != LONG_MIN ==> r == Ok(LongToStringSpec(longValue, noCase))
    ensures longValue == LONG_MIN ==> r == Err(IndexOutOfBounds)
  {
    var digits := Alphabet(noCase);
    var digitsLength := |digits|;
    if longValue == 0 {
      return Ok([digits[0]]);
    }
    var v: Int64 := longValue;
    if v < 0 {
      v := Negate64(v);
    }
    var buf := "";
    while v != 0
      invariant v < 0 ==> v == LONG_MIN && longValue == LONG_MIN
      invariant v >= 0 ==> longValue != LONG_MIN && buf + Encode(v, noCase) == Encode(Abs(longValue), noCase)
      decreases Abs(v)
    {
      var digit := JavaRem(v, digitsLength);
      DigitRound(v, longValue, buf, noCase);
      if digit < 0 {
        // digits[digit] throws
        return Err(IndexOutOfBounds);
      }
      v := JavaDiv(v, digitsLength);
      buf := buf + [digits[digit]];
    }
    assert buf + Encode(0, noCase) == buf;
    return Ok(buf);
  }

  // ---------------------------------------------------------------------
  // SQL parameter escaping
  // ---------------------------------------------------------------------

  /** String.replace(target, replacement) for a one-character target. */
  function ReplaceChar(s: string, target: char, replacement: string): (r: string)
    ensures target !in replacement ==> target !in r
  {
    if |s| == 0 then ""
    else (if s[0] == target then replacement else [s[0]]) + ReplaceChar(s[1..], target, replacement)
  }

  lemma {:induction false} ReplaceCharAppend(a: string, b: string, target: char, replacement: string)
    ensures ReplaceChar(a + b, target, replacement) == ReplaceChar(a, target, replacement) + ReplaceChar(b, target, replacement)
  {
    if |a| == 0 {
      assert a + b == b;
    } else {
      assert (a + b)[0] == a[0];
      assert (a + b)[1..] == a[1..] + b;
      ReplaceCharAppend(a[1..], b, target, replacement);
    }
  }

  /** formatBaseQueryParam: every single quote doubled. */
  function FormatBaseQueryParam(sqlParam: JString): Result<string>
  {
    if sqlParam.None? then Err(NullPointerException) else Ok(ReplaceChar(sqlParam.value, '\'', "''"))
  }

  /** formatLikeQueryParam: quotes doubled, then [ -> [[], % -> [%], _ -> [_], ^ -> [^]. */
  function FormatLikeQueryParam(sqlParam: JString): Result<string>
  {
    if sqlParam.None? then Err(NullPointerException)
    else
      var s1 := ReplaceChar(sqlParam.value, '\'', "''");
      var s2 := ReplaceChar(s1, '[', "[[]");
      var s3 := ReplaceChar(s2, '%', "[%]");
      var s4 := ReplaceChar(s3, '_', "[_]");
      Ok(ReplaceChar(s4, '^', "[^]"))
  }

  /** How formatLikeQueryParam rewrites one character. */
  function LikeEscapeChar(c: char): string
  {
    if c == '\'' then "''"
    else if c == '[' then "[[]"
    else if c == '%' then "[%]"
    else if c == '_' then "[_]"
    else if c == '^' then "[^]"
    else [c]
  }

  function LikeEscape(s: string): string
  {
    if |s| == 0 then "" else LikeEscapeChar(s[0]) + LikeEscape(s[1..])
  }

  function LikeChain(s: string): string
  {
    ReplaceChar(ReplaceChar(ReplaceChar(ReplaceChar(ReplaceChar(s, '\'', "''"), '[', "[[]"), '%', "[%]"), '_', "[_]"), '^', "[^]")
  }

  lemma LikeChainAppend(a: string, b: string)
    ensures LikeChain(a + b) == LikeChain(a) + LikeChain(b)
  {
    var a1, b1 := ReplaceChar(a, '\'', "''"), ReplaceChar(b, '\'', "''");
    ReplaceCharAppend(a, b, '\'', "''");
    var a2, b2 := ReplaceChar(a1, '[', "[[]"), ReplaceChar(b1, '[', "[[]");
    ReplaceCharAppend(a1, b1, '[', "[[]");
    var a3, b3 := ReplaceChar(a2, '%', "[%]"), ReplaceChar(b2, '%', "[%]");
    ReplaceCharAppend(a2, b2, '%', "[%]");
    var a4, b4 := ReplaceChar(a3, '_', "[_]"), ReplaceChar(b3, '_', "[_]");
    ReplaceCharAppend(a3, b3, '_', "[_]");
    ReplaceCharAppend(a4, b4, '^', "[^]");
  }

  lemma ReplaceCharUntouched(s: string, target: char, replacement: string)
    requires target !in s
    ensures ReplaceChar(s, target, replacement) == s
  {
    if |s| > 0 {
      ReplaceCharUntouched(s[1..], target, replacement);
    }
  }

  lemma ReplaceCharOne(c: char, target: char, replacement: string)
    ensures ReplaceChar([c], target, replacement) == if c == target then replacement else [c]
  {
    assert [c][1..] == "";
  }

  /** The chain on a single quote: only the first replacement applies. */
  lemma LikeChainQuote()
    ensures LikeChain("'") == "''"
  {
    ReplaceCharOne('\'', '\'', "''");
    ReplaceCharUntouched("''", '[', "[[]");
    ReplaceCharUntouched("''", '%', "[%]");
    ReplaceCharUntouched("''", '_', "[_]");
    ReplaceCharUntouched("''", '^', "[^]");
  }

  /** The chain on '[': the output of the second replacement has none of
      the later targets. */
  lemma LikeChainBracket()
    ensures LikeChain("[") == "[[]"
  {
    ReplaceCharOne('[', '\'', "''");
    ReplaceCharOne('[', '[', "[[]");
    ReplaceCharUntouched("[[]", '%', "[%]");
    ReplaceCharUntouched("[[]", '_', "[_]");
    ReplaceCharUntouched("[[]", '^', "[^]");
  }

  lemma LikeChainPercent()
    ensures LikeChain("%") == "[%]"
  {
    ReplaceCharOne('%', '\'', "''");
    ReplaceCharOne('%', '[', "[[]");
    ReplaceCharOne('%', '%', "[%]");
    ReplaceCharUntouched("[%]", '_', "[_]");
    ReplaceCharUntouched("[%]", '^', "[^]");
  }

  lemma LikeChainUnderscore()
    ensures LikeChain("_") == "[_]"
  {
    ReplaceCharOne('_', '\'', "''");
    ReplaceCharOne('_', '[', "[[]");
    ReplaceCharOne('_', '%', "[%]");
    ReplaceCharOne('_', '_', "[_]");
    ReplaceCharUntouched("[_]", '^', "[^]");
  }

  /** A character none of the five replacements targets passes through. */
  lemma LikeChainOther(c: char)
    requires c != '\'' && c != '[' && c != '%' && c != '_'
    ensures LikeChain([c]) == if c == '^' then "[^]" else [c]
  {
    ReplaceCharOne(c, '\'', "''");
    ReplaceCharOne(c, '[', "[[]");
    ReplaceCharOne(c, '%', "[%]");
    ReplaceCharOne(c, '_', "[_]");
    ReplaceCharOne(c, '^', "[^]");
  }

  lemma LikeChainOne(c: char)
    ensures LikeChain([c]) == LikeEscapeChar(c)
  {
    if c == '\'' {
      LikeChainQuote();
    } else if c == '[' {
      LikeChainBracket();
    } else if c == '%' {
      LikeChainPercent();
    } else if c == '_' {
      LikeChainUnderscore();
    } else {
      LikeChainOther(c);
    }
  }


  /** The five chained replacements act character by character: no later
      replacement touches what an earlier one inserted. */
  lemma {:induction false} FormatLikeIsPerCharEscape(s: string)
    ensures FormatLikeQueryParam(Some(s)) == Ok(LikeEscape(s))
  {
    if |s| > 0 {
      assert s == [s[0]] + s[1..];
      LikeChainAppend([s[0]], s[1..]);
      LikeChainOne(s[0]);
      FormatLikeIsPerCharEscape(s[1..]);
    }
  }

  /** Undoes formatBaseQueryParam: a doubled quote reads as one quote. */
  function UnescapeQuotes(s: string): string
  {
    if |s| >= 2 && s[..2] == "''" then "'" + UnescapeQuotes(s[2..])
    else if |s| == 0 then ""
    else [s[0]] + UnescapeQuotes(s[1..])
  }

  /** formatBaseQueryParam loses nothing: its result decodes back to the input. */
  lemma {:induction false} FormatBaseRoundTrip(s: string)
    ensures UnescapeQuotes(ReplaceChar(s, '\'', "''")) == s
  {
    if |s| > 0 {
      var rest := ReplaceChar(s[1..], '\'', "''");
      FormatBaseRoundTrip(s[1..]);
      if s[0] == '\'' {
        assert ("''" + rest)[..2] == "''";
        assert ("''" + rest)[2..] == rest;
      } else {
        assert ([s[0]] + rest)[1..] == rest;
      }
      assert s == [s[0]] + s[1..];
    }
  }

  /** Undoes formatLikeQueryParam. */
  function UnescapeLike(s: string): string
  {
    if |s| >= 2 && s[..2] == "''" then "'" + UnescapeLike(s[2..])
    else if |s| >= 3 && s[..3] == "[[]" then "[" + UnescapeLike(s[3..])
    else if |s| >= 3 && s[..3] == "[%]" then "%" + UnescapeLike(s[3..])
    else if |s| >= 3 && s[..3] == "[_]" then "_" + UnescapeLike(s[3..])
    else if |s| >= 3 && s[..3] == "[^]" then "^" + UnescapeLike(s[3..])
    else if |s| == 0 then ""
    else [s[0]] + UnescapeLike(s[1..])
  }

  lemma UnescapeLikeBracket(m: char, rest: string)
    requires m in "[%_^"
    ensures UnescapeLike(['[', m, ']'] + rest) == [m] + UnescapeLike(rest)
  {
    var e := ['[', m, ']'] + rest;
    assert e[..2] != "''" by { assert e[0] == '['; }
    assert e[..3] == ['[', m, ']'];
    assert e[3..] == rest;
  }

  lemma UnescapeLikeStep(c: char, rest: string)
    ensures UnescapeLike(LikeEscapeChar(c) + rest) == [c] + UnescapeLike(rest)
  {
    var e := LikeEscapeChar(c) + rest;
    if c == '\'' {
      assert e[..2] == "''";
      assert e[2..] == rest;
    } else if c in "[%_^" {
      assert LikeEscapeChar(c) == ['[', c, ']'];
      UnescapeLikeBracket(c, rest);
    } else {
      assert e[0] == c;
      assert |e| >= 2 ==> e[..2] != "''" by { assert e[0] != '\''; }
      assert |e| >= 3 ==> e[..3] != "[[]" && e[..3] != "[%]" && e[..3] != "[_]" && e[..3] != "[^]" by { assert e[0] != '['; }
      assert e[1..] == rest;
    }
  }

  /** formatLikeQueryParam loses nothing: its result decodes back to the input. */
  lemma {:induction false} FormatLikeRoundTrip(s: string)
    ensures FormatLikeQueryParam(Some(s)).Ok?
    ensures UnescapeLike(FormatLikeQueryParam(Some(s)).value) == s
  {
    FormatLikeIsPerCharEscape(s);
    LikeEscapeRoundTrip(s);
  }

  lemma {:induction false} LikeEscapeRoundTrip(s: string)
    ensures UnescapeLike(LikeEscape(s)) == s
  {
    if |s| > 0 {
      UnescapeLikeStep(s[0], LikeEscape(s[1..]));
      LikeEscapeRoundTrip(s[1..]);
      assert s == [s[0]] + s[1..];
    }
  }
}

=== FILE: values.dfy ===
/** The Java objects the query builder passes around, as values.

    A Condition may hold arbitrary objects as its values, and an object may
    itself be a Condition (a getter annotated with ConditionValue returns one),
    so the two datatypes are declared together. */
module Values {
  import opened Base

  /** A java.lang.Object reference, by the runtime class the framework tests
      for. Objects whose printed form the model does not compute carry the
      text their toString() returns. */
  datatype Value =
    | Null
    | Str(s: string)                            // a java.lang.String
    | Int(n: int)                               // a java.lang.Integer or Long
    | CharSeq(chars: string)                    // a CharSequence that is not a String, e.g. a StringBuilder
    | Scalar(text: string)                      // any other object that is not an array, CharSequence, Collection or Map
    | Arr(elems: seq<Value>, text: string)      // an Object[] (or an array of any reference type)
    | PrimArr(length: nat, text: string)        // an array of a primitive type: int[], byte[], char[] ...
    | ListObj(elems: seq<Value>, text: string)  // a java.util.List
    | SetObj(elems: seq<Value>, text: string)   // a Collection that is not a List
    | MapObj(size: nat, text: string)           // a java.util.Map
    | CondObj(cond: Condition, text: string)    // a Condition

  /** The four Condition subclasses. Every one inherits `tableAlias` from
      Condition; a String field may be null. */
  datatype Condition =
    | SingleValue(tableAlias: JString, column: JString, equal: JString, value: Value)
    | ListValue(tableAlias: JString, column: JString, equal: JString, values: seq<Value>)
    | BetweenValue(tableAlias: JString, column: JString, beginValue: Value, endValue: Value)
    | WithoutValue(tableAlias: JString, sql: JString)

  /** The decimal digits of a natural number, most significant first. */
  function NatToDecimal(n: nat): (r: string)
    ensures |r| > 0
    ensures forall i :: 0 <= i < |r| ==> '0' <= r[i] <= '9'
    decreases n
  {
    var d := ['0' + (n % 10) as char];
    if n < 10 then d else NatToDecimal(n / 10) + d
  }

  /** Integer.toString / Long.toString. */
  function IntToDecimal(n: int): string
  {
    if n < 0 then "-" + NatToDecimal(-n) else NatToDecimal(n)
  }

  /** String.valueOf(Object), which StringBuilder.append(Object) and string
      concatenation use: "null" for null, otherwise toString(). */
  function Render(v: Value): (r: string)
    ensures v.Str? ==> r == v.s
    ensures v.Null? ==> r == "null"
    ensures v.CharSeq? ==> r == v.chars
  {
    match v
    case Null => "null"
    case Str(s) => s
    case CharSeq(cs) => cs
    case Int(n) => IntToDecimal(n)
    case _ => v.text
  }

  /** The printed forms of a sequence of objects. */
  function Rendered(s: seq<Value>): (r: seq<string>)
    ensures |r| == |s| && forall i :: 0 <= i < |s| ==> r[i] == Render(s[i])
  {
    seq(|s|, i requires 0 <= i < |s| => Render(s[i]))
  }
}
